=== FILE: README.md ===
# Healthcare-quality rankings: a Dafny model of the data pipelines

The project cleans OECD and World Bank health datasets and ranks countries by
the quality of their healthcare. This Dafny model covers its three pure data
transformations:

- **The tidying pipeline** (`tidy`), which every OECD adapter calls. It does the following in order:
  - drops the listed columns;
  - renames the original country, code and year columns to `country`, `code` and `year`;
  - keeps the years 2000 to 2019;
  - lower-cases the labels and replaces spaces with underscores;
  - drops columns that are at least 90% missing, and fails on repeated labels;
  - drops columns that are entirely "Not applicable" or entirely "Not application";
  - asserts that `country` and `year` are still there;
  - keeps only the identifier columns and the numeric columns;
  - sorts by (code, year).
- **The rank aggregation** (`results.py`), which:
  - takes per-country means of every metric;
  - ranks the countries once per quality metric, each in its own direction;
  - derives normalised weights from each metric's standard deviation as a percentage of its mean;
  - sums each country's ranks weighted by a multiplier dict;
  - ranks the countries again by that sum.
- **The wide-to-long reshapes** of the dataset adapters (`preprocess_data.py`):
  - the World Bank expenditure and life-expectancy tables (header promotion, year selection, melt, sort);
  - the GDP table (known countries only, series columns dropped, `YR` labels cut to four characters, melt);
  - the `base_period` filter of the healthcare-capita dataset.

A table (`Frames.Table`) is a list of column labels, a numeric/non-numeric dtype
tag per column, and a sequence of rows of cells (`Missing`, `Num(real)` or `Str(string)`).
Columns are addressed by position, so a repeated label can be represented. A pandas
exception becomes a `Failure` inside a `Result`:

- `KeyError` for a missing label;
- `DuplicateLabel` for a label read as one column that names several;
- `TypeMismatch` for a string compared with a number;
- `AssertionFailed`;
- `IndexError`;
- `NotFinite` for a division whose float result would be infinite or NaN.

The row index of a frame is the position of its row, so every `reset_index(drop=True)` is the identity.

Modules:

- `Frames` (frames.dfy): cells, tables, results, mask selection of rows and columns, and label lookup.
- `Sorting` (sorting.dfy): a key-based insertion sort, proved to be a sorted permutation under any total preorder.
- `Ordering` (ordering.dfy): the orders the pipelines sort by.
- `Tidy` (tidy.dfy): the tidying pipeline.
- `Results` (results.dfy): the rank aggregation.
- `Preprocess` (preprocess.dfy): the reshapes.

## Model

| member | source | states |
|---|---|---|
| Frames.Lookup | tidy.py:66 | Reading `df[n]` as one column succeeds exactly when `n` labels one column, and gives that column's position. It fails with KeyError when `n` labels no column and with DuplicateLabel when `n` labels several. |
| Frames.SelectRows | tidy.py:66 | A boolean row selection keeps the labels and tags. It keeps exactly the rows where the mask holds, in their original order. |
| Frames.SelectedRows | tidy.py:66 | Every row where the mask holds survives a row selection, and every surviving row is an input row where the mask holds. |
| Frames.SelectColumns | tidy.py:40 | Dropping columns keeps the others in order, each with its label, tag and cells. Distinct labels stay distinct. |
| Frames.SelectedNames | tidy.py:40 | A kept column keeps its label. With distinct labels, a label that survives belongs to a kept column. |
| Frames.DropColumnAt | preprocess_data.py:161 | Removing one column leaves every other column's label, tag and cells in order. |
| Sorting.SortBy | tidy.py:104-105 | Under a total preorder on the keys, sorting yields a permutation of its input, ordered by key. |
| Sorting.PermutationKeepsDistinctBy | results.py:79-80 | Reordering rows cannot make two rows share a key that no two rows shared before. |
| Ordering.KeyLeIsTotalPreorder | tidy.py:105 | The (code, year) ascending order is total and transitive over all cells, missing values last. |
| Ordering.ValueOrderIsTotalPreorder | results.py:12 | Both the ascending and the descending order of the means are total preorders, with NaN means last. |
| Tidy.NormalizeName | tidy.py:72 | A normalised label keeps its length. An upper-case ASCII letter becomes its lower-case letter and a space becomes an underscore; every other character is kept. The result contains no upper-case letter and no space. |
| Tidy.NormalizeNameIdempotent | tidy.py:68-74 | Normalising a label that is already normal changes nothing, so normalising twice is the same as normalising once. |
| Tidy.NormalizeNames | tidy.py:68-74 | Every column label is replaced by its normalised form. The cells and tags stay. |
| Tidy.Rename | tidy.py:57-61 | Only the labels that are keys of the rename dict change, each to its value. The cells and tags stay. |
| Tidy.IdentifierRenames | tidy.py:58-60 | The rename dict of the original year, country and code columns maps the code column to `code`. It maps the country and year columns to `country` and `year` when they are not overwritten by a later key. |
| Tidy.DropColumns | tidy.py:49-56 | Dropping a label list succeeds exactly when every listed label is present, and otherwise fails with a KeyError naming an absent label. On success the result has exactly the unlisted columns, in order and unchanged. |
| Tidy.FilterYears | tidy.py:63-66 | The year filter fails when `year` labels no column or several, or when the year column holds a string. Otherwise it keeps exactly the rows whose year is a number in [2000, 2019], in order. |
| Tidy.RenamedInWindow | tidy.py:49-66 | After the drop, the rename and the year filter, the table is well formed, has a `year` column, and every year lies in the window. It consists of the input's unlisted columns in order, relabelled by the identifier renames. Its rows are exactly the input rows, in order, whose cell in the column renamed to `year` is a number in the window. |
| Tidy.WindowSteps | tidy.py:49-66 | Dropping the listed columns, renaming and filtering the years cut that window out of the input: the unlisted columns, relabelled, over the rows whose year lies in the window. |
| Tidy.FirstRepeated | tidy.py:33-36 | It finds a repeated label exactly when some label occurs twice. |
| Tidy.DistinctIffNoneRepeated | tidy.py:33-36 | The labels are distinct exactly when no position holds a label that occurs again. |
| Tidy.DropMostlyMissing | tidy.py:22-41 | It fails with DuplicateLabel, naming a label that occurs twice, exactly when the labels repeat. Otherwise it removes exactly the columns whose missing fraction is at least the proportion. Every other column is kept in order and unchanged. |
| Tidy.DropSentinelColumns | tidy.py:79-85 | A column whose every cell is the placeholder string is removed. Every other column survives in order and unchanged. |
| Tidy.SentinelDropFacts | tidy.py:79-85 | No surviving column is all placeholder, and every label outside the placeholder columns survives. |
| Tidy.SelectionKeeps | tidy.py:76-85 | Dropping columns preserves the following: normal labels, years in range, no mostly-missing column, no all-"Not applicable" column. |
| Tidy.InformationalHasRows | tidy.py:79-89 | An informational table has at least one row, because with no rows the country column would have been dropped as all placeholder. |
| Tidy.InformationalSteps | tidy.py:68-89 | The steps from the year filter's output to the second placeholder drop end in an informational table once `country` and `year` are still present. |
| Tidy.TidyInformational | tidy.py:44-91 | On success the result has distinct normal labels including `country` and `year`, and every year is in range. No column is at least 90% missing and no column is all placeholder. The result has at least one row. An assertion failure names `country` or `year`. Each result column is an input column not in the drop list, in input order, with its label renamed and normalised. The result rows are exactly the input rows whose year lies in the window. Every input column not in the drop list that survives on those rows is kept. A column survives when it is under 90% missing and not all of either placeholder. |
| Tidy.SnapshotFrom | tidy.py:68-85 | Normalising the labels and dropping the mostly-missing and placeholder columns keep the window's cut. Every unlisted input column that survives on the window's rows stays. |
| Tidy.SnapshotStage | tidy.py:76-85 | A column drop that keeps every surviving column keeps the cut of the input: the kept columns are input columns, and every surviving unlisted input column is among them. |
| Tidy.SentinelByColumn | tidy.py:79-85 | With distinct labels, a label is dropped as a placeholder column exactly when its own column is all placeholder. |
| Tidy.NumericalMask | tidy.py:95-100 | A column is kept exactly when its label is `country`, `year`, `code` or the label of a numeric column. |
| Tidy.TidyNumerical | tidy.py:94-102 | It keeps exactly the identifier and numeric columns, in input order with rows unchanged. With distinct labels, every kept column is an identifier or numeric. |
| Tidy.NumericalKeepsNumeric | tidy.py:94-102 | With distinct labels, every column kept by the numeric selection is an identifier or a numeric column. |
| Tidy.SortByCodeAndYear | tidy.py:104-105 | Sorting fails exactly when `code` or `year` labels no column or several. Otherwise the rows are a permutation of the input, ordered by (code, year) ascending. |
| Tidy.NormalizedValues | tidy.py:137-138 | The new data-column names are normalised, and the keys are unchanged. |
| Tidy.TidyFacts | tidy.py:147-150 | Selecting the numeric columns of an informational table and permuting the rows gives distinct normal labels including `country`, `year` and `code`, with every year in range. |
| Tidy.Tidy | tidy.py:107-151 | On success the title is the normalised title and the informational snapshot is informational. The snapshot is cut from the input after the data-column renames, as Tidy.TidyInformational states. The cleaned frame is a permutation of the numeric table's rows, sorted by (code, year). Its labels are distinct and normal, it keeps the identifiers, and each of its columns is an identifier or numeric. |
| Results.MeanOf | results.py:7 | A mean is NaN exactly when the column holds no number. Otherwise it times the count of numbers equals their sum. |
| Results.SumWithinBounds | results.py:7 | The sum of numbers that all lie in [lo, hi] lies between count·lo and count·hi. |
| Results.MeanWithinBounds | results.py:7 | The mean of numbers that all lie in [lo, hi] lies in [lo, hi]. |
| Results.CodeKeys | results.py:7 | The group keys are distinct, and they are exactly the non-missing codes of the table. |
| Results.GroupColumn | results.py:7 | A group's column for a metric holds that metric's cell of each row with the group's code, one per such row and in row order. So it holds the cell of every such row and no other cell. |
| Results.GroupColumnMembers | results.py:7 | A column with one cell per row carrying the code, in row order, contains the cell of every such row and only such cells. |
| Results.MetricMask | results.py:7-8 | The averaged columns are exactly the numeric columns other than `year` and `code`. |
| Results.GroupMeans | results.py:7-8 | Grouping succeeds exactly when `code` labels one column and the year column is numeric. The groups are exactly the non-missing codes. The metrics are the numeric non-year columns, and each group's value for a metric is the mean of that group's cells in it. |
| Results.MeanTableFacts | results.py:7-8 | The table of group means has one group per non-missing code, with distinct codes. It has one mean per averaged column, and `year` is not among them. |
| Results.PermutedSums | results.py:15 | Reordering values changes neither their sum nor the number of non-missing values, so the mean of a rank table's column is the mean of the group means. |
| Results.RankColumn | results.py:11-18 | Ranking fails exactly when the column is not one metric. Otherwise each country gets exactly one rank, and the ranks are 1..n in order. The values follow the metric's direction, and the rows are a permutation of the group means. The mean returned is the column's mean. |
| Results.RankFacts | results.py:12-15 | Numbering a sorted permutation of a metric's means ranks every group exactly once, in the metric's direction, and keeps the column's mean. |
| Results.RankCodesFromEntries | results.py:12-14 | The codes of a rank table are distinct and are exactly the grouped codes. |
| Results.RankOneIsBest | results.py:12-14 | In a ranked table the first value is the smallest (ascending) or largest (descending) of all non-NaN values. |
| Results.RankAll | results.py:21-30 | Ranking each metric in turn succeeds exactly when every metric is a column. Each table then ranks every group in that metric's direction. |
| Results.QualityOfCare | results.py:21-31 | Hospital stay length and avoidable deaths are ranked ascending, medical technology and life expectancy descending. Each of the four tables ranks every country. |
| Results.NormalizedSum | results.py:61-62 | Dividing every raw weight by the total divides their sum by the total. |
| Results.WeightBySdAsPercMean | results.py:52-63 | The weights are computable exactly when every mean and the total of raw weights are non-zero, and otherwise fail with NotFinite. Each weight is (100·sd/mean)/total under the title `rank_<metric>`, and the weights sum to 1. |
| Results.WeightsOrderedByVariability | results.py:52-63 | For positive means and standard deviations the weights exist and each lies in (0, 1]. A metric that varies more relative to its mean gets at least as large a weight. |
| Results.RatioOrder | results.py:58-62 | Of two metrics, the one with the smaller sd/mean ratio never gets the larger weight. |
| Results.StatsOf | results.py:15-30 | The statistics exist exactly when every rank table's value column has a mean, and otherwise fail with NotFinite. Entry q holds quality metric q's title, its rank table's mean and the supplied standard deviation. The titles are distinct. |
| Results.MultiplierTitles | results.py:57-59 | The normalised weights are keyed `rank_<metric>`, which are the four rank columns in order. |
| Results.WeightedMultipliers | results.py:52-71 | The variability multipliers exist exactly when the statistics and their weights do, and otherwise fail with NotFinite. They are keyed by the four rank columns in order and sum to 1. |
| Results.WeightedMultiplierShares | results.py:52-71 | Each variability multiplier is 100·sd/mean of its metric, over the total of those percentages. The mean is that of the metric's rank table, and it is non-zero. |
| Results.ExampleStatsOf | results.py:15-30 | Rank tables whose means are all 1, with standard deviations 1, 1, 1 and 2, give the example statistics. |
| Results.UnweightedMultipliers | results.py:69-70 | There is one multiplier per rank column, in the order of the rank titles, each 0.25, and they sum to 1. |
| Results.RankTitlesDistinct | results.py:69 | The four rank titles are distinct. |
| Results.RunningSumMatches | results.py:44-47 | On a dict that names only rank columns, the loop's running sum started from s ends at s plus the reference sum: over the dict, multiplier × the country's rank in the named table. |
| Results.SelfKeyScales | results.py:44-47 | A `rank_weighted_avg` key names the running-sum column itself. Last in the dict, it multiplies the sum accumulated so far by one plus its multiplier. |
| Results.FirstUnknownTitle | results.py:45-46 | A key the loop cannot take is found exactly when one exists. The loop can take a numeric column of the merged table (a rank column or `rank_weighted_avg`), and `code` only when the merged table is empty. The key found is one of the dict's keys. |
| Results.NoSharedCodeMeans | results.py:40-42 | The inner joins leave no rows exactly when no country is in all four rank tables. |
| Results.JoinMask | results.py:40-42 | A country of the first table survives the inner joins exactly when it appears in all four tables. |
| Results.JoinFacts | results.py:34-49 | The merged table holds each code present in all four rank tables exactly once. Each row carries that code's four ranks and the loop's running sum. On a dict of rank columns that sum is the reference weighted rank sum. |
| Results.WeightAverages | results.py:34-49 | Merging fails exactly when the loop meets a key it cannot take. `code` is such a key on a non-empty merge and fails with a type mismatch. A key that is not a column fails with KeyError. On an empty merge, `code` multiplies an empty column and the result is empty. Otherwise the codes are exactly those in all four tables, each once. Each row carries the four ranks and the loop's running sum, which on a dict of rank columns is the reference weighted rank sum. |
| Results.ResultFacts | results.py:79-82 | Sorting the merged table and numbering it keeps every code once and keeps each code's weighted sum. |
| Results.NumberedInOrder | results.py:79-82 | Numbering rows sorted by weighted sum gives ranks 1..n along non-decreasing scores. |
| Results.CalculateResults | results.py:74-83 | The results exist exactly when the merge does, and fail as it does. They are empty when no country is in all four tables. Final ranks are 1..n in order along non-decreasing scores. The codes are exactly those in all four tables, each once. On a dict of numeric columns, each score is the loop's running sum over its code's four ranks. |
| Results.RankedRows | results.py:79-82 | Sorting the merged rows by running sum and numbering them gives ranks 1..n along non-decreasing scores. It keeps every code of all four tables once, with its score. |
| Results.CalculateResultsReference | results.py:34-83 | On a dict that names only rank columns the results exist, and every score is the reference weighted rank sum of its code. |
| Results.ResultsWeighted | results.py:71-87 | The weighted results exist exactly when the variability multipliers do, and otherwise fail with NotFinite. Ranks are 1..n along non-decreasing scores, and the codes are exactly those in all four tables, each once. Each score is the reference weighted rank sum under the variability multipliers. |
| Results.WeightedResultsOf | results.py:21-87 | From the table of group means, the weighted results exist exactly when the four rank tables and their multipliers do. Ranks are 1..n along non-decreasing scores, and the codes are exactly the groups' codes, each once. Each score is the reference weighted rank sum under the variability multipliers of those rank tables. |
| Results.AllTablesAreGroups | results.py:21-42 | When each rank table ranks every group, a code is in all four tables exactly when it is a group's code. |
| Results.ResultsUnweightedAsWritten | results.py:86 | The result labelled unweighted is identical to the weighted result for every input. |
| Results.UnweightedUsesWeightedMultipliers | results.py:86 | For one set of metric statistics the sd/mean weights give avoidable deaths 0.4, so they differ from the unweighted multipliers. |
| Results.UnweightedIsMeanRank | results.py:70 | Weighting by the unweighted multipliers gives the plain average of a country's four ranks. |
| Results.ResultsUnweighted | results.py:70-86 | With the unweighted multipliers the results always exist. Ranks are 1..n along non-decreasing scores. The codes are exactly those in all four tables, each once, and every score is the country's average rank. |
| Preprocess.Melt | preprocess_data.py:61-64 | A melt has one row per (kept year column, input row). |
| Preprocess.MeltAt | preprocess_data.py:61-64 | The melt's row at position k·n + i is row i's country, code and value in year column k. |
| Preprocess.MeltHas | preprocess_data.py:61-64 | Every (row, kept year column) observation appears in the melt. |
| Preprocess.MeltCovers | preprocess_data.py:61-64 | Every row of the melt is some input row's observation in some kept year column. |
| Preprocess.PromoteHeader | preprocess_data.py:54 | Promoting row 3 to the header needs at least four rows and otherwise fails with IndexError. The data are the rows from 4 on, in order. |
| Preprocess.YearLabelMask | preprocess_data.py:57 | A column is a year column exactly when its header is a number in [2000, 2019]. |
| Preprocess.LookupCell | preprocess_data.py:56-58 | Reading a header label as one column succeeds exactly when one header cell holds it. |
| Preprocess.WorldBankColumns | preprocess_data.py:56-58 | The selection succeeds exactly when `Country Name` and `Country Code` label one column each and the year labels are distinct. It keeps those two columns and exactly the year columns in [2000, 2019], in order. |
| Preprocess.WorldBankReshape | preprocess_data.py:52-72 | The reshape succeeds exactly when the header row exists and its columns can be selected. The columns are country, code, year and the value name. The rows are a permutation of the melt of the data rows, one per (row, year column), sorted by (code, year). |
| Preprocess.WorldBankRowsSound | preprocess_data.py:56-72 | Every reshaped row has a year in [2000, 2019] and is the observation of some data row in some year column. |
| Preprocess.WorldBankRowsComplete | preprocess_data.py:56-72 | Every data row's observation in every year column in [2000, 2019] is a row of the reshaped table. |
| Preprocess.HealthcareExpenditureWorldBank | preprocess_data.py:52-72 | The expenditure table has the columns country, code, year, expenditure_per_capita and is sorted by (code, year). |
| Preprocess.LifeExpectancyWorldBank | preprocess_data.py:77-97 | The life-expectancy table has the columns country, code, year, life_expectancy and is sorted by (code, year). |
| Preprocess.YearPrefix | preprocess_data.py:219 | A year label is cut to its first four characters, or kept whole when shorter. |
| Preprocess.KnownRows | preprocess_data.py:213 | The kept row positions are ascending and are exactly the rows whose country code is a known code. |
| Preprocess.FilterKnownCodes | preprocess_data.py:211-214 | Filtering succeeds exactly when `Country Code` labels one column. It keeps exactly the rows with a known code, in order. |
| Preprocess.GdpColumns | preprocess_data.py:215-216 | The columns left after the drop are exactly those not labelled `Series Name` or `Series Code`, in order. |
| Preprocess.GdpRenamesLabel | preprocess_data.py:218-223 | The rename dict gives each `YR` label its first four characters, `Country Name` the label `country` and `Country Code` the label `code`. Every other label is kept. |
| Preprocess.RenameGdpColumns | preprocess_data.py:217-223 | Renaming gives each column its GDP label and keeps all cells. |
| Preprocess.GdpWide | preprocess_data.py:211-223 | The wide GDP table exists exactly when `Country Code` labels one column and both series columns are present. It holds the known countries' rows and the non-series columns, relabelled, and its year columns are exactly those whose label contains `YR`. |
| Preprocess.MeltGdp | preprocess_data.py:224-225 | The GDP melt succeeds exactly when country, code and every year label are read as one column each. Its columns are country, code, year, gdp_in_usd, with one row per (year column, row). |
| Preprocess.YearsReadable | preprocess_data.py:224-225 | No year label is reported as not unique exactly when every year label names one column. |
| Preprocess.GdpWorldBank | preprocess_data.py:205-225 | The GDP reshape fails only with a KeyError or DuplicateLabel. On success it has one row per (year column, known country). |
| Preprocess.GdpRowsSound | preprocess_data.py:211-225 | Every GDP row is a known country's row read in the country column and a `YR` column, with the year cut to four characters. |
| Preprocess.GdpRowsComplete | preprocess_data.py:211-225 | Every known country's observation in every `YR` column is a row of the GDP table. |
| Preprocess.MissingMask | preprocess_data.py:161 | The mask holds exactly at the rows whose `base_period` is missing. |
| Preprocess.BasePeriodFilter | preprocess_data.py:159-161 | The filter succeeds exactly when `base_period` labels one column. It keeps exactly the rows whose base period is missing, in order, and removes that column and only that column. |
| Preprocess.BasePeriodFacts | preprocess_data.py:161 | Selecting the rows without a base period and dropping that column keeps exactly those rows, in order, each without the column. |
| Preprocess.HealthcareCapitaOutcomes | preprocess_data.py:150-161 | The healthcare-capita dataset, tidied and filtered, has no `base_period` column, and all its labels are normal. |

## Left out

- File input and output: every `read_csv` and `to_csv`. The model takes the frames as values, and `Tidy.Tidy` returns its two snapshots and their file stem instead of writing them.
- The module-level script of results.py: loading `main_df.csv` and the expenditure rankings at results.py:91-92. The expenditure rankings are two more calls of the ranking modelled by `Results.RankColumn`.
- Printing, analysis summaries and plotting: `analyze`, `care_quality_vs_expenditure`, and the visualisation, analysis and data-exploration scripts. They produce no data the pipelines consume.
- The other dataset adapters of preprocess_data.py: medical technology, ICU beds, population and the rest. Each is a call of `tidy` with its own constants, which `Tidy.Tidy` covers for any arguments.
- Dtype inference. Whether a column is numeric is an input tag of the table, not computed from the file.
- The standard deviation of each metric. `std()` is a floating-point library computation, so it is the input `sds` of `Results.StatsOf`. The titles and means come from the rank tables.
- Floating point. All arithmetic is on exact reals. A division that would give an infinite or NaN float is a `NotFinite` failure, not a value.
- Unicode lower-casing. `Tidy.NormalizeName` lower-cases ASCII letters only.
- Sort stability and the relative order of equal keys, both for tied means in a rank table and for tied running sums in the results. The sorts are proved to give an ordered permutation, not one particular order among equals.
- Comparing a number with a string while sorting. pandas raises TypeError there. The model orders every number before every string, so such a sort succeeds.
- Repeated labels that pandas would read as a sub-frame are DuplicateLabel failures in the model. This covers `df['year']` in the year filter, the sort keys, the GDP code column and the melt's id columns. Repeated melt value labels are the next two lines.
- Preprocess.MeltGdp: two `YR` labels with the same four-character prefix make the model fail with DuplicateLabel. `pd.melt` instead keeps every column that carries a repeated value label: it takes the unique positions that `get_indexer_for` returns for the id and value labels. It melts all of them, in an order that depends on the pandas version's indexer. The model does not represent that frame, so it promises nothing about a GDP table with repeated year prefixes beyond the failure.
- Preprocess.GdpWorldBank: inherits that DuplicateLabel failure on repeated year prefixes from Preprocess.MeltGdp, where pandas would melt the repeated columns.
- The group-by mean averages only the numeric columns. This is the pandas 1.x behaviour of dropping non-numeric columns from `mean()`; later pandas would raise instead.
- Groups are listed in first-occurrence order, not in sorted key order. No contract depends on the group order. Where two countries have equal means, the group order can decide which of them gets the lower rank, and the model does not state that order (see the sort-stability line).
- Preprocess.WorldBankColumns, Preprocess.WorldBankReshape: a year label in [2000, 2019] that occurs more than once in the header makes the model fail with DuplicateLabel("year"). In pandas, the label enters the key list once per occurrence, and selecting with that list takes every column carrying the label for each occurrence. `pd.melt` then melts all of those columns, so the output keeps the columns country, code, year and value but repeats those observations. The model promises nothing about that frame. The expenditure and life-expectancy tables inherit this through the shared reshape.
- The integer cast of the World Bank years (`astype(int)`). A year label is a number in [2000, 2019], and the model takes its integer part.
- Tidy.TidyInformational: the contract states what a successful result satisfies and which labels an assertion names. It does not characterise every input on which the result is a success.
- Tidy.Tidy: the contract states the cleaned frame's shape and its relation to the informational snapshot, not which inputs succeed.
- Preprocess.HealthcareExpenditureWorldBank: only the labels and the sort order are stated. Row contents are stated by Preprocess.WorldBankRowsSound and Preprocess.WorldBankRowsComplete for the shared reshape.
- Preprocess.LifeExpectancyWorldBank: only the labels and the sort order are stated, as for the expenditure table.
- Preprocess.HealthcareCapitaOutcomes: only the absence of `base_period` and the normal labels are stated. The row filter itself is stated by Preprocess.BasePeriodFilter.

## Findings

| source | as written | input that shows it | evidently intended | confidence | as-written member | corrected member |
|---|---|---|---|---|---|---|
| results.py:86 | `results_unweighted` is computed with `weighted_multipliers`, so it equals `results_weighted` | metric statistics with mean 1 and standard deviations 1, 1, 1 and 2: the weights are 0.2, 0.2, 0.2 and 0.4, not 0.25 each | `calculate_results(unweighted_multipliers)`, each country scored by its average rank | not executed | Results.ResultsUnweightedAsWritten, Results.UnweightedUsesWeightedMultipliers | Results.ResultsUnweighted, Results.UnweightedIsMeanRank |

=== FILE: frames.dfy ===
/** The data-frame abstraction shared by every pipeline of the project: a table is
    a list of column labels, a numeric/non-numeric dtype tag per column, and a
    sequence of rows addressed by position. Labels may repeat, as they can in a
    pandas frame, so positions rather than names identify columns. The row index
    of a frame is the position of the row in `rows`. */
module Frames {

  /** One cell: a missing value (NaN/None), a number, or a string. */
  datatype Cell = Missing | Num(x: real) | Str(s: string)

  type Row = seq<Cell>

  datatype Option<T> = None | Some(value: T)

  /** The ways a pipeline step can stop with an exception instead of a frame. */
  datatype Failure =
    | KeyError(column: string)          // a label the step reads is absent
    | DuplicateLabel(column: string)    // a label the step reads as one column names several
    | TypeMismatch(column: string)      // a string compared with a number
    | AssertionFailed(column: string)   // an explicit assertion of the pipeline failed
    | IndexError                       // a positional row access past the end
    | NotFinite(column: string)         // a division whose float result would be inf or NaN

  datatype Result<T> = Ok(value: T) | Err(failure: Failure) {
    predicate IsFailure() {
      Err?
    }

    function PropagateFailure<U>(): Result<U>
      requires Err?
    {
      Err(failure)
    }

    function Extract(): T
      requires Ok?
    {
      value
    }
  }

  datatype Table = Table(names: seq<string>, numeric: seq<bool>, rows: seq<Row>)

  /** Every row has one cell per column, and a numeric column holds no string. */
  ghost predicate Valid(t: Table) {
    && |t.numeric| == |t.names|
    && (forall i :: 0 <= i < |t.rows| ==> |t.rows[i]| == |t.names|)
    && (forall i, j :: 0 <= i < |t.rows| && 0 <= j < |t.names| && t.numeric[j] ==> !t.rows[i][j].Str?)
  }

  predicate Distinct<T(==)>(s: seq<T>) {
    forall i, j :: 0 <= i < j < |s| ==> s[i] != s[j]
  }

  predicate StrictlyIncreasing(ks: seq<nat>) {
    forall a, b :: 0 <= a < b < |ks| ==> ks[a] < ks[b]
  }

  /** The cell at position `j`, or Missing past the end of the row. */
  function CellAt(r: Row, j: nat): Cell {
    if j < |r| then r[j] else Missing
  }

  // ---------------------------------------------------------------------------
  // Selecting by a boolean mask
  // ---------------------------------------------------------------------------

  /** The positions at or after `from` where `mask` holds, in ascending order. */
  function KeptFrom(mask: seq<bool>, from: nat): (ks: seq<nat>)
    requires from <= |mask|
    ensures StrictlyIncreasing(ks)
    ensures forall k :: 0 <= k < |ks| ==> from <= ks[k] < |mask| && mask[ks[k]]
    ensures forall j :: from <= j < |mask| && mask[j] ==> j in ks
    decreases |mask| - from
  {
    if from == |mask| then []
    else if mask[from] then [from] + KeptFrom(mask, from + 1)
    else KeptFrom(mask, from + 1)
  }

  /** The positions where `mask` holds, in ascending order: what a boolean
      selection (`df[mask]`, or dropping the columns where it fails) keeps. */
  function Kept(mask: seq<bool>): (ks: seq<nat>)
    ensures StrictlyIncreasing(ks)
    ensures forall k :: 0 <= k < |ks| ==> ks[k] < |mask| && mask[ks[k]]
    ensures forall j :: 0 <= j < |mask| && mask[j] ==> j in ks
  {
    KeptFrom(mask, 0)
  }

  /** Every position moved one place on. */
  function Shifted(ks: seq<nat>): (r: seq<nat>)
    ensures |r| == |ks|
    ensures forall k :: 0 <= k < |ks| ==> r[k] == ks[k] + 1
  {
    seq(|ks|, k requires 0 <= k < |ks| => ks[k] + 1)
  }

  lemma ShiftedCons(x: nat, rest: seq<nat>)
    ensures Shifted([x] + rest) == [x + 1] + Shifted(rest)
  {
    var l, r := Shifted([x] + rest), [x + 1] + Shifted(rest);
    assert |l| == |r|;
    forall k | 0 <= k < |l| ensures l[k] == r[k] {
      if k > 0 { assert ([x] + rest)[k] == rest[k - 1]; }
    }
  }

  lemma {:induction false} KeptFromTail(mask: seq<bool>, from: nat)
    requires from < |mask|
    ensures KeptFrom(mask, from + 1) == Shifted(KeptFrom(mask[1..], from))
    decreases |mask| - from
  {
    var tail := mask[1..];
    if from + 1 == |mask| {
      assert KeptFrom(mask, from + 1) == [] && KeptFrom(tail, from) == [];
    } else {
      KeptFromTail(mask, from + 1);
      var here, next := KeptFrom(mask, from + 1), KeptFrom(mask, from + 2);
      var there, rest := KeptFrom(tail, from), KeptFrom(tail, from + 1);
      assert next == Shifted(rest);
      assert tail[from] == mask[from + 1];
      if mask[from + 1] {
        assert here == [from + 1] + next;
        assert there == [from] + rest;
        ShiftedCons(from, rest);
      } else {
        assert here == next && there == rest;
      }
    }
  }

  lemma KeptTail(mask: seq<bool>)
    requires |mask| > 0
    ensures Kept(mask) == (if mask[0] then [0] else []) + Shifted(Kept(mask[1..]))
  {
    KeptFromTail(mask, 0);
  }

  function Pick<T>(s: seq<T>, ks: seq<nat>): (r: seq<T>)
    requires forall k :: 0 <= k < |ks| ==> ks[k] < |s|
    ensures |r| == |ks|
    ensures forall k :: 0 <= k < |ks| ==> r[k] == s[ks[k]]
  {
    seq(|ks|, k requires 0 <= k < |ks| => s[ks[k]])
  }

  lemma PickDistinct<T>(s: seq<T>, ks: seq<nat>)
    requires forall k :: 0 <= k < |ks| ==> ks[k] < |s|
    requires StrictlyIncreasing(ks) && Distinct(s)
    ensures Distinct(Pick(s, ks))
  {
  }

  /** Column `k` of `r` is column `ks[k]` of `t`: same label, same tag, same cells. */
  ghost predicate ColumnsFrom(r: Table, t: Table, ks: seq<nat>) {
    && Valid(r)
    && Valid(t)
    && |r.names| == |ks|
    && |r.rows| == |t.rows|
    && StrictlyIncreasing(ks)
    && (forall k :: 0 <= k < |ks| ==> ks[k] < |t.names|)
    && (forall k :: 0 <= k < |ks| ==> r.names[k] == t.names[ks[k]])
    && (forall k :: 0 <= k < |ks| ==> r.numeric[k] == t.numeric[ks[k]])
    && (forall i, k :: 0 <= i < |r.rows| && 0 <= k < |ks| ==> r.rows[i][k] == t.rows[i][ks[k]])
  }

  /** Table `r` is cut out of `t`: its column `k` is column `ks[k]` of `t` and its
      row `i` is row `rs[i]` of `t`, both kept in the order of `t`. Cells and
      numeric tags carry over; labels may have changed. */
  ghost predicate CutFrom(r: Table, t: Table, ks: seq<nat>, rs: seq<nat>) {
    && Valid(r)
    && Valid(t)
    && |r.names| == |ks|
    && |r.rows| == |rs|
    && StrictlyIncreasing(ks)
    && StrictlyIncreasing(rs)
    && (forall k :: 0 <= k < |ks| ==> ks[k] < |t.names| && r.numeric[k] == t.numeric[ks[k]])
    && (forall i :: 0 <= i < |rs| ==> rs[i] < |t.rows|)
    && (forall i, k :: 0 <= i < |rs| && 0 <= k < |ks| ==> r.rows[i][k] == t.rows[rs[i]][ks[k]])
  }

  /** The positions 0..n-1. */
  function Upto(n: nat): (ks: seq<nat>)
    ensures |ks| == n && StrictlyIncreasing(ks)
    ensures forall i :: 0 <= i < n ==> ks[i] == i
  {
    seq(n, i requires 0 <= i < n => i)
  }

  /** A column selection is a cut that keeps every row. */
  lemma ColumnsAreCut(r: Table, t: Table, ks: seq<nat>)
    requires ColumnsFrom(r, t, ks)
    ensures CutFrom(r, t, ks, Upto(|t.rows|))
  {
  }

  /** Selecting the rows `rs` of a table cut from all of `t`'s rows cuts those rows of `t`. */
  lemma RowsOfCut(r: Table, s: Table, t: Table, ks: seq<nat>, rs: seq<nat>)
    requires CutFrom(s, t, ks, Upto(|t.rows|))
    requires Valid(r) && |r.names| == |s.names| && r.numeric == s.numeric
    requires StrictlyIncreasing(rs) && forall i :: 0 <= i < |rs| ==> rs[i] < |s.rows|
    requires r.rows == Pick(s.rows, rs)
    ensures CutFrom(r, t, ks, rs)
  {
  }

  /** A relabelled copy of a cut is the same cut. */
  lemma RelabelledCut(r: Table, s: Table, t: Table, ks: seq<nat>, rs: seq<nat>)
    requires CutFrom(s, t, ks, rs)
    requires Valid(r) && |r.names| == |s.names| && r.numeric == s.numeric && r.rows == s.rows
    ensures CutFrom(r, t, ks, rs)
  {
  }

  /** Picking increasing positions out of increasing positions stays increasing. */
  lemma PickIncreasing(ks: seq<nat>, js: seq<nat>)
    requires StrictlyIncreasing(ks) && StrictlyIncreasing(js)
    requires forall k :: 0 <= k < |js| ==> js[k] < |ks|
    ensures StrictlyIncreasing(Pick(ks, js))
  {
    forall a, b | 0 <= a < b < |js| ensures Pick(ks, js)[a] < Pick(ks, js)[b] {
      assert js[a] < js[b];
    }
  }

  /** Selecting columns `js` of a cut of `t` is a cut of `t`: column `k` is column
      `ks[js[k]]` of `t`. */
  lemma ColumnsOfCut(r: Table, s: Table, t: Table, ks: seq<nat>, rs: seq<nat>, js: seq<nat>)
    requires CutFrom(s, t, ks, rs) && ColumnsFrom(r, s, js)
    ensures CutFrom(r, t, Pick(ks, js), rs)
  {
    PickIncreasing(ks, js);
  }

  /** Column `k` of a cut holds the cut rows of column `ks[k]` of `t`. */
  lemma CutColumn(r: Table, t: Table, ks: seq<nat>, rs: seq<nat>, k: nat)
    requires CutFrom(r, t, ks, rs) && k < |ks|
    ensures Column(r.rows, k) == Pick(Column(t.rows, ks[k]), rs)
  {
  }

  /** A column of `t` that reaches the cut at position `p` reaches a further
      column selection that keeps position `p`. */
  lemma KeptThrough(ks: seq<nat>, js: seq<nat>, p: nat)
    requires forall k :: 0 <= k < |js| ==> js[k] < |ks|
    requires p < |ks| && p in js
    ensures ks[p] in Pick(ks, js)
  {
    var k :| 0 <= k < |js| && js[k] == p;
    assert Pick(ks, js)[k] == ks[p];
  }

  /** Keep the columns where `mask` holds (`df.drop(columns=...)` of the others). */
  function SelectColumns(t: Table, mask: seq<bool>): (r: Table)
    requires Valid(t) && |mask| == |t.names|
    ensures Valid(r)
    ensures ColumnsFrom(r, t, Kept(mask))
    ensures Distinct(t.names) ==> Distinct(r.names)
  {
    var ks := Kept(mask);
    if Distinct(t.names) then PickDistinct(t.names, ks); Table(Pick(t.names, ks), Pick(t.numeric, ks), seq(|t.rows|, i requires 0 <= i < |t.rows| => Pick(t.rows[i], ks)))
    else Table(Pick(t.names, ks), Pick(t.numeric, ks), seq(|t.rows|, i requires 0 <= i < |t.rows| => Pick(t.rows[i], ks)))
  }

  /** Keep the rows where `mask` holds, in order (`df[mask].reset_index(drop=True)`). */
  function SelectRows(t: Table, mask: seq<bool>): (r: Table)
    requires Valid(t) && |mask| == |t.rows|
    ensures Valid(r) && r.names == t.names && r.numeric == t.numeric
    ensures |r.rows| == |Kept(mask)|
    ensures forall k :: 0 <= k < |Kept(mask)| ==> r.rows[k] == t.rows[Kept(mask)[k]]
  {
    t.(rows := Pick(t.rows, Kept(mask)))
  }

  /** A row survives a row selection exactly when the mask holds at some position
      of it; in particular every row where the mask holds survives. */
  lemma SelectedRows(t: Table, mask: seq<bool>)
    requires Valid(t) && |mask| == |t.rows|
    ensures forall i :: 0 <= i < |t.rows| && mask[i] ==> t.rows[i] in SelectRows(t, mask).rows
    ensures forall x :: x in SelectRows(t, mask).rows ==> exists i :: 0 <= i < |t.rows| && mask[i] && t.rows[i] == x
  {
    var r := SelectRows(t, mask);
    var ks := Kept(mask);
    forall i | 0 <= i < |t.rows| && mask[i] ensures t.rows[i] in r.rows {
      var k :| 0 <= k < |ks| && ks[k] == i;
      assert r.rows[k] == t.rows[i];
    }
    forall x | x in r.rows ensures exists i :: 0 <= i < |t.rows| && mask[i] && t.rows[i] == x {
      var k :| 0 <= k < |r.rows| && r.rows[k] == x;
      assert t.rows[ks[k]] == x;
    }
  }

  /** `s` without position `i`. */
  function Without<T>(s: seq<T>, i: nat): (r: seq<T>)
    requires i < |s|
    ensures |r| == |s| - 1
    ensures forall j :: 0 <= j < |r| ==> r[j] == if j < i then s[j] else s[j + 1]
  {
    s[..i] + s[i + 1..]
  }

  /** Remove column `c`: every other column keeps its label, tag and cells, in order. */
  function DropColumnAt(t: Table, c: nat): (r: Table)
    requires Valid(t) && c < |t.names|
    ensures Valid(r)
    ensures r.names == Without(t.names, c) && r.numeric == Without(t.numeric, c)
    ensures |r.rows| == |t.rows| && forall i :: 0 <= i < |t.rows| ==> r.rows[i] == Without(t.rows[i], c)
  {
    var r := Table(Without(t.names, c), Without(t.numeric, c),
      seq(|t.rows|, i requires 0 <= i < |t.rows| => Without(t.rows[i], c)));
    forall i, j | 0 <= i < |r.rows| && 0 <= j < |r.names| && r.numeric[j]
      ensures !r.rows[i][j].Str?
    {
      var j' := if j < c then j else j + 1;
      assert r.rows[i][j] == t.rows[i][j'] && r.numeric[j] == t.numeric[j'];
    }
    r
  }

  /** A column the mask keeps keeps its label; with distinct labels, a label that
      survives belongs to a column the mask keeps. */
  lemma SelectedNames(t: Table, mask: seq<bool>)
    requires Valid(t) && |mask| == |t.names|
    ensures forall j :: 0 <= j < |t.names| && mask[j] ==> t.names[j] in SelectColumns(t, mask).names
    ensures Distinct(t.names) ==>
      forall j :: 0 <= j < |t.names| && t.names[j] in SelectColumns(t, mask).names ==> mask[j]
  {
    var r := SelectColumns(t, mask);
    var ks := Kept(mask);
    assert ColumnsFrom(r, t, ks);
    KeptNamesSurvive(r.names, t.names, mask, ks);
    if Distinct(t.names) {
      SurvivingNamesKept(r.names, t.names, mask, ks);
    }
  }

  lemma KeptNamesSurvive(rn: seq<string>, tn: seq<string>, mask: seq<bool>, ks: seq<nat>)
    requires |mask| == |tn| && |rn| == |ks|
    requires forall j :: 0 <= j < |mask| && mask[j] ==> j in ks
    requires forall k :: 0 <= k < |ks| ==> ks[k] < |tn| && rn[k] == tn[ks[k]]
    ensures forall j :: 0 <= j < |tn| && mask[j] ==> tn[j] in rn
  {
    forall j | 0 <= j < |tn| && mask[j]
      ensures tn[j] in rn
    {
      var k :| 0 <= k < |ks| && ks[k] == j;
      assert rn[k] == tn[j];
    }
  }

  lemma SurvivingNamesKept(rn: seq<string>, tn: seq<string>, mask: seq<bool>, ks: seq<nat>)
    requires |mask| == |tn| && |rn| == |ks| && Distinct(tn)
    requires forall k :: 0 <= k < |ks| ==> ks[k] < |tn| && mask[ks[k]] && rn[k] == tn[ks[k]]
    ensures forall j :: 0 <= j < |tn| && tn[j] in rn ==> mask[j]
  {
    forall j | 0 <= j < |tn| && tn[j] in rn
      ensures mask[j]
    {
      var k :| 0 <= k < |rn| && rn[k] == tn[j];
      assert tn[ks[k]] == tn[j];
    }
  }

  // ---------------------------------------------------------------------------
  // Reading a label
  // ---------------------------------------------------------------------------

  /** The first position of `n` in `names`, or `|names|` when it is absent. */
  function Find<T(==)>(names: seq<T>, n: T): (i: nat)
    ensures i <= |names|
    ensures i < |names| ==> names[i] == n
    ensures forall k :: 0 <= k < i ==> names[k] != n
    ensures i == |names| <==> n !in names
  {
    if |names| == 0 then 0
    else if names[0] == n then 0
    else 1 + Find(names[1..], n)
  }

  /** `n` labels exactly one column. */
  predicate UniqueLabel(names: seq<string>, n: string) {
    n in names && forall a, b :: 0 <= a < b < |names| && names[a] == n ==> names[b] != n
  }

  /** `df[n]` read as one column: its position when `n` labels exactly one
      column, KeyError when it labels none, DuplicateLabel when it labels several. */
  function Lookup(names: seq<string>, n: string): (r: Result<nat>)
    ensures r.Ok? <==> UniqueLabel(names, n)
    ensures r.Ok? ==> r.value < |names| && names[r.value] == n && r.value == Find(names, n)
    ensures r.Ok? ==> forall k :: 0 <= k < |names| && names[k] == n ==> k == r.value
    ensures r.Err? && r.failure.KeyError? ==> r.failure.column == n && n !in names
    ensures r.Err? ==> r.failure == KeyError(n) || r.failure == DuplicateLabel(n)
    ensures r.Err? && r.failure.DuplicateLabel? ==>
      exists a, b :: 0 <= a < b < |names| && names[a] == n && names[b] == n
  {
    var i := Find(names, n);
    if i == |names| then Err(KeyError(n))
    else
      var j := Find(names[i + 1..], n);
      if j < |names| - i - 1 then
        assert names[i + 1 + j] == n;
        Err(DuplicateLabel(n))
      else
        assert forall k :: i < k < |names| ==> names[k] == names[i + 1..][k - i - 1];
        Ok(i)
  }

  /** The cells of column `j`, top to bottom. */
  function Column(rows: seq<Row>, j: nat): (c: seq<Cell>)
    requires forall i :: 0 <= i < |rows| ==> j < |rows[i]|
    ensures |c| == |rows|
    ensures forall i :: 0 <= i < |rows| ==> c[i] == rows[i][j]
  {
    seq(|rows|, i requires 0 <= i < |rows| => rows[i][j])
  }
}

=== FILE: ordering.dfy ===
/** The orders the pipelines sort by: strings lexicographically by code point
    (Python's `str` comparison), cells with missing values last (pandas'
    default `na_position='last'`), (code, year) keys lexicographically, and
    the per-metric value orders of the ranking, ascending or descending with
    missing means last in both directions. */
module Ordering {
  import opened Frames
  import opened Sorting

  // ---------------------------------------------------------------------------
  // Strings
  // ---------------------------------------------------------------------------

  predicate StrLe(a: string, b: string)
    decreases |a|
  {
    |a| == 0 || (|b| > 0 && (a[0] < b[0] || (a[0] == b[0] && StrLe(a[1..], b[1..]))))
  }

  lemma {:induction false} StrLeTotal(a: string, b: string)
    ensures StrLe(a, b) || StrLe(b, a)
    decreases |a|
  {
    if |a| > 0 && |b| > 0 && a[0] == b[0] {
      StrLeTotal(a[1..], b[1..]);
    }
  }

  lemma {:induction false} StrLeAntisymmetric(a: string, b: string)
    requires StrLe(a, b) && StrLe(b, a)
    ensures a == b
    decreases |a|
  {
    if |a| > 0 {
      StrLeAntisymmetric(a[1..], b[1..]);
      assert a == [a[0]] + a[1..] && b == [b[0]] + b[1..];
    }
  }

  lemma {:induction false} StrLeTransitive(a: string, b: string, c: string)
    requires StrLe(a, b) && StrLe(b, c)
    ensures StrLe(a, c)
    decreases |a|
  {
    if |a| > 0 && a[0] == b[0] && b[0] == c[0] {
      StrLeTransitive(a[1..], b[1..], c[1..]);
    }
  }

  // ---------------------------------------------------------------------------
  // Cells: numbers, then strings, then missing values
  // ---------------------------------------------------------------------------

  predicate CellLe(a: Cell, b: Cell) {
    match (a, b)
    case (_, Missing) => true
    case (Missing, _) => false
    case (Num(x), Num(y)) => x <= y
    case (Num(_), Str(_)) => true
    case (Str(_), Num(_)) => false
    case (Str(s), Str(t)) => StrLe(s, t)
  }

  lemma CellLeTotal(a: Cell, b: Cell)
    ensures CellLe(a, b) || CellLe(b, a)
  {
    if a.Str? && b.Str? {
      StrLeTotal(a.s, b.s);
    }
  }

  lemma CellLeAntisymmetric(a: Cell, b: Cell)
    requires CellLe(a, b) && CellLe(b, a)
    ensures a == b
  {
    if a.Str? && b.Str? {
      StrLeAntisymmetric(a.s, b.s);
    }
  }

  lemma CellLeTransitive(a: Cell, b: Cell, c: Cell)
    requires CellLe(a, b) && CellLe(b, c)
    ensures CellLe(a, c)
  {
    if a.Str? && b.Str? && c.Str? {
      StrLeTransitive(a.s, b.s, c.s);
    }
  }

  // ---------------------------------------------------------------------------
  // (code, year) keys: `sort_values(['code', 'year'], ascending=[True, True])`
  // ---------------------------------------------------------------------------

  predicate KeyLe(p: (Cell, Cell), q: (Cell, Cell)) {
    if p.0 == q.0 then CellLe(p.1, q.1) else CellLe(p.0, q.0)
  }

  lemma KeyLeIsTotalPreorder()
    ensures TotalPreorder(KeyLe)
  {
    forall p: (Cell, Cell), q: (Cell, Cell)
      ensures KeyLe(p, q) || KeyLe(q, p)
    {
      CellLeTotal(p.0, q.0);
      CellLeTotal(p.1, q.1);
    }
    forall p: (Cell, Cell), q: (Cell, Cell), r: (Cell, Cell) | KeyLe(p, q) && KeyLe(q, r)
      ensures KeyLe(p, r)
    {
      if p.0 == q.0 && q.0 == r.0 {
        CellLeTransitive(p.1, q.1, r.1);
      } else if p.0 != q.0 && q.0 != r.0 {
        CellLeTransitive(p.0, q.0, r.0);
        if p.0 == r.0 {
          CellLeAntisymmetric(p.0, q.0);
        }
      }
    }
  }

  // ---------------------------------------------------------------------------
  // Metric values of the ranking; None is a NaN mean
  // ---------------------------------------------------------------------------

  predicate AscLe(a: Option<real>, b: Option<real>) {
    b.None? || (a.Some? && a.value <= b.value)
  }

  predicate DescLe(a: Option<real>, b: Option<real>) {
    b.None? || (a.Some? && a.value >= b.value)
  }

  /** The order `sort_values(column, ascending=ascending)` puts the means in. */
  function ValueOrder(ascending: bool): (Option<real>, Option<real>) -> bool {
    if ascending then AscLe else DescLe
  }

  lemma ValueOrderIsTotalPreorder(ascending: bool)
    ensures TotalPreorder(ValueOrder(ascending))
  {
  }

  predicate RealLe(a: real, b: real) {
    a <= b
  }

  lemma RealLeIsTotalPreorder()
    ensures TotalPreorder(RealLe)
  {
  }
}

=== FILE: preprocess.dfy ===
/** The pure reshapes of preprocess_data.py: the World Bank wide-to-long
    reshape (header promotion, year-column selection, melt, sort), the GDP
    reshape (code filter, year-label truncation, melt) and the base-period row
    filter. File reads and writes around them are not modelled. */
module Preprocess {
  import opened Frames
  import opened Sorting
  import opened Ordering
  import Tidy

  // ---------------------------------------------------------------------------
  // Long tables: one row per (country, year) observation
  // ---------------------------------------------------------------------------

  /** A row of a melted table. The year is an int in the World Bank tables and
      the label string in the GDP table. */
  datatype Long<Y> = Long(country: Cell, code: Cell, year: Y, value: Cell)

  /** A melted table with its four column labels. */
  datatype LongTable<Y> = LongTable(names: seq<string>, rows: seq<Long<Y>>)

  function LongNames(valueName: string): seq<string> {
    ["country", "code", "year", valueName]
  }

  /** Every row has the columns `ni`, `ci` and every column of `ks`. */
  predicate Reaches(rows: seq<Row>, ni: nat, ci: nat, ks: seq<nat>) {
    forall i :: 0 <= i < |rows| ==>
      ni < |rows[i]| && ci < |rows[i]| && forall k :: 0 <= k < |ks| ==> ks[k] < |rows[i]|
  }

  function MeltColumn<Y>(rows: seq<Row>, ni: nat, ci: nat, j: nat, year: Y): (out: seq<Long<Y>>)
    requires forall i :: 0 <= i < |rows| ==> ni < |rows[i]| && ci < |rows[i]| && j < |rows[i]|
    ensures |out| == |rows|
    ensures forall i :: 0 <= i < |rows| ==> out[i] == Long(rows[i][ni], rows[i][ci], year, rows[i][j])
  {
    seq(|rows|, i requires 0 <= i < |rows| => Long(rows[i][ni], rows[i][ci], year, rows[i][j]))
  }

  lemma MulStep(k: nat, n: nat, i: nat)
    requires k > 0
    ensures k * n + i == n + ((k - 1) * n + i)
  {
  }

  lemma MulBelow(k: nat, n: nat, i: nat, m: nat)
    requires k < m && i < n
    ensures k * n + i < m * n
  {
    assert (k + 1) * n <= m * n;
  }

  /** `pd.melt` with the country and code columns as identifiers: the value
      columns are stacked one after another, each over all rows in order. */
  function Melt<Y>(rows: seq<Row>, ni: nat, ci: nat, ks: seq<nat>, years: seq<Y>): (out: seq<Long<Y>>)
    requires |ks| == |years| && Reaches(rows, ni, ci, ks)
    ensures |out| == |ks| * |rows|
    decreases |ks|
  {
    if |ks| == 0 then []
    else
      MulStep(|ks|, |rows|, 0);
      MeltColumn(rows, ni, ci, ks[0], years[0]) + Melt(rows, ni, ci, ks[1..], years[1..])
  }

  /** The row for input row `i` and value column `k` sits at position `k * n + i`. */
  lemma {:induction false} MeltAt<Y>(rows: seq<Row>, ni: nat, ci: nat, ks: seq<nat>, years: seq<Y>, k: nat, i: nat)
    requires |ks| == |years| && Reaches(rows, ni, ci, ks)
    requires k < |ks| && i < |rows|
    ensures k * |rows| + i < |Melt(rows, ni, ci, ks, years)|
    ensures Melt(rows, ni, ci, ks, years)[k * |rows| + i] == Long(rows[i][ni], rows[i][ci], years[k], rows[i][ks[k]])
    decreases k
  {
    MulBelow(k, |rows|, i, |ks|);
    if k > 0 {
      MeltAt(rows, ni, ci, ks[1..], years[1..], k - 1, i);
      MulStep(k, |rows|, i);
    }
  }

  /** In a valid table every row reaches every column. */
  lemma ValidReaches(t: Table, ni: nat, ci: nat, ks: seq<nat>)
    requires Valid(t) && ni < |t.names| && ci < |t.names|
    requires forall k :: 0 <= k < |ks| ==> ks[k] < |t.names|
    ensures Reaches(t.rows, ni, ci, ks)
  {
  }

  /** The row for input row `i` and value column `k` is among the melted rows. */
  lemma {:induction false} MeltHas<Y>(rows: seq<Row>, ni: nat, ci: nat, ks: seq<nat>, years: seq<Y>, k: nat, i: nat)
    requires |ks| == |years| && Reaches(rows, ni, ci, ks)
    requires k < |ks| && i < |rows|
    ensures Long(rows[i][ni], rows[i][ci], years[k], rows[i][ks[k]]) in Melt(rows, ni, ci, ks, years)
    decreases k
  {
    var col := MeltColumn(rows, ni, ci, ks[0], years[0]);
    if k == 0 {
      assert col[i] == Long(rows[i][ni], rows[i][ci], years[k], rows[i][ks[k]]);
    } else {
      MeltHas(rows, ni, ci, ks[1..], years[1..], k - 1, i);
    }
  }

  lemma DivModBelow(p: nat, n: nat, m: nat)
    requires n > 0 && p < m * n
    ensures p / n < m && p == (p / n) * n + p % n && p % n < n
  {
  }

  /** Conversely, every position holds some input row under some value column
      (row `p % n` under column `p / n`). */
  lemma MeltCovers<Y>(rows: seq<Row>, ni: nat, ci: nat, ks: seq<nat>, years: seq<Y>, p: nat) returns (k: nat, i: nat)
    requires |ks| == |years| && Reaches(rows, ni, ci, ks)
    requires p < |Melt(rows, ni, ci, ks, years)|
    ensures k < |ks| && i < |rows|
    ensures Melt(rows, ni, ci, ks, years)[p] == Long(rows[i][ni], rows[i][ci], years[k], rows[i][ks[k]])
  {
    var n := |rows|;
    DivModBelow(p, n, |ks|);
    k, i := p / n, p % n;
    MeltAt(rows, ni, ci, ks, years, k, i);
  }

  // ---------------------------------------------------------------------------
  // World Bank files   (preprocess_data.py:52-97)
  // ---------------------------------------------------------------------------

  /** `df.rename(columns=df.iloc[3]).iloc[4:]`: row 3 becomes the labels, which
      may be strings, floats or NaN; the data starts at row 4. */
  function PromoteHeader(t: Table): (r: Result<(seq<Cell>, seq<Row>)>)
    ensures r.Ok? <==> |t.rows| >= 4
    ensures r.Err? ==> r.failure == IndexError
    ensures r.Ok? ==> r.value.0 == t.rows[3] && |r.value.1| == |t.rows| - 4
    ensures r.Ok? ==> forall i :: 0 <= i < |r.value.1| ==> r.value.1[i] == t.rows[i + 4]
  {
    if |t.rows| < 4 then Err(IndexError) else Ok((t.rows[3], t.rows[4..]))
  }

  /** `isinstance(col, float) and col >= 2000.0 and col <= 2019`. A NaN label
      fails both comparisons, a string label the type test. */
  predicate IsYearLabel(c: Cell) {
    c.Num? && Tidy.MinYear <= c.x <= Tidy.MaxYear
  }

  function YearLabelMask(labels: seq<Cell>): (mask: seq<bool>)
    ensures |mask| == |labels|
    ensures forall j :: 0 <= j < |labels| ==> (mask[j] <==> IsYearLabel(labels[j]))
  {
    seq(|labels|, j requires 0 <= j < |labels| => IsYearLabel(labels[j]))
  }

  /** `astype(int)` on a year label: truncation toward zero, which is the floor
      for the positive labels that pass the year test. */
  function YearOf(c: Cell): int
    requires IsYearLabel(c)
  {
    c.x.Floor
  }

  function YearsOf(labels: seq<Cell>, ks: seq<nat>): (ys: seq<int>)
    requires forall k :: 0 <= k < |ks| ==> ks[k] < |labels| && IsYearLabel(labels[ks[k]])
    ensures |ys| == |ks|
    ensures forall k :: 0 <= k < |ks| ==> ys[k] == YearOf(labels[ks[k]])
  {
    seq(|ks|, k requires 0 <= k < |ks| => YearOf(labels[ks[k]]))
  }

  /** The header row labels `s` exactly once. */
  predicate UniqueCell(labels: seq<Cell>, s: string) {
    Str(s) in labels && forall a, b :: 0 <= a < b < |labels| && labels[a] == Str(s) ==> labels[b] != Str(s)
  }

  /** `df[[..., s, ...]]` reading the column labelled `s`. */
  function LookupCell(labels: seq<Cell>, s: string): (r: Result<nat>)
    ensures r.Ok? <==> UniqueCell(labels, s)
    ensures r.Ok? ==> r.value < |labels| && labels[r.value] == Str(s) && r.value == Find(labels, Str(s))
    ensures r.Err? ==> r.failure == KeyError(s) || r.failure == DuplicateLabel(s)
  {
    var i := Find(labels, Str(s));
    if i == |labels| then Err(KeyError(s))
    else
      var j := Find(labels[i + 1..], Str(s));
      if j < |labels| - i - 1 then
        assert labels[i + 1 + j] == Str(s);
        Err(DuplicateLabel(s))
      else
        assert forall k :: i < k < |labels| ==> labels[k] == labels[i + 1..][k - i - 1];
        Ok(i)
  }

  /** The sort key of `sort_values(['code', 'year'])`. */
  function LongKey(r: Long<int>): (Cell, Cell) {
    (r.code, Num(r.year as real))
  }

  /** The column selection of the World Bank reshape: the country name and code
      columns and the year columns in [2000, 2019], each read as one column. */
  function WorldBankColumns(labels: seq<Cell>): (r: Result<(nat, nat, seq<nat>)>)
    ensures r.Ok? <==>
      && UniqueCell(labels, "Country Name")
      && UniqueCell(labels, "Country Code")
      && Distinct(Pick(labels, Kept(YearLabelMask(labels))))
    ensures r.Ok? ==> var (ni, ci, ks) := r.value;
      && ni < |labels| && labels[ni] == Str("Country Name") && ni == Find(labels, Str("Country Name"))
      && ci < |labels| && labels[ci] == Str("Country Code") && ci == Find(labels, Str("Country Code"))
      && StrictlyIncreasing(ks)
      && (forall k :: 0 <= k < |ks| ==> ks[k] < |labels| && IsYearLabel(labels[ks[k]]))
      && (forall j :: 0 <= j < |labels| && IsYearLabel(labels[j]) ==> j in ks)
    ensures r.Err? ==> r.failure in {KeyError("Country Name"), DuplicateLabel("Country Name"),
      KeyError("Country Code"), DuplicateLabel("Country Code"), DuplicateLabel("year")}
  {
    var ni :- LookupCell(labels, "Country Name");
    var ci :- LookupCell(labels, "Country Code");
    var ks := Kept(YearLabelMask(labels));
    if !Distinct(Pick(labels, ks)) then Err(DuplicateLabel("year")) else Ok((ni, ci, ks))
  }

  /** The World Bank reshape: promote the header, keep the country, code and
      in-range year columns, melt, truncate the year, rename the columns to
      country, code, year and `valueName`, and sort by (code, year). */
  function WorldBankReshape(t: Table, valueName: string): (r: Result<LongTable<int>>)
    requires Valid(t)
    ensures r.Ok? <==> |t.rows| >= 4 && WorldBankColumns(t.rows[3]).Ok?
    ensures r.Err? && |t.rows| < 4 ==> r.failure == IndexError
    ensures r.Ok? ==> r.value.names == LongNames(valueName)
    ensures r.Ok? ==> var (ni, ci, ks) := WorldBankColumns(t.rows[3]).value;
      && |r.value.rows| == |ks| * (|t.rows| - 4)
      && multiset(r.value.rows) == multiset(Melt(t.rows[4..], ni, ci, ks, YearsOf(t.rows[3], ks)))
    ensures r.Ok? ==> SortedBy(LongKey, KeyLe, r.value.rows)
  {
    var (labels, body) :- PromoteHeader(t);
    var (ni, ci, ks) :- WorldBankColumns(labels);
    var melted := Melt(body, ni, ci, ks, YearsOf(labels, ks));
    KeyLeIsTotalPreorder();
    Ok(LongTable(LongNames(valueName), SortBy(LongKey, KeyLe, melted)))
  }

  /** The country, code, year and value of data row `i` under label column `j`. */
  function Observation(t: Table, i: nat, j: nat): Long<int>
    requires 4 <= i < |t.rows| && j < |t.rows[i]| && j < |t.rows[3]| && IsYearLabel(t.rows[3][j])
    requires Find(t.rows[3], Str("Country Name")) < |t.rows[i]| && Find(t.rows[3], Str("Country Code")) < |t.rows[i]|
  {
    var labels := t.rows[3];
    Long(t.rows[i][Find(labels, Str("Country Name"))], t.rows[i][Find(labels, Str("Country Code"))],
         YearOf(labels[j]), t.rows[i][j])
  }

  /** A row of the melted body is the observation of one data row under one
      selected year label. */
  lemma MeltedIsObservation(t: Table, ni: nat, ci: nat, ks: seq<nat>, e: Long<int>)
    requires Valid(t) && 4 <= |t.rows|
    requires ni == Find(t.rows[3], Str("Country Name")) < |t.rows[3]|
    requires ci == Find(t.rows[3], Str("Country Code")) < |t.rows[3]|
    requires forall k :: 0 <= k < |ks| ==> ks[k] < |t.rows[3]| && IsYearLabel(t.rows[3][ks[k]])
    requires Reaches(t.rows[4..], ni, ci, ks)
    requires e in Melt(t.rows[4..], ni, ci, ks, YearsOf(t.rows[3], ks))
    ensures exists i, j ::
      && 4 <= i < |t.rows| && 0 <= j < |t.rows[3]| && IsYearLabel(t.rows[3][j])
      && e == Observation(t, i, j)
  {
    var body := t.rows[4..];
    var ys := YearsOf(t.rows[3], ks);
    var melted := Melt(body, ni, ci, ks, ys);
    var p :| 0 <= p < |melted| && melted[p] == e;
    var k, i := MeltCovers(body, ni, ci, ks, ys, p);
    assert body[i] == t.rows[i + 4];
    assert e == Observation(t, i + 4, ks[k]);
  }

  /** Every row of a World Bank reshape is the observation of one data row under
      one in-range year label, so its year lies in [2000, 2019]. */
  lemma WorldBankRowsSound(t: Table, valueName: string, e: Long<int>)
    requires Valid(t) && WorldBankReshape(t, valueName).Ok?
    requires e in WorldBankReshape(t, valueName).value.rows
    ensures 2000 <= e.year <= 2019
    ensures exists i, j ::
      && 4 <= i < |t.rows| && 0 <= j < |t.rows[3]| && IsYearLabel(t.rows[3][j])
      && e == Observation(t, i, j)
  {
    var labels := t.rows[3];
    var (ni, ci, ks) := WorldBankColumns(labels).value;
    var melted := Melt(t.rows[4..], ni, ci, ks, YearsOf(labels, ks));
    SameElements(melted, WorldBankReshape(t, valueName).value.rows, e);
    MeltedIsObservation(t, ni, ci, ks, e);
    var i, j :| 4 <= i < |t.rows| && 0 <= j < |t.rows[3]| && IsYearLabel(t.rows[3][j]) && e == Observation(t, i, j);
    assert e.year == YearOf(t.rows[3][j]);
  }

  /** Two sequences with the same multiset hold the same elements. */
  lemma SameElements<T>(a: seq<T>, b: seq<T>, x: T)
    requires multiset(a) == multiset(b) && x in b
    ensures x in a
  {
    assert x in multiset(b);
  }

  /** The observation of data row `i` under a selected year label `j` is among
      the melted rows. */
  lemma MeltedObservation(t: Table, i: nat, j: nat, ni: nat, ci: nat, ks: seq<nat>)
    requires Valid(t) && 4 <= i < |t.rows| && j < |t.rows[3]| && IsYearLabel(t.rows[3][j]) && j in ks
    requires ni == Find(t.rows[3], Str("Country Name")) < |t.rows[3]|
    requires ci == Find(t.rows[3], Str("Country Code")) < |t.rows[3]|
    requires forall k :: 0 <= k < |ks| ==> ks[k] < |t.rows[3]| && IsYearLabel(t.rows[3][ks[k]])
    ensures Reaches(t.rows[4..], ni, ci, ks)
    ensures Observation(t, i, j) in Melt(t.rows[4..], ni, ci, ks, YearsOf(t.rows[3], ks))
  {
    BodyReaches(t, ni, ci, ks);
    var body := t.rows[4..];
    var ys := YearsOf(t.rows[3], ks);
    var k :| 0 <= k < |ks| && ks[k] == j;
    assert body[i - 4] == t.rows[i];
    assert ys[k] == YearOf(t.rows[3][j]);
    assert Observation(t, i, j) == Long(body[i - 4][ni], body[i - 4][ci], ys[k], body[i - 4][ks[k]]);
    MeltHas(body, ni, ci, ks, ys, k, i - 4);
  }

  /** Columns within the header row are within every data row. */
  lemma BodyReaches(t: Table, ni: nat, ci: nat, ks: seq<nat>)
    requires Valid(t) && 4 <= |t.rows| && ni < |t.rows[3]| && ci < |t.rows[3]|
    requires forall k :: 0 <= k < |ks| ==> ks[k] < |t.rows[3]|
    ensures Reaches(t.rows[4..], ni, ci, ks)
  {
  }

  /** The observation of every data row under every year label is a row of the reshape. */
  lemma WorldBankRowsComplete(t: Table, valueName: string, i: nat, j: nat)
    requires Valid(t) && WorldBankReshape(t, valueName).Ok?
    requires 4 <= i < |t.rows| && j < |t.rows[3]| && IsYearLabel(t.rows[3][j])
    ensures Observation(t, i, j) in WorldBankReshape(t, valueName).value.rows
  {
    var labels := t.rows[3];
    var (ni, ci, ks) := WorldBankColumns(labels).value;
    MeltedObservation(t, i, j, ni, ci, ks);
    var melted := Melt(t.rows[4..], ni, ci, ks, YearsOf(labels, ks));
    SameElements(WorldBankReshape(t, valueName).value.rows, melted, Observation(t, i, j));
  }

  /** `healthcare_expenditure_worldbank` without the file read and write. */
  function HealthcareExpenditureWorldBank(t: Table): (r: Result<LongTable<int>>)
    requires Valid(t)
    ensures r.Ok? ==> r.value.names == ["country", "code", "year", "expenditure_per_capita"]
    ensures r.Ok? ==> SortedBy(LongKey, KeyLe, r.value.rows)
  {
    WorldBankReshape(t, "expenditure_per_capita")
  }

  /** `life_expectancy_worldbank` without the file read and write. */
  function LifeExpectancyWorldBank(t: Table): (r: Result<LongTable<int>>)
    requires Valid(t)
    ensures r.Ok? ==> r.value.names == ["country", "code", "year", "life_expectancy"]
    ensures r.Ok? ==> SortedBy(LongKey, KeyLe, r.value.rows)
  {
    WorldBankReshape(t, "life_expectancy")
  }

  // ---------------------------------------------------------------------------
  // GDP   (preprocess_data.py:205-226)
  // ---------------------------------------------------------------------------

  /** `'YR' in label`. */
  predicate ContainsYR(s: string) {
    exists i :: 0 <= i < |s| - 1 && s[i] == 'Y' && s[i + 1] == 'R'
  }

  /** `label[:4]`: the first four characters, or all of a shorter label. */
  function YearPrefix(s: string): (r: string)
    ensures |r| == if |s| < 4 then |s| else 4
    ensures forall i :: 0 <= i < |r| ==> r[i] == s[i]
  {
    if |s| < 4 then s else s[..4]
  }

  function YrMask(names: seq<string>): (mask: seq<bool>)
    ensures |mask| == |names|
    ensures forall j :: 0 <= j < |names| ==> (mask[j] <==> ContainsYR(names[j]))
  {
    seq(|names|, j requires 0 <= j < |names| => ContainsYR(names[j]))
  }

  /** `df[df[code].isin(codes)]`: whether each row's code is one of `codes`. */
  function CodeMask(rows: seq<Row>, ci: nat, codes: seq<Cell>): (mask: seq<bool>)
    requires forall i :: 0 <= i < |rows| ==> ci < |rows[i]|
    ensures |mask| == |rows|
    ensures forall i :: 0 <= i < |rows| ==> (mask[i] <==> rows[i][ci] in codes)
  {
    seq(|rows|, i requires 0 <= i < |rows| => rows[i][ci] in codes)
  }

  /** The positions of the rows whose country code is one of `codes`, in order. */
  function KnownRows(t: Table, codes: seq<Cell>): (rs: seq<nat>)
    requires Valid(t) && "Country Code" in t.names
    ensures StrictlyIncreasing(rs)
    ensures forall k :: 0 <= k < |rs| ==> rs[k] < |t.rows| && t.rows[rs[k]][Find(t.names, "Country Code")] in codes
    ensures forall i :: 0 <= i < |t.rows| && t.rows[i][Find(t.names, "Country Code")] in codes ==> i in rs
  {
    Kept(CodeMask(t.rows, Find(t.names, "Country Code"), codes))
  }

  /** Keep the GDP rows of the countries in the merged table, in order, and
      renumber them (preprocess_data.py:213-214). */
  function FilterKnownCodes(t: Table, codes: seq<Cell>): (r: Result<Table>)
    requires Valid(t)
    ensures r.Ok? <==> UniqueLabel(t.names, "Country Code")
    ensures r.Err? ==> r.failure in {KeyError("Country Code"), DuplicateLabel("Country Code")}
    ensures r.Ok? ==> Valid(r.value) && r.value.names == t.names && r.value.numeric == t.numeric
    ensures r.Ok? ==> var rs := KnownRows(t, codes);
      && |r.value.rows| == |rs|
      && forall k :: 0 <= k < |rs| ==> r.value.rows[k] == t.rows[rs[k]]
  {
    var ci :- Lookup(t.names, "Country Code");
    Ok(SelectRows(t, CodeMask(t.rows, ci, codes)))
  }

  const SeriesColumns: seq<string> := ["Series Name", "Series Code"]

  /** The positions of the columns that survive the drop of the series columns. */
  function GdpColumns(names: seq<string>): (cs: seq<nat>)
    ensures StrictlyIncreasing(cs)
    ensures forall k :: 0 <= k < |cs| ==> cs[k] < |names| && names[cs[k]] !in SeriesColumns
    ensures forall j :: 0 <= j < |names| && names[j] !in SeriesColumns ==> j in cs
  {
    Kept(Tidy.DropMask(names, SeriesColumns))
  }

  /** The label a GDP column has after the rename of preprocess_data.py:218-223. */
  function GdpLabel(n: string): string {
    if n == "Country Name" then "country"
    else if n == "Country Code" then "code"
    else if ContainsYR(n) then YearPrefix(n)
    else n
  }

  /** The rename dict: each "YR" label to its first four characters, updated
      with the country name and code columns. */
  function GdpRenames(names: seq<string>): map<string, string> {
    (map n | n in names && ContainsYR(n) :: YearPrefix(n))["Country Name" := "country"]["Country Code" := "code"]
  }

  /** Renaming with the dict gives every column its `GdpLabel`. */
  lemma GdpRenamesLabel(names: seq<string>)
    ensures forall n :: n in names ==> Tidy.Renamed(n, GdpRenames(names)) == GdpLabel(n)
  {
  }

  /** `df.rename(columns=rename_dict)` of the GDP reshape. */
  function RenameGdpColumns(t: Table): (r: Table)
    requires Valid(t)
    ensures Valid(r) && r.rows == t.rows && r.numeric == t.numeric && |r.names| == |t.names|
    ensures forall j :: 0 <= j < |t.names| ==> r.names[j] == GdpLabel(t.names[j])
  {
    GdpRenamesLabel(t.names);
    Tidy.Rename(t, GdpRenames(t.names))
  }

  /** The first label of `wanted` that does not label exactly one column. */
  function FirstNotUnique(names: seq<string>, wanted: seq<string>): (r: Option<string>)
    ensures r.None? <==> forall k :: 0 <= k < |wanted| ==> UniqueLabel(names, wanted[k])
    ensures r.Some? ==> r.value in wanted && !UniqueLabel(names, r.value)
  {
    if |wanted| == 0 then None
    else if !UniqueLabel(names, wanted[0]) then Some(wanted[0])
    else
      var rest := FirstNotUnique(names, wanted[1..]);
      assert forall k :: 1 <= k < |wanted| ==> wanted[k] == wanted[1..][k - 1];
      rest
  }

  lemma SeriesPresent(names: seq<string>)
    ensures (forall l :: l in SeriesColumns ==> l in names) <==> "Series Name" in names && "Series Code" in names
  {
    assert SeriesColumns[0] == "Series Name" && SeriesColumns[1] == "Series Code";
  }

  /** The filtered, dropped table before the rename, cell by cell. */
  lemma GdpWideShape(t: Table, codes: seq<Cell>, f: Table, d: Table)
    requires Valid(t) && FilterKnownCodes(t, codes) == Ok(f) && Tidy.DropColumns(f, SeriesColumns) == Ok(d)
    ensures var cs, rs := GdpColumns(t.names), KnownRows(t, codes);
      && Valid(d)
      && |d.names| == |cs|
      && (forall j :: 0 <= j < |cs| ==> d.names[j] == t.names[cs[j]])
      && |d.rows| == |rs|
      && (forall i, j :: 0 <= i < |rs| && 0 <= j < |cs| ==> d.rows[i][j] == t.rows[rs[i]][cs[j]])
  {
    var cs, rs := GdpColumns(t.names), KnownRows(t, codes);
    assert f.names == t.names;
    assert Kept(Tidy.DropMask(f.names, SeriesColumns)) == cs;
    assert ColumnsFrom(d, f, cs);
    forall i, j | 0 <= i < |rs| && 0 <= j < |cs| ensures d.rows[i][j] == t.rows[rs[i]][cs[j]] {
      assert d.rows[i][j] == f.rows[i][cs[j]];
    }
  }

  /** `w` is the GDP table before the melt and `ks` the positions of its year
      columns: the rows of the known countries, the columns other than the
      series columns, relabelled by `GdpLabel`; row `i`, column `j` of `w` is
      row `KnownRows[i]`, column `GdpColumns[j]` of `t`. */
  ghost predicate WideOf(t: Table, codes: seq<Cell>, w: Table, ks: seq<nat>)
    requires Valid(t) && "Country Code" in t.names
  {
    var cs, rs := GdpColumns(t.names), KnownRows(t, codes);
    && Valid(w)
    && |w.names| == |cs|
    && (forall j :: 0 <= j < |cs| ==> w.names[j] == GdpLabel(t.names[cs[j]]))
    && |w.rows| == |rs|
    && (forall i, j :: 0 <= i < |rs| && 0 <= j < |cs| ==> w.rows[i][j] == t.rows[rs[i]][cs[j]])
    && StrictlyIncreasing(ks)
    && (forall k :: 0 <= k < |ks| ==> ks[k] < |cs| && ContainsYR(t.names[cs[ks[k]]]))
    && (forall j :: 0 <= j < |cs| && ContainsYR(t.names[cs[j]]) ==> j in ks)
  }

  /** The GDP table before the melt: known countries only, series columns
      dropped, columns renamed; with the positions of its year columns. */
  function GdpWide(t: Table, codes: seq<Cell>): (r: Result<(Table, seq<nat>)>)
    requires Valid(t)
    ensures r.Ok? <==> UniqueLabel(t.names, "Country Code") && "Series Name" in t.names && "Series Code" in t.names
    ensures r.Err? ==> r.failure in {KeyError("Country Code"), DuplicateLabel("Country Code"),
      KeyError("Series Name"), KeyError("Series Code")}
    ensures r.Ok? ==> WideOf(t, codes, r.value.0, r.value.1)
  {
    var f :- FilterKnownCodes(t, codes);
    SeriesPresent(f.names);
    var d :- Tidy.DropColumns(f, SeriesColumns);
    GdpWideShape(t, codes, f, d);
    Ok((RenameGdpColumns(d), Kept(YrMask(d.names))))
  }

  /** The melt can read `country`, `code` and every year label as one column each. */
  predicate GdpReadable(w: Table, ks: seq<nat>) {
    && UniqueLabel(w.names, "country")
    && UniqueLabel(w.names, "code")
    && forall k :: 0 <= k < |ks| ==> ks[k] < |w.names| && UniqueLabel(w.names, w.names[ks[k]])
  }

  /** `pd.melt(df, id_vars=['country', 'code'], var_name='year',
      value_vars=new_year_columns, value_name='gdp_in_usd')`. */
  function MeltGdp(w: Table, ks: seq<nat>): (r: Result<LongTable<string>>)
    requires Valid(w) && forall k :: 0 <= k < |ks| ==> ks[k] < |w.names|
    ensures r.Ok? <==> GdpReadable(w, ks)
    ensures r.Err? ==> r.failure.KeyError? || r.failure.DuplicateLabel?
    ensures r.Ok? ==> r.value.names == LongNames("gdp_in_usd")
    ensures r.Ok? ==> |r.value.rows| == |ks| * |w.rows|
    ensures r.Ok? ==> r.value.rows == Melt(w.rows, Find(w.names, "country"), Find(w.names, "code"), ks, Pick(w.names, ks))
  {
    var ni :- Lookup(w.names, "country");
    var ci :- Lookup(w.names, "code");
    var years := Pick(w.names, ks);
    ValidReaches(w, ni, ci, ks);
    YearsReadable(w, ks);
    match FirstNotUnique(w.names, years)
    case Some(y) => Err(DuplicateLabel(y))
    case None => Ok(LongTable(LongNames("gdp_in_usd"), Melt(w.rows, ni, ci, ks, years)))
  }

  /** Every year label names one column exactly when none is reported as not unique. */
  lemma YearsReadable(w: Table, ks: seq<nat>)
    requires forall k :: 0 <= k < |ks| ==> ks[k] < |w.names|
    ensures FirstNotUnique(w.names, Pick(w.names, ks)).None? <==>
      forall k :: 0 <= k < |ks| ==> UniqueLabel(w.names, w.names[ks[k]])
  {
    var years := Pick(w.names, ks);
    assert forall k :: 0 <= k < |ks| ==> years[k] == w.names[ks[k]];
  }

  /** `gdp_worldbank` without the file reads and write: the wide GDP table
      melted over its renamed year columns into (country, code, year label,
      gdp_in_usd) rows, unsorted. */
  function GdpWorldBank(t: Table, codes: seq<Cell>): (r: Result<LongTable<string>>)
    requires Valid(t)
    ensures r.Ok? <==> GdpWide(t, codes).Ok? && GdpReadable(GdpWide(t, codes).value.0, GdpWide(t, codes).value.1)
    ensures r.Err? ==> r.failure.KeyError? || r.failure.DuplicateLabel?
    ensures r.Ok? ==> r.value == MeltGdp(GdpWide(t, codes).value.0, GdpWide(t, codes).value.1).value
    ensures r.Ok? ==> |r.value.rows| == |GdpWide(t, codes).value.1| * |KnownRows(t, codes)|
  {
    var (w, ks) :- GdpWide(t, codes);
    MeltGdp(w, ks)
  }

  /** Neither identifier label contains "YR". */
  lemma IdentifiersLackYR()
    ensures !ContainsYR("Country Name") && !ContainsYR("Country Code")
  {
    var n, c := "Country Name", "Country Code";
    assert forall i :: 0 <= i < |n| ==> n[i] != 'Y';
    assert forall i :: 0 <= i < |c| ==> c[i] != 'Y';
  }

  /** The melt reads the identifiers where the input had them: `code` is the
      input's "Country Code" column and `country` a column relabelled "country". */
  lemma WideIdentifiers(t: Table, codes: seq<Cell>, w: Table, ks: seq<nat>)
    requires Valid(t) && UniqueLabel(t.names, "Country Code")
    requires WideOf(t, codes, w, ks) && GdpReadable(w, ks)
    ensures var cs := GdpColumns(t.names);
      && Find(w.names, "code") < |cs| && cs[Find(w.names, "code")] == Find(t.names, "Country Code")
      && Find(w.names, "country") < |cs| && GdpLabel(t.names[cs[Find(w.names, "country")]]) == "country"
  {
    var cs := GdpColumns(t.names);
    var ci := Find(t.names, "Country Code");
    IdentifiersLackYR();
    assert ci in cs;
    var p := IndexOf(cs, ci);
    assert w.names[p] == GdpLabel(t.names[ci]) == "code";
    UniqueAt(w.names, "code", p);
    var q := Find(w.names, "country");
    assert q < |cs| && w.names[q] == "country";
    assert GdpLabel(t.names[cs[q]]) == "country";
  }

  /** The row of the melt at a known country's row and a year column. */
  function WideObservation(t: Table, i: nat, a: nat, c: nat): Long<string>
    requires Valid(t) && i < |t.rows| && a < |t.names| && c < |t.names| && "Country Code" in t.names
  {
    Long(t.rows[i][a], t.rows[i][Find(t.names, "Country Code")], YearPrefix(t.names[c]), t.rows[i][c])
  }

  /** The column `a` is the one the GDP reshape relabels "country". */
  predicate CountryColumn(names: seq<string>, a: nat) {
    a < |names| && names[a] !in SeriesColumns && GdpLabel(names[a]) == "country"
  }

  /** The column `c` is a year column of the GDP reshape. */
  predicate YearColumn(names: seq<string>, c: nat) {
    c < |names| && names[c] !in SeriesColumns && ContainsYR(names[c])
  }

  /** `e` is the observation of some known country's row in the country column
      and some year column. */
  ghost predicate GdpObserved(t: Table, codes: seq<Cell>, e: Long<string>)
    requires Valid(t) && "Country Code" in t.names
  {
    exists i, a, c ::
      && 0 <= i < |t.rows| && CountryColumn(t.names, a) && YearColumn(t.names, c)
      && t.rows[i][Find(t.names, "Country Code")] in codes
      && e == WideObservation(t, i, a, c)
  }

  /** A "YR" label keeps its first four characters. */
  lemma YearLabelIsPrefix(n: string)
    requires ContainsYR(n)
    ensures GdpLabel(n) == YearPrefix(n)
  {
    IdentifiersLackYR();
  }

  /** The melted row for wide row `i` and year column `k` is the observation of
      input row `KnownRows[i]` in the country column and year column behind them. */
  lemma WideRowIs(t: Table, codes: seq<Cell>, w: Table, ks: seq<nat>, i: nat, k: nat)
    requires Valid(t) && UniqueLabel(t.names, "Country Code")
    requires WideOf(t, codes, w, ks) && GdpReadable(w, ks)
    requires i < |w.rows| && k < |ks|
    ensures var cs, rs := GdpColumns(t.names), KnownRows(t, codes); var ni := Find(w.names, "country");
      && i < |rs| && ni < |cs| && ks[k] < |cs|
      && CountryColumn(t.names, cs[ni]) && YearColumn(t.names, cs[ks[k]])
      && Long(w.rows[i][ni], w.rows[i][Find(w.names, "code")], w.names[ks[k]], w.rows[i][ks[k]])
         == WideObservation(t, rs[i], cs[ni], cs[ks[k]])
  {
    var cs, rs := GdpColumns(t.names), KnownRows(t, codes);
    var ni, ci := Find(w.names, "country"), Find(w.names, "code");
    WideIdentifiers(t, codes, w, ks);
    var c := cs[ks[k]];
    YearLabelIsPrefix(t.names[c]);
    assert w.rows[i][ni] == t.rows[rs[i]][cs[ni]];
    assert w.rows[i][ci] == t.rows[rs[i]][cs[ci]];
    assert w.rows[i][ks[k]] == t.rows[rs[i]][c];
    assert w.names[ks[k]] == GdpLabel(t.names[c]);
  }

  lemma WideRowsSound(t: Table, codes: seq<Cell>, w: Table, ks: seq<nat>, e: Long<string>)
    requires Valid(t) && UniqueLabel(t.names, "Country Code")
    requires WideOf(t, codes, w, ks) && GdpReadable(w, ks)
    requires e in MeltGdp(w, ks).value.rows
    ensures GdpObserved(t, codes, e)
  {
    var cs, rs := GdpColumns(t.names), KnownRows(t, codes);
    var ni, ci := Find(w.names, "country"), Find(w.names, "code");
    var years := Pick(w.names, ks);
    var melted := MeltGdp(w, ks).value.rows;
    var p :| 0 <= p < |melted| && melted[p] == e;
    ValidReaches(w, ni, ci, ks);
    var k, i := MeltCovers(w.rows, ni, ci, ks, years, p);
    WideRowIs(t, codes, w, ks, i, k);
    assert e == WideObservation(t, rs[i], cs[ni], cs[ks[k]]);
  }

  lemma WideRowsComplete(t: Table, codes: seq<Cell>, w: Table, ks: seq<nat>, i: nat, a: nat, c: nat)
    requires Valid(t) && UniqueLabel(t.names, "Country Code")
    requires WideOf(t, codes, w, ks) && GdpReadable(w, ks)
    requires i < |t.rows| && t.rows[i][Find(t.names, "Country Code")] in codes
    requires CountryColumn(t.names, a) && YearColumn(t.names, c)
    ensures WideObservation(t, i, a, c) in MeltGdp(w, ks).value.rows
  {
    var ni, ci := Find(w.names, "country"), Find(w.names, "code");
    var i', k := WidePositions(t, codes, w, ks, i, a, c);
    ValidReaches(w, ni, ci, ks);
    MeltHas(w.rows, ni, ci, ks, Pick(w.names, ks), k, i');
    WideRowIs(t, codes, w, ks, i', k);
  }

  /** Where a known country's row, the country column and a year column of the
      input sit in the wide table. */
  lemma WidePositions(t: Table, codes: seq<Cell>, w: Table, ks: seq<nat>, i: nat, a: nat, c: nat)
      returns (i': nat, k: nat)
    requires Valid(t) && UniqueLabel(t.names, "Country Code")
    requires WideOf(t, codes, w, ks) && GdpReadable(w, ks)
    requires i < |t.rows| && t.rows[i][Find(t.names, "Country Code")] in codes
    requires CountryColumn(t.names, a) && YearColumn(t.names, c)
    ensures var cs, rs := GdpColumns(t.names), KnownRows(t, codes);
      && i' < |w.rows| && i' < |rs| && rs[i'] == i
      && k < |ks| && ks[k] < |cs| && cs[ks[k]] == c
      && Find(w.names, "country") < |cs| && cs[Find(w.names, "country")] == a
  {
    var cs, rs := GdpColumns(t.names), KnownRows(t, codes);
    assert i in rs;
    i' := IndexOf(rs, i);
    assert a in cs;
    var pa := IndexOf(cs, a);
    assert w.names[pa] == GdpLabel(t.names[a]) == "country";
    UniqueAt(w.names, "country", pa);
    assert c in cs;
    var pc := IndexOf(cs, c);
    assert pc in ks;
    k := IndexOf(ks, pc);
  }

  lemma IndexOf<T>(s: seq<T>, x: T) returns (p: nat)
    requires x in s
    ensures p < |s| && s[p] == x
  {
    p :| 0 <= p < |s| && s[p] == x;
  }

  /** A label that names one column is found at that column. */
  lemma UniqueAt(names: seq<string>, n: string, p: nat)
    requires UniqueLabel(names, n) && p < |names| && names[p] == n
    ensures Find(names, n) == p
  {
    var f := Find(names, n);
    assert f < |names| && names[f] == n;
    assert forall b :: f < b < |names| ==> names[b] != n;
  }

  /** Every GDP row is the value of one known country under one "YR" column of
      the input, labelled with the first four characters of that column's label. */
  lemma GdpRowsSound(t: Table, codes: seq<Cell>, e: Long<string>)
    requires Valid(t) && GdpWorldBank(t, codes).Ok?
    requires e in GdpWorldBank(t, codes).value.rows
    ensures "Country Code" in t.names
    ensures GdpObserved(t, codes, e)
  {
    var (w, ks) := GdpWide(t, codes).value;
    WideRowsSound(t, codes, w, ks, e);
  }

  /** Every "YR" column of every known country's row is a GDP row. */
  lemma GdpRowsComplete(t: Table, codes: seq<Cell>, i: nat, a: nat, c: nat)
    requires Valid(t) && GdpWorldBank(t, codes).Ok?
    requires UniqueLabel(t.names, "Country Code")
    requires i < |t.rows| && t.rows[i][Find(t.names, "Country Code")] in codes
    requires CountryColumn(t.names, a) && YearColumn(t.names, c)
    ensures WideObservation(t, i, a, c) in GdpWorldBank(t, codes).value.rows
  {
    var (w, ks) := GdpWide(t, codes).value;
    WideRowsComplete(t, codes, w, ks, i, a, c);
  }

  // ---------------------------------------------------------------------------
  // The base-period filter   (preprocess_data.py:161)
  // ---------------------------------------------------------------------------

  function MissingMask(rows: seq<Row>, bi: nat): (mask: seq<bool>)
    requires forall i :: 0 <= i < |rows| ==> bi < |rows[i]|
    ensures |mask| == |rows|
    ensures forall i :: 0 <= i < |rows| ==> (mask[i] <==> rows[i][bi] == Missing)
  {
    seq(|rows|, i requires 0 <= i < |rows| => rows[i][bi] == Missing)
  }

  /** `df[df['base_period'].isna()].reset_index(drop=True).drop(columns=['base_period'])`:
      exactly the rows without a base period, in order, each without that column. */
  function BasePeriodFilter(t: Table): (r: Result<Table>)
    requires Valid(t)
    ensures r.Ok? <==> UniqueLabel(t.names, "base_period")
    ensures r.Err? ==> r.failure in {KeyError("base_period"), DuplicateLabel("base_period")}
    ensures r.Ok? ==> var bi := Find(t.names, "base_period"); bi < |t.names| && BaseFiltered(t, bi, r.value)
  {
    var bi :- Lookup(t.names, "base_period");
    BasePeriodFacts(t, bi);
    Ok(DropColumnAt(SelectRows(t, MissingMask(t.rows, bi)), bi))
  }

  /** `r` holds the rows of `t` whose column `bi` is missing, in order, each
      without that column, and `t`'s labels without label `bi`. */
  ghost predicate BaseFiltered(t: Table, bi: nat, r: Table)
    requires Valid(t) && bi < |t.names|
  {
    var rs := Kept(MissingMask(t.rows, bi));
    && Valid(r)
    && "base_period" !in r.names
    && r.names == Without(t.names, bi)
    && |r.rows| == |rs|
    && (forall k :: 0 <= k < |rs| ==> t.rows[rs[k]][bi] == Missing)
    && (forall i :: 0 <= i < |t.rows| && t.rows[i][bi] == Missing ==> i in rs)
    && forall k :: 0 <= k < |rs| ==> r.rows[k] == Without(t.rows[rs[k]], bi)
  }

  lemma BasePeriodFacts(t: Table, bi: nat)
    requires Valid(t) && UniqueLabel(t.names, "base_period")
    requires bi < |t.names| && t.names[bi] == "base_period"
    ensures BaseFiltered(t, bi, DropColumnAt(SelectRows(t, MissingMask(t.rows, bi)), bi))
  {
    var r := DropColumnAt(SelectRows(t, MissingMask(t.rows, bi)), bi);
    assert forall j :: 0 <= j < |r.names| ==> r.names[j] == t.names[if j < bi then j else j + 1];
  }

  /** `set_healthcare_capita_outcomes` without the file read and write: the tidy
      pipeline with its default columns, the observation value renamed to
      set_healtchare_capita_outcomes and BASE_PER to base_period, then the
      base-period filter. */
  function HealthcareCapitaOutcomes(t: Table): (r: Result<Table>)
    requires Valid(t)
    ensures r.Ok? ==> Valid(r.value) && "base_period" !in r.value.names
    ensures r.Ok? ==> forall k :: 0 <= k < |r.value.names| ==> Tidy.IsNormalName(r.value.names[k])
  {
    var out :- Tidy.Tidy(t, "unfiltered_set_healthcare_capita_outcomes",
      map["OBS_VALUE" := "set_healtchare_capita_outcomes", "BASE_PER" := "base_period"],
      Tidy.DefaultCountryColumn, Tidy.DefaultYearColumn, None, Tidy.DefaultCodeColumn);
    NamesStayNormal(out.cleaned);
    BasePeriodFilter(out.cleaned)
  }

  lemma NamesStayNormal(c: Table)
    requires Valid(c) && forall k :: 0 <= k < |c.names| ==> Tidy.IsNormalName(c.names[k])
    ensures BasePeriodFilter(c).Ok? ==> var n := BasePeriodFilter(c).value.names;
      forall k :: 0 <= k < |n| ==> Tidy.IsNormalName(n[k])
  {
  }
}

=== FILE: results.dfy ===
/** The rank aggregation of results.py: per-country means of each metric,
    a ranking of the countries per metric in a fixed direction, weights from
    the coefficient of variation, and a final ranking by the weighted sum of
    the per-metric ranks. */
module Results {
  import opened Frames
  import opened Sorting
  import opened Ordering

  // ---------------------------------------------------------------------------
  // Means that skip missing values
  // ---------------------------------------------------------------------------

  function NumSum(col: seq<Cell>): real {
    if |col| == 0 then 0.0
    else (if col[0].Num? then col[0].x else 0.0) + NumSum(col[1..])
  }

  function NumCount(col: seq<Cell>): nat {
    if |col| == 0 then 0
    else (if col[0].Num? then 1 else 0) + NumCount(col[1..])
  }

  /** pandas' `mean()`: the average of the numbers, NaN (None) when there are none. */
  function MeanOf(col: seq<Cell>): (r: Option<real>)
    ensures r.None? <==> NumCount(col) == 0
    ensures r.Some? ==> r.value * (NumCount(col) as real) == NumSum(col)
  {
    if NumCount(col) == 0 then None else Some(NumSum(col) / (NumCount(col) as real))
  }

  /** `n` copies of `x` added up. */
  function Times(n: nat, x: real): real {
    (n as real) * x
  }

  lemma {:induction false} SumWithinBounds(col: seq<Cell>, lo: real, hi: real)
    requires forall i :: 0 <= i < |col| && col[i].Num? ==> lo <= col[i].x <= hi
    ensures Times(NumCount(col), lo) <= NumSum(col) <= Times(NumCount(col), hi)
  {
    if |col| > 0 {
      var rest := col[1..];
      assert forall i :: 0 <= i < |rest| ==> rest[i] == col[i + 1];
      SumWithinBounds(rest, lo, hi);
      if col[0].Num? {
        TimesSucc(NumCount(rest), lo);
        TimesSucc(NumCount(rest), hi);
      }
    }
  }

  lemma TimesSucc(n: nat, x: real)
    ensures Times(n + 1, x) == Times(n, x) + x
  {
  }

  lemma DivBetween(s: real, n: real, lo: real, hi: real)
    requires n > 0.0 && n * lo <= s <= n * hi
    ensures lo <= s / n <= hi
  {
  }

  /** A mean lies between any lower and upper bound of the numbers it averages. */
  lemma MeanWithinBounds(col: seq<Cell>, lo: real, hi: real)
    requires forall i :: 0 <= i < |col| && col[i].Num? ==> lo <= col[i].x <= hi
    ensures MeanOf(col).Some? ==> lo <= MeanOf(col).value <= hi
  {
    SumWithinBounds(col, lo, hi);
    if NumCount(col) > 0 {
      DivBetween(NumSum(col), NumCount(col) as real, lo, hi);
    }
  }

  // ---------------------------------------------------------------------------
  // df.groupby('code').mean().drop(columns=['year'])   (results.py:7-8)
  // ---------------------------------------------------------------------------

  /** One country: its code and its mean for each metric, in metric order. */
  datatype Group = Group(code: Cell, means: seq<Option<real>>)

  datatype MeanTable = MeanTable(metrics: seq<string>, groups: seq<Group>)

  function GroupCodes(m: MeanTable): (cs: seq<Cell>)
    ensures |cs| == |m.groups|
    ensures forall g :: 0 <= g < |m.groups| ==> cs[g] == m.groups[g].code
  {
    seq(|m.groups|, g requires 0 <= g < |m.groups| => m.groups[g].code)
  }

  /** One mean per metric per group, one group per code, no group for a missing code. */
  ghost predicate ValidMeans(m: MeanTable) {
    && (forall g :: 0 <= g < |m.groups| ==> |m.groups[g].means| == |m.metrics|)
    && (forall g :: 0 <= g < |m.groups| ==> m.groups[g].code != Missing)
    && Distinct(GroupCodes(m))
  }

  /** The distinct non-missing codes of column `ci`, in order of first occurrence. */
  function CodeKeys(rows: seq<Row>, ci: nat): (codes: seq<Cell>)
    requires forall i :: 0 <= i < |rows| ==> ci < |rows[i]|
    ensures Distinct(codes)
    ensures forall c :: c in codes <==> c != Missing && c in Column(rows, ci)
  {
    if |rows| == 0 then []
    else
      var prev := CodeKeys(rows[..|rows| - 1], ci);
      var c := rows[|rows| - 1][ci];
      assert Column(rows, ci) == Column(rows[..|rows| - 1], ci) + [c];
      if c == Missing || c in prev then prev else prev + [c]
  }

  /** Where column `ci` holds `code`. */
  function GroupMask(rows: seq<Row>, ci: nat, code: Cell): (mask: seq<bool>)
    requires forall i :: 0 <= i < |rows| ==> ci < |rows[i]|
    ensures |mask| == |rows|
    ensures forall i :: 0 <= i < |rows| ==> (mask[i] <==> rows[i][ci] == code)
  {
    seq(|rows|, i requires 0 <= i < |rows| => rows[i][ci] == code)
  }

  /** The cells of column `j` in the rows whose code is `code`, top to bottom:
      one cell for each such row, and no other. */
  function GroupColumn(rows: seq<Row>, ci: nat, code: Cell, j: nat): (col: seq<Cell>)
    requires forall i :: 0 <= i < |rows| ==> ci < |rows[i]| && j < |rows[i]|
    ensures var ks := Kept(GroupMask(rows, ci, code));
      |col| == |ks| && forall k :: 0 <= k < |ks| ==> col[k] == rows[ks[k]][j]
    ensures forall x :: x in col ==> exists i :: 0 <= i < |rows| && rows[i][ci] == code && rows[i][j] == x
    ensures forall i :: 0 <= i < |rows| && rows[i][ci] == code ==> rows[i][j] in col
  {
    if |rows| == 0 then []
    else
      var rest := GroupColumn(rows[1..], ci, code, j);
      var col := if rows[0][ci] == code then [rows[0][j]] + rest else rest;
      GroupColumnStep(rows, ci, code, j, rest, col);
      GroupColumnMembers(rows, ci, code, j, col);
      col
  }

  /** The rows' group column is the first row's cell, when its code matches,
      followed by the group column of the other rows. */
  lemma GroupColumnStep(rows: seq<Row>, ci: nat, code: Cell, j: nat, rest: seq<Cell>, col: seq<Cell>)
    requires |rows| > 0 && forall i :: 0 <= i < |rows| ==> ci < |rows[i]| && j < |rows[i]|
    requires var ks := Kept(GroupMask(rows[1..], ci, code));
      |rest| == |ks| && forall k :: 0 <= k < |ks| ==> rest[k] == rows[1..][ks[k]][j]
    requires col == if rows[0][ci] == code then [rows[0][j]] + rest else rest
    ensures var ks := Kept(GroupMask(rows, ci, code));
      |col| == |ks| && forall k :: 0 <= k < |ks| ==> col[k] == rows[ks[k]][j]
  {
    var mask := GroupMask(rows, ci, code);
    GroupMaskTail(rows, ci, code);
    KeptTail(mask);
    var ks, ks1 := Kept(mask), Kept(mask[1..]);
    PickShifted(rows, j, rest, ks1);
    if rows[0][ci] == code {
      assert ks == [0] + Shifted(ks1);
      PickCons(rows, j, rest, Shifted(ks1));
    } else {
      assert ks == Shifted(ks1) && col == rest;
    }
  }

  lemma GroupMaskTail(rows: seq<Row>, ci: nat, code: Cell)
    requires |rows| > 0 && forall i :: 0 <= i < |rows| ==> ci < |rows[i]|
    ensures GroupMask(rows, ci, code)[1..] == GroupMask(rows[1..], ci, code)
  {
  }

  /** Picking from the rows after the first, at positions `ks1`, is picking
      from all rows at the positions one further on. */
  lemma PickShifted(rows: seq<Row>, j: nat, rest: seq<Cell>, ks1: seq<nat>)
    requires |rows| > 0 && forall i :: 0 <= i < |rows| ==> j < |rows[i]|
    requires forall k :: 0 <= k < |ks1| ==> ks1[k] < |rows| - 1
    requires |rest| == |ks1| && forall k :: 0 <= k < |ks1| ==> rest[k] == rows[1..][ks1[k]][j]
    ensures var ks := Shifted(ks1); forall k :: 0 <= k < |ks| ==> rest[k] == rows[ks[k]][j]
  {
  }

  /** Putting the first row's cell in front of a pick adds position 0 in front. */
  lemma PickCons(rows: seq<Row>, j: nat, rest: seq<Cell>, ks: seq<nat>)
    requires |rows| > 0 && forall i :: 0 <= i < |rows| ==> j < |rows[i]|
    requires forall k :: 0 <= k < |ks| ==> ks[k] < |rows|
    requires |rest| == |ks| && forall k :: 0 <= k < |ks| ==> rest[k] == rows[ks[k]][j]
    ensures var col, ks' := [rows[0][j]] + rest, [0] + ks;
      |col| == |ks'| && forall k :: 0 <= k < |ks'| ==> col[k] == rows[ks'[k]][j]
  {
    var col, ks' := [rows[0][j]] + rest, [0] + ks;
    forall k | 1 <= k < |ks'| ensures col[k] == rows[ks'[k]][j] {
      assert col[k] == rest[k - 1] && ks'[k] == ks[k - 1];
    }
  }

  /** A group column holds a cell of every row with the code, and only such cells. */
  lemma GroupColumnMembers(rows: seq<Row>, ci: nat, code: Cell, j: nat, col: seq<Cell>)
    requires forall i :: 0 <= i < |rows| ==> ci < |rows[i]| && j < |rows[i]|
    requires var ks := Kept(GroupMask(rows, ci, code));
      |col| == |ks| && forall k :: 0 <= k < |ks| ==> col[k] == rows[ks[k]][j]
    ensures forall x :: x in col ==> exists i :: 0 <= i < |rows| && rows[i][ci] == code && rows[i][j] == x
    ensures forall i :: 0 <= i < |rows| && rows[i][ci] == code ==> rows[i][j] in col
  {
    var mask := GroupMask(rows, ci, code);
    var ks := Kept(mask);
    forall x | x in col ensures exists i :: 0 <= i < |rows| && rows[i][ci] == code && rows[i][j] == x {
      var k :| 0 <= k < |col| && col[k] == x;
      assert mask[ks[k]];
    }
    forall i | 0 <= i < |rows| && rows[i][ci] == code ensures rows[i][j] in col {
      assert mask[i];
      var k :| 0 <= k < |ks| && ks[k] == i;
      assert col[k] == rows[i][j];
    }
  }

  /** The averaged columns: numeric, not the code, not "year". */
  function MetricMask(t: Table, ci: nat): (mask: seq<bool>)
    requires Valid(t)
    ensures |mask| == |t.names|
    ensures forall j :: 0 <= j < |t.names| ==> (mask[j] <==> t.numeric[j] && t.names[j] != "year" && j != ci)
  {
    seq(|t.names|, j requires 0 <= j < |t.names| => t.numeric[j] && t.names[j] != "year" && j != ci)
  }

  predicate HasNumericYear(t: Table)
    requires Valid(t)
  {
    exists j :: 0 <= j < |t.names| && t.numeric[j] && t.names[j] == "year"
  }

  /** The per-code means. The code column must label one column; the numeric
      "year" column is averaged by pandas and then dropped, so its absence is a
      KeyError. */
  function GroupMeans(t: Table): (r: Result<MeanTable>)
    requires Valid(t)
    ensures r.Ok? <==> UniqueLabel(t.names, "code") && HasNumericYear(t)
    ensures r.Ok? ==> ValidMeans(r.value)
    ensures r.Ok? ==> "year" !in r.value.metrics
    ensures r.Ok? ==> var ci := Find(t.names, "code");
      forall c :: c in GroupCodes(r.value) <==> c != Missing && c in Column(t.rows, ci)
    ensures r.Ok? ==> var ci := Find(t.names, "code"); var ks := Kept(MetricMask(t, ci));
      && |r.value.metrics| == |ks|
      && (forall k :: 0 <= k < |ks| ==> r.value.metrics[k] == t.names[ks[k]] && t.numeric[ks[k]])
      && (forall g, k :: 0 <= g < |r.value.groups| && 0 <= k < |ks| ==>
            r.value.groups[g].means[k] == MeanOf(GroupColumn(t.rows, ci, r.value.groups[g].code, ks[k])))
  {
    var ci :- Lookup(t.names, "code");
    if !HasNumericYear(t) then Err(KeyError("year"))
    else
      var m := MeansOf(t, ci);
      MeanTableFacts(t, ci, m);
      MeanTableMeans(t, ci, m);
      Ok(m)
  }

  /** The averaged columns' labels and, per code, their means. */
  function MeansOf(t: Table, ci: nat): (m: MeanTable)
    requires Valid(t) && ci < |t.names|
    ensures |m.metrics| == |Kept(MetricMask(t, ci))|
    ensures forall g :: 0 <= g < |m.groups| ==> |m.groups[g].means| == |m.metrics|
  {
    var ks := Kept(MetricMask(t, ci));
    MeanTable(Pick(t.names, ks), GroupsOf(t.rows, ci, CodeKeys(t.rows, ci), ks))
  }

  /** The table of group means has one group per non-missing code and one mean
      per averaged column. */
  lemma MeanTableFacts(t: Table, ci: nat, m: MeanTable)
    requires Valid(t) && ci < |t.names|
    requires m == MeansOf(t, ci)
    ensures ValidMeans(m)
    ensures "year" !in m.metrics
    ensures forall c :: c in GroupCodes(m) <==> c != Missing && c in Column(t.rows, ci)
    ensures var ks := Kept(MetricMask(t, ci));
      forall k :: 0 <= k < |ks| ==> m.metrics[k] == t.names[ks[k]] && t.numeric[ks[k]]
  {
    var codes := CodeKeys(t.rows, ci);
    assert GroupCodes(m) == codes;
    assert forall g :: 0 <= g < |codes| ==> codes[g] in codes;
  }

  /** Each group's mean in an averaged column is the mean of that column over
      the group's rows. */
  lemma MeanTableMeans(t: Table, ci: nat, m: MeanTable)
    requires Valid(t) && ci < |t.names|
    requires m == MeansOf(t, ci)
    ensures var ks := Kept(MetricMask(t, ci));
      forall g, k :: 0 <= g < |m.groups| && 0 <= k < |ks| ==>
        m.groups[g].means[k] == MeanOf(GroupColumn(t.rows, ci, m.groups[g].code, ks[k]))
  {
  }

  /** One group per code, holding its mean in each averaged column. */
  function GroupsOf(rows: seq<Row>, ci: nat, codes: seq<Cell>, ks: seq<nat>): (gs: seq<Group>)
    requires forall i :: 0 <= i < |rows| ==> ci < |rows[i]| && forall k :: 0 <= k < |ks| ==> ks[k] < |rows[i]|
    ensures |gs| == |codes|
    ensures forall g :: 0 <= g < |codes| ==> gs[g].code == codes[g] && |gs[g].means| == |ks|
    ensures forall g, k :: 0 <= g < |codes| && 0 <= k < |ks| ==>
      gs[g].means[k] == MeanOf(GroupColumn(rows, ci, codes[g], ks[k]))
  {
    seq(|codes|, g requires 0 <= g < |codes| =>
      Group(codes[g], seq(|ks|, k requires 0 <= k < |ks| => MeanOf(GroupColumn(rows, ci, codes[g], ks[k])))))
  }

  // ---------------------------------------------------------------------------
  // rank_column   (results.py:11-18)
  // ---------------------------------------------------------------------------

  datatype Entry = Entry(code: Cell, value: Option<real>)

  function EntryValue(e: Entry): Option<real> {
    e.value
  }

  function EntryCode(e: Entry): Cell {
    e.code
  }

  /** A row of a rank table: 1-based rank, code, and the mean it was ranked by. */
  datatype Ranked = Ranked(rank: nat, code: Cell, value: Option<real>)

  /** The rank table and the mean of the ranked column (the `sd` is an input of
      the weighting, see `MetricStats`). */
  datatype RankInfo = RankInfo(ranks: seq<Ranked>, mean: Option<real>)

  function Entries(m: MeanTable, k: nat): (es: seq<Entry>)
    requires ValidMeans(m) && k < |m.metrics|
    ensures |es| == |m.groups|
    ensures forall g :: 0 <= g < |m.groups| ==> es[g] == Entry(m.groups[g].code, m.groups[g].means[k])
  {
    seq(|m.groups|, g requires 0 <= g < |m.groups| => Entry(m.groups[g].code, m.groups[g].means[k]))
  }

  function Unranked(rs: seq<Ranked>): (es: seq<Entry>)
    ensures |es| == |rs|
    ensures forall i :: 0 <= i < |rs| ==> es[i] == Entry(rs[i].code, rs[i].value)
  {
    seq(|rs|, i requires 0 <= i < |rs| => Entry(rs[i].code, rs[i].value))
  }

  function RankCodes(info: RankInfo): (cs: seq<Cell>)
    ensures |cs| == |info.ranks|
    ensures forall i :: 0 <= i < |info.ranks| ==> cs[i] == info.ranks[i].code
  {
    seq(|info.ranks|, i requires 0 <= i < |info.ranks| => info.ranks[i].code)
  }

  function AsCell(v: Option<real>): Cell {
    if v.Some? then Num(v.value) else Missing
  }

  function ValueCells(rs: seq<Ranked>): (col: seq<Cell>)
    ensures |col| == |rs|
  {
    EntryCells(Unranked(rs))
  }

  function EntryCells(es: seq<Entry>): (col: seq<Cell>)
    ensures |col| == |es|
  {
    if |es| == 0 then [] else [AsCell(es[0].value)] + EntryCells(es[1..])
  }

  /** Column `k` of the mean table, in group order. */
  function MetricColumn(m: MeanTable, k: nat): seq<Cell>
    requires ValidMeans(m) && k < |m.metrics|
  {
    EntryCells(Entries(m, k))
  }

  /** Removing position `p` removes one copy of `b[p]` from the multiset. */
  lemma RemoveAt<T>(b: seq<T>, p: nat)
    requires p < |b|
    ensures multiset(b[..p] + b[p + 1..]) == multiset(b) - multiset{b[p]}
  {
    assert b == b[..p] + [b[p]] + b[p + 1..];
  }

  /** The sum and the count of the present values of some entries. */
  function EntrySum(es: seq<Entry>): real {
    if |es| == 0 then 0.0 else (if es[0].value.Some? then es[0].value.value else 0.0) + EntrySum(es[1..])
  }

  function EntryCount(es: seq<Entry>): nat {
    if |es| == 0 then 0 else (if es[0].value.Some? then 1 else 0) + EntryCount(es[1..])
  }

  lemma {:induction false} EntrySumsAreCellSums(es: seq<Entry>)
    ensures NumSum(EntryCells(es)) == EntrySum(es)
    ensures NumCount(EntryCells(es)) == EntryCount(es)
  {
    if |es| > 0 {
      EntrySumsAreCellSums(es[1..]);
      assert EntryCells(es)[1..] == EntryCells(es[1..]);
    }
  }

  /** Removing position `p` removes exactly its value from the sum and the count. */
  lemma {:induction false} SumsWithoutAt(b: seq<Entry>, p: nat)
    requires p < |b|
    ensures EntrySum(b) == EntrySum([b[p]]) + EntrySum(b[..p] + b[p + 1..])
    ensures EntryCount(b) == EntryCount([b[p]]) + EntryCount(b[..p] + b[p + 1..])
  {
    var rest := b[..p] + b[p + 1..];
    if p == 0 {
      assert rest == b[1..];
    } else {
      SumsWithoutAt(b[1..], p - 1);
      assert b[1..][p - 1] == b[p];
      assert rest[0] == b[0];
      assert rest[1..] == b[1..][..p - 1] + b[1..][p..];
    }
  }

  /** The first entry of `a` sits at some position `p` of its permutation `b`;
      the rest of `a` is a permutation of `b` without position `p`. */
  lemma MatchFirst<T>(a: seq<T>, b: seq<T>) returns (p: nat)
    requires multiset(a) == multiset(b) && |a| > 0
    ensures p < |b| && b[p] == a[0]
    ensures multiset(a[1..]) == multiset(b[..p] + b[p + 1..])
  {
    assert a == [a[0]] + a[1..];
    assert multiset(a[1..]) == multiset(a) - multiset{a[0]};
    assert a[0] in multiset(b);
    p :| 0 <= p < |b| && b[p] == a[0];
    RemoveAt(b, p);
  }

  /** Reordering entries changes neither the sum nor the count of their values. */
  lemma {:induction false} PermutedSums(a: seq<Entry>, b: seq<Entry>)
    requires multiset(a) == multiset(b)
    ensures EntrySum(a) == EntrySum(b)
    ensures EntryCount(a) == EntryCount(b)
    decreases |a|
  {
    if |a| == 0 {
      assert |b| == |multiset(b)| == 0;
    } else {
      var p := MatchFirst(a, b);
      var rest := b[..p] + b[p + 1..];
      PermutedSums(a[1..], rest);
      SumsWithoutAt(b, p);
      assert EntrySum([b[p]]) == EntrySum([a[0]]) && EntryCount([b[p]]) == EntryCount([a[0]]);
    }
  }

  /** Ranks 1..n in order, one per code. */
  ghost predicate ValidRanks(info: RankInfo) {
    && (forall i :: 0 <= i < |info.ranks| ==> info.ranks[i].rank == i + 1)
    && Distinct(RankCodes(info))
  }

  /** The ranks follow the metric's direction: ascending puts the smallest mean at
      rank 1, descending the largest; a NaN mean ranks after every number. */
  ghost predicate RankedBy(info: RankInfo, ascending: bool) {
    forall i, j :: 0 <= i < j < |info.ranks| ==> ValueOrder(ascending)(info.ranks[i].value, info.ranks[j].value)
  }

  lemma DistinctCodesOfEntries(m: MeanTable, k: nat)
    requires ValidMeans(m) && k < |m.metrics|
    ensures DistinctBy(EntryCode, Entries(m, k))
  {
    var es := Entries(m, k);
    forall a, b | 0 <= a < b < |es| ensures EntryCode(es[a]) != EntryCode(es[b]) {
      assert GroupCodes(m)[a] != GroupCodes(m)[b];
    }
  }

  /** `rank_column(column, ascending)`: sort the countries by their mean in the
      given direction and number them from 1; also the column's mean. */
  function RankColumn(m: MeanTable, column: string, ascending: bool): (r: Result<RankInfo>)
    requires ValidMeans(m)
    ensures r.Ok? <==> UniqueLabel(m.metrics, column)
    ensures r.Err? ==> r.failure in {KeyError(column), DuplicateLabel(column)}
    ensures r.Ok? ==> |r.value.ranks| == |m.groups| && ValidRanks(r.value) && RankedBy(r.value, ascending)
    ensures r.Ok? ==> multiset(Unranked(r.value.ranks)) == multiset(Entries(m, Find(m.metrics, column)))
    ensures r.Ok? ==> forall c :: c in RankCodes(r.value) <==> c in GroupCodes(m)
    ensures r.Ok? ==> r.value.mean == MeanOf(MetricColumn(m, Find(m.metrics, column)))
  {
    var k :- Lookup(m.metrics, column);
    ValueOrderIsTotalPreorder(ascending);
    var sorted := SortBy(EntryValue, ValueOrder(ascending), Entries(m, k));
    var ranks := RankRows(sorted);
    var info := RankInfo(ranks, MeanOf(ValueCells(ranks)));
    RankFacts(m, k, ascending, sorted, info);
    Ok(info)
  }

  /** `reset_index()` then `rank = index + 1` on the sorted means. */
  function RankRows(sorted: seq<Entry>): (ranks: seq<Ranked>)
    ensures |ranks| == |sorted|
    ensures forall i :: 0 <= i < |sorted| ==> ranks[i] == Ranked(i + 1, sorted[i].code, sorted[i].value)
    ensures Unranked(ranks) == sorted
  {
    var ranks := seq(|sorted|, i requires 0 <= i < |sorted| => Ranked(i + 1, sorted[i].code, sorted[i].value));
    assert Unranked(ranks) == sorted;
    ranks
  }

  /** Numbering a sorted permutation of a metric's means ranks every group once,
      in the metric's direction, and keeps the column's mean. */
  lemma RankFacts(m: MeanTable, k: nat, ascending: bool, sorted: seq<Entry>, info: RankInfo)
    requires ValidMeans(m) && k < |m.metrics|
    requires multiset(sorted) == multiset(Entries(m, k))
    requires SortedBy(EntryValue, ValueOrder(ascending), sorted)
    requires info == RankInfo(RankRows(sorted), MeanOf(ValueCells(RankRows(sorted))))
    ensures |info.ranks| == |m.groups| && ValidRanks(info) && RankedBy(info, ascending)
    ensures multiset(Unranked(info.ranks)) == multiset(Entries(m, k))
    ensures forall c :: c in RankCodes(info) <==> c in GroupCodes(m)
    ensures info.mean == MeanOf(MetricColumn(m, k))
  {
    var es := Entries(m, k);
    assert |sorted| == |multiset(es)| == |es|;
    DistinctCodesOfEntries(m, k);
    PermutationKeepsDistinctBy(EntryCode, sorted, es);
    RankCodesFromEntries(info, sorted, es, m, k);
    PermutedSums(sorted, es);
    EntrySumsAreCellSums(sorted);
    EntrySumsAreCellSums(es);
    forall i, j | 0 <= i < j < |info.ranks|
      ensures ValueOrder(ascending)(info.ranks[i].value, info.ranks[j].value)
    {
      assert ValueOrder(ascending)(EntryValue(sorted[i]), EntryValue(sorted[j]));
    }
  }

  lemma RankCodesFromEntries(info: RankInfo, sorted: seq<Entry>, es: seq<Entry>, m: MeanTable, k: nat)
    requires ValidMeans(m) && k < |m.metrics| && es == Entries(m, k)
    requires Unranked(info.ranks) == sorted && multiset(sorted) == multiset(es)
    requires DistinctBy(EntryCode, sorted)
    ensures Distinct(RankCodes(info))
    ensures forall c :: c in RankCodes(info) <==> c in GroupCodes(m)
  {
    var cs := RankCodes(info);
    forall a, b | 0 <= a < b < |cs| ensures cs[a] != cs[b] {
      assert EntryCode(sorted[a]) != EntryCode(sorted[b]);
    }
    forall c ensures c in cs <==> c in GroupCodes(m) {
      if c in cs {
        var i :| 0 <= i < |cs| && cs[i] == c;
        assert sorted[i] in multiset(es);
        var g :| 0 <= g < |es| && es[g] == sorted[i];
        assert GroupCodes(m)[g] == c;
      }
      if c in GroupCodes(m) {
        var g :| 0 <= g < |m.groups| && GroupCodes(m)[g] == c;
        assert es[g] in multiset(sorted);
        var i :| 0 <= i < |sorted| && sorted[i] == es[g];
        assert cs[i] == c;
      }
    }
  }

  /** Rank 1 goes to the best present mean in the metric's direction. */
  lemma RankOneIsBest(info: RankInfo, ascending: bool)
    requires RankedBy(info, ascending)
    ensures forall i :: 0 < i < |info.ranks| && info.ranks[i].value.Some? ==>
      info.ranks[0].value.Some? &&
      (if ascending then info.ranks[0].value.value <= info.ranks[i].value.value
       else info.ranks[0].value.value >= info.ranks[i].value.value)
  {
    forall i | 0 < i < |info.ranks| && info.ranks[i].value.Some?
      ensures info.ranks[0].value.Some?
    {
      assert ValueOrder(ascending)(info.ranks[0].value, info.ranks[i].value);
    }
  }

  // ---------------------------------------------------------------------------
  // The four quality-of-care metrics   (results.py:21-30)
  // ---------------------------------------------------------------------------

  datatype Metric = Metric(title: string, ascending: bool)

  /** Shorter stays and fewer avoidable deaths are better (ascending); more
      medical technology and longer lives are better (descending). */
  const QualityMetrics: seq<Metric> := [
    Metric("hospital_stay_length", true),
    Metric("med_tech_availability_p_mil_ppl", false),
    Metric("life_expectancy", false),
    Metric("avoidable_deaths", true)]

  function RankTitle(title: string): string {
    "rank_" + title
  }

  /** The columns of the merged rank table, `rank_<metric>`. */
  const RankTitles: seq<string> := [
    RankTitle(QualityMetrics[0].title), RankTitle(QualityMetrics[1].title),
    RankTitle(QualityMetrics[2].title), RankTitle(QualityMetrics[3].title)]

  /** What `rank_column` promises of one metric's rank table over the means `m`. */
  ghost predicate RanksAllGroups(info: RankInfo, m: MeanTable, ascending: bool) {
    && ValidRanks(info)
    && |info.ranks| == |m.groups|
    && RankedBy(info, ascending)
    && (forall c :: c in RankCodes(info) <==> c in GroupCodes(m))
  }

  /** `rank_column` for each metric in turn; the first failure stops the rest. */
  function RankAll(m: MeanTable, metrics: seq<Metric>): (r: Result<seq<RankInfo>>)
    requires ValidMeans(m)
    ensures r.Ok? <==> forall q :: 0 <= q < |metrics| ==> UniqueLabel(m.metrics, metrics[q].title)
    ensures r.Ok? ==> |r.value| == |metrics|
    ensures r.Ok? ==> forall q :: 0 <= q < |metrics| ==> RanksAllGroups(r.value[q], m, metrics[q].ascending)
    decreases |metrics|
  {
    if |metrics| == 0 then Ok([])
    else
      MetricsPresentSplit(m.metrics, metrics);
      var first :- RankColumn(m, metrics[0].title, metrics[0].ascending);
      var rest :- RankAll(m, metrics[1..]);
      ConsRanked(m, metrics, first, rest);
      Ok([first] + rest)
  }

  /** Every metric of a non-empty list is present exactly when the first is and
      every metric of the rest is. */
  lemma MetricsPresentSplit(names: seq<string>, metrics: seq<Metric>)
    requires |metrics| > 0
    ensures (forall q :: 0 <= q < |metrics| ==> UniqueLabel(names, metrics[q].title)) <==>
      UniqueLabel(names, metrics[0].title) && forall q :: 0 <= q < |metrics[1..]| ==> UniqueLabel(names, metrics[1..][q].title)
  {
    assert forall q :: 0 <= q < |metrics[1..]| ==> metrics[1..][q] == metrics[q + 1];
    if UniqueLabel(names, metrics[0].title) && forall q :: 0 <= q < |metrics[1..]| ==> UniqueLabel(names, metrics[1..][q].title) {
      forall q | 0 < q < |metrics| ensures UniqueLabel(names, metrics[q].title) {
        assert metrics[q] == metrics[1..][q - 1];
      }
    }
  }

  /** The rank table of the first metric in front of those of the others. */
  lemma ConsRanked(m: MeanTable, metrics: seq<Metric>, first: RankInfo, rest: seq<RankInfo>)
    requires |metrics| > 0 && |rest| == |metrics| - 1
    requires RanksAllGroups(first, m, metrics[0].ascending)
    requires forall q :: 0 <= q < |rest| ==> RanksAllGroups(rest[q], m, metrics[1..][q].ascending)
    ensures forall q :: 0 <= q < |metrics| ==> RanksAllGroups(([first] + rest)[q], m, metrics[q].ascending)
  {
    forall q | 0 <= q < |metrics|
      ensures RanksAllGroups(([first] + rest)[q], m, metrics[q].ascending)
    {
      if q > 0 {
        assert ([first] + rest)[q] == rest[q - 1] && metrics[q] == metrics[1..][q - 1];
      }
    }
  }

  /** The rank information of the four quality metrics (`quality_of_care_info`). */
  function QualityOfCare(m: MeanTable): (r: Result<seq<RankInfo>>)
    requires ValidMeans(m)
    ensures r.Ok? <==> forall q :: 0 <= q < |QualityMetrics| ==> UniqueLabel(m.metrics, QualityMetrics[q].title)
    ensures r.Ok? ==> |r.value| == |QualityMetrics|
    ensures r.Ok? ==> forall q :: 0 <= q < |QualityMetrics| ==>
      RanksAllGroups(r.value[q], m, QualityMetrics[q].ascending)
  {
    RankAll(m, QualityMetrics)
  }

  // ---------------------------------------------------------------------------
  // weight_by_sd_as_perc_mean   (results.py:52-63)
  // ---------------------------------------------------------------------------

  /** A metric's title with the mean and the sample standard deviation of its
      rank table's value column (`StatsOf` builds them from the rank tables; the
      standard deviation is supplied, not computed). */
  datatype MetricStats = MetricStats(title: string, mean: real, sd: real)

  /** One entry of a multiplier dict: a rank column and its multiplier. */
  datatype Weight = Weight(title: string, weight: real)

  function Sum(xs: seq<real>): real {
    if |xs| == 0 then 0.0 else xs[0] + Sum(xs[1..])
  }

  function SumWeights(ws: seq<Weight>): real {
    if |ws| == 0 then 0.0 else ws[0].weight + SumWeights(ws[1..])
  }

  function StatTitles(stats: seq<MetricStats>): (ts: seq<string>)
    ensures |ts| == |stats|
    ensures forall i :: 0 <= i < |stats| ==> ts[i] == stats[i].title
  {
    seq(|stats|, i requires 0 <= i < |stats| => stats[i].title)
  }

  predicate NonzeroMeans(stats: seq<MetricStats>) {
    forall i :: 0 <= i < |stats| ==> stats[i].mean != 0.0
  }

  /** The standard deviation as a percentage of the mean. */
  function SdPercent(s: MetricStats): real
    requires s.mean != 0.0
  {
    100.0 * s.sd / s.mean
  }

  /** Each metric's `SdPercent`, in order. */
  function RawWeights(stats: seq<MetricStats>): (ws: seq<real>)
    requires NonzeroMeans(stats)
    ensures |ws| == |stats|
    ensures forall i :: 0 <= i < |stats| ==> ws[i] == SdPercent(stats[i])
  {
    if |stats| == 0 then []
    else [SdPercent(stats[0])] + RawWeights(stats[1..])
  }

  function Normalized(stats: seq<MetricStats>, raw: seq<real>, total: real): (ws: seq<Weight>)
    requires |raw| == |stats| && total != 0.0
    ensures |ws| == |stats|
    ensures forall i :: 0 <= i < |stats| ==> ws[i] == Weight(RankTitle(stats[i].title), raw[i] / total)
  {
    if |stats| == 0 then []
    else [Weight(RankTitle(stats[0].title), raw[0] / total)] + Normalized(stats[1..], raw[1..], total)
  }

  lemma DivSelf(t: real)
    requires t != 0.0
    ensures t / t == 1.0
  {
  }

  lemma DivAdd(a: real, b: real, c: real)
    requires c != 0.0
    ensures a / c + b / c == (a + b) / c
  {
  }

  lemma {:induction false} NormalizedSum(stats: seq<MetricStats>, raw: seq<real>, total: real)
    requires |raw| == |stats| && total != 0.0
    ensures SumWeights(Normalized(stats, raw, total)) == Sum(raw) / total
  {
    if |stats| > 0 {
      NormalizedSum(stats[1..], raw[1..], total);
      var ws := Normalized(stats, raw, total);
      assert ws[1..] == Normalized(stats[1..], raw[1..], total);
      DivAdd(raw[0], Sum(raw[1..]), total);
    }
  }

  /** The normalised multipliers: each metric's sd-as-percent-of-mean over their
      total. A zero mean or a zero total would make the float result infinite or
      NaN, and is reported instead. */
  function WeightBySdAsPercMean(stats: seq<MetricStats>): (r: Result<seq<Weight>>)
    requires Distinct(StatTitles(stats))
    ensures r.Ok? <==> NonzeroMeans(stats) && Sum(RawWeights(stats)) != 0.0
    ensures r.Err? ==> r.failure.NotFinite?
    ensures r.Ok? ==> |r.value| == |stats| && forall i :: 0 <= i < |stats| ==>
      r.value[i] == Weight(RankTitle(stats[i].title), SdPercent(stats[i]) / Sum(RawWeights(stats)))
    ensures r.Ok? ==> SumWeights(r.value) == 1.0
  {
    if !NonzeroMeans(stats) then Err(NotFinite("mean"))
    else
      var raw := RawWeights(stats);
      var total := Sum(raw);
      if total == 0.0 then Err(NotFinite("total"))
      else
        var ws := Normalized(stats, raw, total);
        NormalizedSum(stats, raw, total);
        DivSelf(total);
        Ok(ws)
  }

  lemma {:induction false} PositiveTermBelowSum(xs: seq<real>, i: nat)
    requires i < |xs| && forall j :: 0 <= j < |xs| ==> xs[j] > 0.0
    ensures 0.0 < xs[i] <= Sum(xs)
  {
    if i > 0 {
      PositiveTermBelowSum(xs[1..], i - 1);
    } else if |xs| > 1 {
      PositiveTermBelowSum(xs[1..], 0);
    }
  }

  lemma DivWithinUnit(a: real, t: real)
    requires 0.0 < a <= t
    ensures 0.0 < a / t <= 1.0
  {
  }

  lemma DivMonotone(a: real, b: real, t: real)
    requires a <= b && t > 0.0
    ensures a / t <= b / t
  {
  }

  lemma ScaledRatio(sd: real, mean: real)
    requires mean != 0.0
    ensures 100.0 * sd / mean == 100.0 * (sd / mean)
  {
  }

  /** With positive means and deviations, every multiplier lies in (0, 1], and a
      more variable metric never gets a smaller multiplier than a less variable one. */
  lemma WeightsOrderedByVariability(stats: seq<MetricStats>)
    requires Distinct(StatTitles(stats))
    requires forall i :: 0 <= i < |stats| ==> stats[i].mean > 0.0 && stats[i].sd > 0.0
    ensures WeightBySdAsPercMean(stats).Ok? || |stats| == 0
    ensures WeightBySdAsPercMean(stats).Ok? ==> var ws := WeightBySdAsPercMean(stats).value;
      && (forall i :: 0 <= i < |ws| ==> 0.0 < ws[i].weight <= 1.0)
      && (forall i, j :: 0 <= i < |ws| && 0 <= j < |ws| && stats[i].sd / stats[i].mean <= stats[j].sd / stats[j].mean
            ==> ws[i].weight <= ws[j].weight)
  {
    if |stats| > 0 {
      var raw := RawWeights(stats);
      PositiveRaw(stats);
      PositiveTermBelowSum(raw, 0);
      var total := Sum(raw);
      var ws := WeightBySdAsPercMean(stats).value;
      forall i | 0 <= i < |ws| ensures 0.0 < ws[i].weight <= 1.0 {
        PositiveTermBelowSum(raw, i);
        DivWithinUnit(raw[i], total);
      }
      forall i, j | 0 <= i < |ws| && 0 <= j < |ws| && stats[i].sd / stats[i].mean <= stats[j].sd / stats[j].mean
        ensures ws[i].weight <= ws[j].weight
      {
        RatioOrder(stats[i], stats[j], total);
      }
    }
  }

  lemma PositiveRaw(stats: seq<MetricStats>)
    requires forall i :: 0 <= i < |stats| ==> stats[i].mean > 0.0 && stats[i].sd > 0.0
    ensures NonzeroMeans(stats)
    ensures forall i :: 0 <= i < |stats| ==> RawWeights(stats)[i] > 0.0
  {
    forall i | 0 <= i < |stats| ensures RawWeights(stats)[i] > 0.0 {
      ScaledRatio(stats[i].sd, stats[i].mean);
      assert stats[i].sd / stats[i].mean > 0.0;
    }
  }

  /** The metric that varies more relative to its mean gets the larger share. */
  lemma RatioOrder(a: MetricStats, b: MetricStats, total: real)
    requires a.mean > 0.0 && b.mean > 0.0 && total > 0.0
    requires a.sd / a.mean <= b.sd / b.mean
    ensures SdPercent(a) / total <= SdPercent(b) / total
  {
    ScaledRatio(a.sd, a.mean);
    ScaledRatio(b.sd, b.mean);
    DivMonotone(SdPercent(a), SdPercent(b), total);
  }

  /** The statistics `weight_by_sd_as_perc_mean` reads from `quality_of_care_info`
      (results.py:15-16, 21-30): each quality metric's title, the mean of its rank
      table's value column, and its standard deviation `sds[q]`. A column without
      numbers has a NaN mean, which would make every weight NaN; it is reported. */
  function StatsOf(infos: seq<RankInfo>, sds: seq<real>): (r: Result<seq<MetricStats>>)
    requires |infos| == |QualityMetrics| && |sds| == |QualityMetrics|
    ensures r.Ok? <==> forall q :: 0 <= q < |infos| ==> infos[q].mean.Some?
    ensures r.Err? ==> r.failure == NotFinite("mean")
    ensures r.Ok? ==> |r.value| == |QualityMetrics| && forall q :: 0 <= q < |QualityMetrics| ==>
      r.value[q] == MetricStats(QualityMetrics[q].title, infos[q].mean.value, sds[q])
    ensures r.Ok? ==> Distinct(StatTitles(r.value))
  {
    if exists q :: 0 <= q < |infos| && infos[q].mean.None? then Err(NotFinite("mean"))
    else
      var stats := seq(|QualityMetrics|, q requires 0 <= q < |QualityMetrics| =>
        MetricStats(QualityMetrics[q].title, infos[q].mean.value, sds[q]));
      QualityTitlesDistinct(stats);
      Ok(stats)
  }

  /** The four quality metrics have distinct titles, so their statistics do too. */
  lemma QualityTitlesDistinct(stats: seq<MetricStats>)
    requires |stats| == |QualityMetrics|
    requires forall q :: 0 <= q < |QualityMetrics| ==> stats[q].title == QualityMetrics[q].title
    ensures Distinct(StatTitles(stats))
  {
    var ts := StatTitles(stats);
    assert ts[0][0] == 'h' && ts[1][0] == 'm' && ts[2][0] == 'l' && ts[3][0] == 'a';
  }

  /** `weighted_multipliers` (results.py:71): the variability weights of the four
      rank tables, keyed by exactly their four rank columns, in order. */
  function WeightedMultipliers(infos: seq<RankInfo>, sds: seq<real>): (r: Result<seq<Weight>>)
    requires |infos| == |QualityMetrics| && |sds| == |QualityMetrics|
    ensures r.Ok? <==> StatsOf(infos, sds).Ok? && WeightBySdAsPercMean(StatsOf(infos, sds).value).Ok?
    ensures r.Err? ==> r.failure.NotFinite?
    ensures r.Ok? ==> |r.value| == |RankTitles| && forall q :: 0 <= q < |RankTitles| ==> r.value[q].title == RankTitles[q]
    ensures r.Ok? ==> forall w :: w in r.value ==> w.title in RankTitles
    ensures r.Ok? ==> SumWeights(r.value) == 1.0
  {
    var stats := StatsOf(infos, sds);
    if stats.Err? then Err(stats.failure)
    else
      var ws := WeightBySdAsPercMean(stats.value);
      if ws.Err? then ws
      else
        MultiplierTitles(stats.value, ws.value);
        ws
  }

  /** Each variability weight is the metric's standard deviation as a percentage
      of its mean, over the total of those percentages. */
  lemma WeightedMultiplierShares(infos: seq<RankInfo>, sds: seq<real>)
    requires |infos| == |QualityMetrics| && |sds| == |QualityMetrics|
    requires WeightedMultipliers(infos, sds).Ok?
    ensures var ws, stats := WeightedMultipliers(infos, sds).value, StatsOf(infos, sds).value;
      forall q :: 0 <= q < |RankTitles| ==>
        && infos[q].mean.Some? && infos[q].mean.value != 0.0
        && ws[q].weight == (100.0 * sds[q] / infos[q].mean.value) / Sum(RawWeights(stats))
  {
    var stats := StatsOf(infos, sds).value;
    MultiplierWeights(infos, sds, stats, WeightedMultipliers(infos, sds).value, Sum(RawWeights(stats)));
  }

  /** The normalised multipliers name the rank columns in `RankTitles` order. */
  lemma MultiplierTitles(stats: seq<MetricStats>, ws: seq<Weight>)
    requires |stats| == |QualityMetrics| && forall q :: 0 <= q < |QualityMetrics| ==> stats[q].title == QualityMetrics[q].title
    requires |ws| == |stats| && forall i :: 0 <= i < |stats| ==> ws[i].title == RankTitle(stats[i].title)
    ensures |ws| == |RankTitles| && forall q :: 0 <= q < |RankTitles| ==> ws[q].title == RankTitles[q]
    ensures forall w :: w in ws ==> w.title in RankTitles
  {
    forall w | w in ws ensures w.title in RankTitles {
      var q :| 0 <= q < |ws| && ws[q] == w;
      assert w.title == RankTitles[q];
    }
  }

  /** Each normalised multiplier, in terms of the metric's standard deviation and mean. */
  lemma MultiplierWeights(infos: seq<RankInfo>, sds: seq<real>, stats: seq<MetricStats>, ws: seq<Weight>, total: real)
    requires |infos| == |stats| && |sds| == |stats| && |ws| == |stats| && total != 0.0
    requires forall q :: 0 <= q < |stats| ==> infos[q].mean.Some? && infos[q].mean.value != 0.0
    requires forall q :: 0 <= q < |stats| ==> stats[q].mean == infos[q].mean.value && stats[q].sd == sds[q]
    requires forall i :: 0 <= i < |stats| ==> ws[i].weight == SdPercent(stats[i]) / total
    ensures forall q :: 0 <= q < |stats| ==> ws[q].weight == (100.0 * sds[q] / infos[q].mean.value) / total
  {
  }

  /** `unweighted_multipliers` (results.py:69-70): a quarter for each rank column. */
  function UnweightedMultipliers(): (r: seq<Weight>)
    ensures |r| == |RankTitles|
    ensures forall i :: 0 <= i < |r| ==> r[i].title == RankTitles[i] && r[i].weight == 0.25
    ensures SumWeights(r) == 1.0
  {
    var r := seq(|RankTitles|, i requires 0 <= i < |RankTitles| => Weight(RankTitles[i], 0.25));
    assert SumWeights(r[3..]) == 0.25;
    assert SumWeights(r[2..]) == 0.5;
    assert SumWeights(r[1..]) == 0.75;
    r
  }

  // ---------------------------------------------------------------------------
  // weight_averages   (results.py:34-49)
  // ---------------------------------------------------------------------------

  /** A country present in all four rank tables, its four ranks in
      `QualityMetrics` order, and `rank_weighted_avg`. */
  datatype Joined = Joined(code: Cell, ranks: seq<nat>, weighted: real)

  /** The rank of `c` in a rank table, 0 if it has none. */
  function RankOf(info: RankInfo, c: Cell): nat {
    var i := Find(RankCodes(info), c);
    if i < |info.ranks| then info.ranks[i].rank else 0
  }

  predicate InAllTables(infos: seq<RankInfo>, c: Cell) {
    forall q :: 0 <= q < |infos| ==> c in RankCodes(infos[q])
  }

  /** The country's rank in each of the four tables, in `RankTitles` order: the
      rank columns of its merged row. */
  function RanksOf(infos: seq<RankInfo>, c: Cell): (ranks: seq<nat>)
    requires |infos| == |RankTitles|
    ensures |ranks| == |RankTitles|
    ensures forall q :: 0 <= q < |RankTitles| ==> ranks[q] == RankOf(infos[q], c)
  {
    seq(|RankTitles|, q requires 0 <= q < |RankTitles| => RankOf(infos[q], c))
  }

  /** What one rank column adds to the weighted average: the rank times its multiplier. */
  function Contribution(w: real, rank: nat): real {
    (rank as real) * w
  }

  /** Reference definition, for a dict that names only rank columns: the sum over
      the dict of multiplier times the country's rank in the table the multiplier
      names. `RunningSum` below is the loop the source runs; the two agree on such
      dicts (`RunningSumMatches`), and the loop alone also accepts the key of its
      own running-sum column. */
  function WeightedRankSum(mults: seq<Weight>, infos: seq<RankInfo>, c: Cell): real
    requires |infos| == |RankTitles|
    requires forall w :: w in mults ==> w.title in RankTitles
  {
    if |mults| == 0 then 0.0
    else
      var rank := RankOf(infos[Find(RankTitles, mults[0].title)], c);
      Contribution(mults[0].weight, rank) + WeightedRankSum(mults[1..], infos, c)
  }

  /** The running-sum column the loop of results.py:44-47 writes. */
  const WeightedAvgTitle: string := "rank_weighted_avg"

  /** The numeric columns of the merged rank table, which a multiplier key can
      name: the four rank columns and the running sum itself. */
  predicate MergedNumeric(title: string) {
    title in RankTitles || title == WeightedAvgTitle
  }

  /** The loop of results.py:44-47 on one merged row, from the running sum `s`:
      each multiplier scales the column its key names and adds it to the running
      sum. The key `rank_weighted_avg` names the running sum itself. */
  function RunningSum(s: real, mults: seq<Weight>, ranks: seq<nat>): real
    requires |ranks| == |RankTitles|
    requires forall w :: w in mults ==> MergedNumeric(w.title)
    decreases |mults|
  {
    if |mults| == 0 then s
    else RunningSum(Turn(s, mults[0], ranks), mults[1..], ranks)
  }

  /** One turn of the loop: the running sum plus the multiplier times the column
      it names, which is the running sum itself for `rank_weighted_avg`. */
  function Turn(s: real, m: Weight, ranks: seq<nat>): real
    requires |ranks| == |RankTitles| && MergedNumeric(m.title)
  {
    if m.title in RankTitles then s + Contribution(m.weight, ranks[Find(RankTitles, m.title)])
    else s + s * m.weight
  }

  /** On a dict that names only rank columns, the loop adds the reference sum to
      its starting value. */
  lemma {:induction false} RunningSumMatches(s: real, mults: seq<Weight>, infos: seq<RankInfo>, c: Cell)
    requires |infos| == |RankTitles|
    requires forall w :: w in mults ==> w.title in RankTitles
    ensures RunningSum(s, mults, RanksOf(infos, c)) == s + WeightedRankSum(mults, infos, c)
    decreases |mults|
  {
    if |mults| > 0 {
      var ranks := RanksOf(infos, c);
      var h, t := mults[0], mults[1..];
      var s' := Turn(s, h, ranks);
      assert mults == [h] + t;
      RunningSumStep(s, h, t, ranks);
      TurnOnRank(s, h, infos, c);
      RankSumCons(mults, infos, c);
      RunningSumMatches(s', t, infos, c);
    }
  }

  /** A turn of the loop on a rank column adds multiplier times rank. */
  lemma TurnOnRank(s: real, h: Weight, infos: seq<RankInfo>, c: Cell)
    requires |infos| == |RankTitles| && h.title in RankTitles
    ensures Turn(s, h, RanksOf(infos, c)) == s + Contribution(h.weight, RankOf(infos[Find(RankTitles, h.title)], c))
  {
  }

  lemma {:induction false} RankSumCons(mults: seq<Weight>, infos: seq<RankInfo>, c: Cell)
    requires |infos| == |RankTitles| && |mults| > 0
    requires forall w :: w in mults ==> w.title in RankTitles
    ensures WeightedRankSum(mults, infos, c)
      == Contribution(mults[0].weight, RankOf(infos[Find(RankTitles, mults[0].title)], c))
         + WeightedRankSum(mults[1..], infos, c)
  {
  }

  /** One turn of the loop, on the dict entry `h` followed by the entries `t`. */
  lemma RunningSumStep(s: real, h: Weight, t: seq<Weight>, ranks: seq<nat>)
    requires |ranks| == |RankTitles| && MergedNumeric(h.title)
    requires forall w :: w in t ==> MergedNumeric(w.title)
    ensures forall w :: w in [h] + t ==> MergedNumeric(w.title)
    ensures RunningSum(s, [h] + t, ranks) == RunningSum(Turn(s, h, ranks), t, ranks)
  {
    assert ([h] + t)[0] == h && ([h] + t)[1..] == t;
  }

  /** A `rank_weighted_avg` key last in the dict multiplies the finished running
      sum by one plus its multiplier. */
  lemma {:induction false} SelfKeyScales(s: real, mults: seq<Weight>, w: real, ranks: seq<nat>)
    requires |ranks| == |RankTitles|
    requires forall x :: x in mults ==> MergedNumeric(x.title)
    ensures forall x :: x in mults + [Weight(WeightedAvgTitle, w)] ==> MergedNumeric(x.title)
    ensures RunningSum(s, mults + [Weight(WeightedAvgTitle, w)], ranks) == (1.0 + w) * RunningSum(s, mults, ranks)
    decreases |mults|
  {
    var self := Weight(WeightedAvgTitle, w);
    assert forall x :: x in mults + [self] ==> x in mults || x == self;
    if |mults| == 0 {
      assert mults + [self] == [self];
      RunningSumStep(s, self, [], ranks);
      assert [self] + [] == [self];
      assert Turn(s, self, ranks) == s + s * w == (1.0 + w) * s;
    } else {
      var h, t := mults[0], mults[1..];
      var s' := Turn(s, h, ranks);
      assert mults == [h] + t && mults + [self] == [h] + (t + [self]);
      RunningSumStep(s, h, t, ranks);
      RunningSumStep(s, h, t + [self], ranks);
      SelfKeyScales(s', t, w, ranks);
    }
  }

  /** Whether the loop of results.py:44-47 can take the key `title`: any numeric
      column of the merged rank table; the code column only when the merged table
      has no rows (`empty`), since an empty column multiplies without error while a
      column of country codes cannot be multiplied by a number. */
  predicate Multipliable(title: string, empty: bool) {
    MergedNumeric(title) || (empty && title == "code")
  }

  /** The first multiplier key the loop cannot take, in dict order. */
  function FirstUnknownTitle(mults: seq<Weight>, empty: bool): (r: Option<string>)
    ensures r.None? <==> forall w :: w in mults ==> Multipliable(w.title, empty)
    ensures r.Some? ==> r.value in WeightTitles(mults) && !Multipliable(r.value, empty)
  {
    if |mults| == 0 then None
    else if !Multipliable(mults[0].title, empty) then Some(mults[0].title)
    else
      var r := FirstUnknownTitle(mults[1..], empty);
      assert r.Some? ==> r.value in WeightTitles(mults) by {
        assert forall i :: 0 <= i < |mults| - 1 ==> WeightTitles(mults[1..])[i] == WeightTitles(mults)[i + 1];
      }
      r
  }

  function WeightTitles(mults: seq<Weight>): (ts: seq<string>)
    ensures |ts| == |mults|
    ensures forall i :: 0 <= i < |mults| ==> ts[i] == mults[i].title
  {
    seq(|mults|, i requires 0 <= i < |mults| => mults[i].title)
  }

  function JoinMask(infos: seq<RankInfo>): (mask: seq<bool>)
    requires |infos| == |RankTitles|
    ensures |mask| == |infos[0].ranks|
    ensures forall i :: 0 <= i < |mask| ==> (mask[i] <==> InAllTables(infos, infos[0].ranks[i].code))
  {
    seq(|infos[0].ranks|, i requires 0 <= i < |infos[0].ranks| => InAllTables(infos, infos[0].ranks[i].code))
  }

  /** The inner joins on code leave no rows: no country of the first rank table
      is in all four. */
  predicate NoSharedCode(infos: seq<RankInfo>)
    requires |infos| == |RankTitles|
  {
    true !in JoinMask(infos)
  }

  /** The joins leave no rows exactly when no country is in all four rank tables. */
  lemma NoSharedCodeMeans(infos: seq<RankInfo>)
    requires |infos| == |RankTitles|
    ensures NoSharedCode(infos) <==> forall c :: !InAllTables(infos, c)
  {
    forall c | InAllTables(infos, c) ensures !NoSharedCode(infos) {
      assert c in RankCodes(infos[0]);
      var i :| 0 <= i < |infos[0].ranks| && RankCodes(infos[0])[i] == c;
      assert JoinMask(infos)[i];
    }
    if !NoSharedCode(infos) {
      var i :| 0 <= i < |JoinMask(infos)| && JoinMask(infos)[i];
      assert InAllTables(infos, infos[0].ranks[i].code);
    }
  }

  function JoinedCodes(js: seq<Joined>): (cs: seq<Cell>)
    ensures |cs| == |js|
    ensures forall i :: 0 <= i < |js| ==> cs[i] == js[i].code
  {
    seq(|js|, i requires 0 <= i < |js| => js[i].code)
  }

  function JoinedCode(j: Joined): Cell {
    j.code
  }

  function JoinRow(infos: seq<RankInfo>, mults: seq<Weight>, c: Cell): Joined
    requires |infos| == |RankTitles|
    requires forall w :: w in mults ==> MergedNumeric(w.title)
  {
    var ranks := RanksOf(infos, c);
    Joined(c, ranks, RunningSum(0.0, mults, ranks))
  }

  /** `weight_averages(multipliers)`: the inner joins on code keep exactly the
      countries present in all four rank tables, once each; `rank_weighted_avg`
      is the running sum of the loop over the multiplier dict, which on a dict of
      rank columns is the multiplier-weighted sum of their ranks. A key the loop
      cannot take fails: the code column of a non-empty merged table cannot be
      multiplied, any other key is absent. */
  function WeightAverages(infos: seq<RankInfo>, mults: seq<Weight>): (r: Result<seq<Joined>>)
    requires |infos| == |RankTitles| && forall q :: 0 <= q < |infos| ==> ValidRanks(infos[q])
    ensures r.Ok? <==> forall w :: w in mults ==> Multipliable(w.title, NoSharedCode(infos))
    ensures r.Err? ==> || (r.failure == TypeMismatch("code") && !NoSharedCode(infos))
                       || (r.failure.KeyError? && !Multipliable(r.failure.column, true))
    ensures r.Ok? && NoSharedCode(infos) ==> r.value == []
    ensures r.Ok? && (forall w :: w in mults ==> MergedNumeric(w.title)) ==> MergedRows(infos, mults, r.value)
    ensures r.Ok? && (forall w :: w in mults ==> w.title in RankTitles) ==> forall j :: 0 <= j < |r.value| ==>
      r.value[j].weighted == WeightedRankSum(mults, infos, r.value[j].code)
  {
    match FirstUnknownTitle(mults, NoSharedCode(infos))
    case Some(title) => if title == "code" then Err(TypeMismatch("code")) else Err(KeyError(title))
    case None =>
      if NoSharedCode(infos) then
        // the loop runs over empty columns and leaves the merged table empty
        NoSharedCodeMeans(infos);
        Ok([])
      else
        var js := JoinRows(infos, mults);
        JoinFacts(infos, mults, js);
        Ok(js)
  }

  /** The merged table: each code present in all four rank tables exactly once,
      each row carrying that code's four ranks and the loop's running sum. */
  ghost predicate MergedRows(infos: seq<RankInfo>, mults: seq<Weight>, js: seq<Joined>)
    requires |infos| == |RankTitles| && forall w :: w in mults ==> MergedNumeric(w.title)
  {
    && (forall c :: c in JoinedCodes(js) <==> InAllTables(infos, c))
    && Distinct(JoinedCodes(js))
    && forall j :: 0 <= j < |js| ==>
      && |js[j].ranks| == |RankTitles|
      && (forall q :: 0 <= q < |RankTitles| ==> js[j].ranks[q] == RankOf(infos[q], js[j].code))
      && js[j].weighted == RunningSum(0.0, mults, js[j].ranks)
  }

  /** One merged row per country of the first table that is in all four. */
  function JoinRows(infos: seq<RankInfo>, mults: seq<Weight>): (js: seq<Joined>)
    requires |infos| == |RankTitles|
    requires forall w :: w in mults ==> MergedNumeric(w.title)
    ensures var ks := Kept(JoinMask(infos));
      |js| == |ks| && forall k :: 0 <= k < |ks| ==> js[k] == JoinRow(infos, mults, infos[0].ranks[ks[k]].code)
  {
    var ks := Kept(JoinMask(infos));
    seq(|ks|, k requires 0 <= k < |ks| => JoinRow(infos, mults, infos[0].ranks[ks[k]].code))
  }

  lemma JoinCodesExact(infos: seq<RankInfo>, js: seq<Joined>)
    requires |infos| == |RankTitles|
    requires var ks := Kept(JoinMask(infos));
      |js| == |ks| && forall k :: 0 <= k < |ks| ==> js[k].code == infos[0].ranks[ks[k]].code
    ensures forall c :: c in JoinedCodes(js) <==> InAllTables(infos, c)
  {
    var ks := Kept(JoinMask(infos));
    var cs := JoinedCodes(js);
    var first := RankCodes(infos[0]);
    forall c | InAllTables(infos, c) ensures c in cs {
      assert c in first;
      var i :| 0 <= i < |first| && first[i] == c;
      assert JoinMask(infos)[i];
      var k :| 0 <= k < |ks| && ks[k] == i;
      assert cs[k] == c;
    }
    forall c | c in cs ensures InAllTables(infos, c) {
      var k :| 0 <= k < |cs| && cs[k] == c;
      assert JoinMask(infos)[ks[k]];
    }
  }

  lemma JoinCodesDistinct(infos: seq<RankInfo>, js: seq<Joined>)
    requires |infos| == |RankTitles| && ValidRanks(infos[0])
    requires var ks := Kept(JoinMask(infos));
      |js| == |ks| && forall k :: 0 <= k < |ks| ==> js[k].code == infos[0].ranks[ks[k]].code
    ensures Distinct(JoinedCodes(js))
  {
    var ks := Kept(JoinMask(infos));
    var cs := JoinedCodes(js);
    forall a, b | 0 <= a < b < |cs| ensures cs[a] != cs[b] {
      assert RankCodes(infos[0])[ks[a]] != RankCodes(infos[0])[ks[b]];
    }
  }

  lemma JoinFacts(infos: seq<RankInfo>, mults: seq<Weight>, js: seq<Joined>)
    requires |infos| == |RankTitles| && forall q :: 0 <= q < |infos| ==> ValidRanks(infos[q])
    requires forall w :: w in mults ==> MergedNumeric(w.title)
    requires var ks := Kept(JoinMask(infos));
      |js| == |ks| && forall k :: 0 <= k < |ks| ==> js[k] == JoinRow(infos, mults, infos[0].ranks[ks[k]].code)
    ensures forall c :: c in JoinedCodes(js) <==> InAllTables(infos, c)
    ensures Distinct(JoinedCodes(js))
    ensures forall j :: 0 <= j < |js| ==>
      && |js[j].ranks| == |RankTitles|
      && (forall q :: 0 <= q < |RankTitles| ==> js[j].ranks[q] == RankOf(infos[q], js[j].code))
      && js[j].weighted == RunningSum(0.0, mults, js[j].ranks)
    ensures (forall w :: w in mults ==> w.title in RankTitles) ==> forall j :: 0 <= j < |js| ==>
      js[j].weighted == WeightedRankSum(mults, infos, js[j].code)
  {
    JoinCodesExact(infos, js);
    JoinCodesDistinct(infos, js);
    if forall w :: w in mults ==> w.title in RankTitles {
      forall j | 0 <= j < |js|
        ensures js[j].weighted == WeightedRankSum(mults, infos, js[j].code)
      {
        RunningSumMatches(0.0, mults, infos, js[j].code);
      }
    }
  }

  // ---------------------------------------------------------------------------
  // calculate_results   (results.py:74-83)
  // ---------------------------------------------------------------------------

  /** A row of the results: final rank, code, `rank_weighted_avg`. */
  datatype FinalRow = FinalRow(rank: nat, code: Cell, score: real)

  function JoinedWeight(j: Joined): real {
    j.weighted
  }

  function FinalCodes(rs: seq<FinalRow>): (cs: seq<Cell>)
    ensures |cs| == |rs|
    ensures forall i :: 0 <= i < |rs| ==> cs[i] == rs[i].code
  {
    seq(|rs|, i requires 0 <= i < |rs| => rs[i].code)
  }

  /** A results table over the rank tables `infos`: final ranks 1..n in order
      along non-decreasing scores, and exactly the codes present in all four
      rank tables, each once. */
  ghost predicate RankedResults(infos: seq<RankInfo>, rows: seq<FinalRow>) {
    && (forall i :: 0 <= i < |rows| ==> rows[i].rank == i + 1)
    && (forall i, j :: 0 <= i < j < |rows| ==> rows[i].score <= rows[j].score)
    && (forall c :: c in FinalCodes(rows) <==> InAllTables(infos, c))
    && Distinct(FinalCodes(rows))
  }

  /** `calculate_results(multipliers)` for any multiplier dict: the countries of
      all four rank tables, ranked 1..n by ascending `rank_weighted_avg`. */
  function CalculateResults(infos: seq<RankInfo>, mults: seq<Weight>): (r: Result<seq<FinalRow>>)
    requires |infos| == |RankTitles| && forall q :: 0 <= q < |infos| ==> ValidRanks(infos[q])
    ensures r.Ok? <==> forall w :: w in mults ==> Multipliable(w.title, NoSharedCode(infos))
    ensures r.Err? ==> || (r.failure == TypeMismatch("code") && !NoSharedCode(infos))
                       || (r.failure.KeyError? && !Multipliable(r.failure.column, true))
    ensures r.Ok? && NoSharedCode(infos) ==> r.value == []
    ensures r.Ok? ==> RankedResults(infos, r.value)
    ensures r.Ok? && (forall w :: w in mults ==> MergedNumeric(w.title)) ==> forall i :: 0 <= i < |r.value| ==>
      r.value[i].score == RunningSum(0.0, mults, RanksOf(infos, r.value[i].code))
  {
    match WeightAverages(infos, mults)
    case Err(e) => Err(e)
    case Ok(joined) =>
      if forall w :: w in mults ==> MergedNumeric(w.title) then
        var rows := RankedRows(infos, mults, joined);
        Ok(rows)
      else
        // only an empty merged table takes the code key; it sorts to empty results
        NoSharedCodeMeans(infos);
        Ok([])
  }

  /** On a dict that names only rank columns, `calculate_results` succeeds and
      every score is the reference weighted rank sum of its country. */
  lemma CalculateResultsReference(infos: seq<RankInfo>, mults: seq<Weight>)
    requires |infos| == |RankTitles| && forall q :: 0 <= q < |infos| ==> ValidRanks(infos[q])
    requires forall w :: w in mults ==> w.title in RankTitles
    ensures var r := CalculateResults(infos, mults);
      r.Ok? && forall i :: 0 <= i < |r.value| ==> r.value[i].score == WeightedRankSum(mults, infos, r.value[i].code)
  {
    ReferenceScores(infos, mults, CalculateResults(infos, mults).value);
  }

  /** The merged rows sorted by ascending `rank_weighted_avg` and numbered 1..n. */
  function RankedRows(infos: seq<RankInfo>, mults: seq<Weight>, joined: seq<Joined>): (rows: seq<FinalRow>)
    requires |infos| == |RankTitles| && forall w :: w in mults ==> MergedNumeric(w.title)
    requires MergedRows(infos, mults, joined)
    ensures RankedResults(infos, rows)
    ensures forall i :: 0 <= i < |rows| ==> rows[i].score == RunningSum(0.0, mults, RanksOf(infos, rows[i].code))
  {
    forall j | 0 <= j < |joined| ensures joined[j].weighted == RunningSum(0.0, mults, RanksOf(infos, joined[j].code)) {
      assert joined[j].ranks == RanksOf(infos, joined[j].code);
    }
    RealLeIsTotalPreorder();
    var sorted := SortBy(JoinedWeight, RealLe, joined);
    var rows := NumberRows(sorted);
    ResultFacts(infos, mults, joined, sorted, rows);
    NumberedInOrder(sorted, rows);
    rows
  }

  /** On a dict of rank columns every score is the reference weighted rank sum. */
  lemma ReferenceScores(infos: seq<RankInfo>, mults: seq<Weight>, rows: seq<FinalRow>)
    requires |infos| == |RankTitles|
    requires forall w :: w in mults ==> MergedNumeric(w.title)
    requires forall i :: 0 <= i < |rows| ==> rows[i].score == RunningSum(0.0, mults, RanksOf(infos, rows[i].code))
    ensures (forall w :: w in mults ==> w.title in RankTitles) ==> forall i :: 0 <= i < |rows| ==>
      rows[i].score == WeightedRankSum(mults, infos, rows[i].code)
  {
    if forall w :: w in mults ==> w.title in RankTitles {
      forall i | 0 <= i < |rows| ensures rows[i].score == WeightedRankSum(mults, infos, rows[i].code) {
        RunningSumMatches(0.0, mults, infos, rows[i].code);
      }
    }
  }

  /** `reset_index(drop=True)` then `rank = index + 1` on the sorted table. */
  function NumberRows(sorted: seq<Joined>): (rows: seq<FinalRow>)
    ensures |rows| == |sorted|
    ensures forall i :: 0 <= i < |sorted| ==> rows[i] == FinalRow(i + 1, sorted[i].code, sorted[i].weighted)
  {
    seq(|sorted|, i requires 0 <= i < |sorted| => FinalRow(i + 1, sorted[i].code, sorted[i].weighted))
  }

  /** Numbering rows sorted by weighted sum gives ranks 1..n with non-decreasing scores. */
  lemma NumberedInOrder(sorted: seq<Joined>, rows: seq<FinalRow>)
    requires SortedBy(JoinedWeight, RealLe, sorted) && rows == NumberRows(sorted)
    ensures forall i :: 0 <= i < |rows| ==> rows[i].rank == i + 1
    ensures forall i, j :: 0 <= i < j < |rows| ==> rows[i].score <= rows[j].score
  {
    forall i, j | 0 <= i < j < |rows| ensures rows[i].score <= rows[j].score {
      assert RealLe(JoinedWeight(sorted[i]), JoinedWeight(sorted[j]));
    }
  }

  lemma ResultFacts(infos: seq<RankInfo>, mults: seq<Weight>, joined: seq<Joined>, sorted: seq<Joined>, rows: seq<FinalRow>)
    requires |infos| == |RankTitles|
    requires forall w :: w in mults ==> MergedNumeric(w.title)
    requires forall c :: c in JoinedCodes(joined) <==> InAllTables(infos, c)
    requires Distinct(JoinedCodes(joined))
    requires forall j :: 0 <= j < |joined| ==> joined[j].weighted == RunningSum(0.0, mults, RanksOf(infos, joined[j].code))
    requires multiset(sorted) == multiset(joined)
    requires |rows| == |sorted| && forall i :: 0 <= i < |sorted| ==> rows[i] == FinalRow(i + 1, sorted[i].code, sorted[i].weighted)
    ensures forall c :: c in FinalCodes(rows) <==> InAllTables(infos, c)
    ensures Distinct(FinalCodes(rows))
    ensures forall i :: 0 <= i < |rows| ==> rows[i].score == RunningSum(0.0, mults, RanksOf(infos, rows[i].code))
  {
    assert DistinctBy(JoinedCode, joined) by {
      forall a, b | 0 <= a < b < |joined| ensures JoinedCode(joined[a]) != JoinedCode(joined[b]) {
        assert JoinedCodes(joined)[a] != JoinedCodes(joined)[b];
      }
    }
    PermutationKeepsDistinctBy(JoinedCode, sorted, joined);
    forall a, b | 0 <= a < b < |rows| ensures FinalCodes(rows)[a] != FinalCodes(rows)[b] {
      assert JoinedCode(sorted[a]) != JoinedCode(sorted[b]);
    }
    forall i | 0 <= i < |rows|
      ensures rows[i].score == RunningSum(0.0, mults, RanksOf(infos, rows[i].code))
      ensures InAllTables(infos, rows[i].code)
    {
      assert sorted[i] in multiset(joined);
      var p :| 0 <= p < |joined| && joined[p] == sorted[i];
      assert JoinedCodes(joined)[p] == rows[i].code;
    }
    forall c | InAllTables(infos, c) ensures c in FinalCodes(rows) {
      var p :| 0 <= p < |joined| && JoinedCodes(joined)[p] == c;
      assert joined[p] in multiset(sorted);
      var i :| 0 <= i < |sorted| && sorted[i] == joined[p];
      assert FinalCodes(rows)[i] == c;
    }
  }

  // ---------------------------------------------------------------------------
  // The two result tables   (results.py:69-71, 85-87)
  // ---------------------------------------------------------------------------

  /** `results_weighted`: the results under the variability multipliers. The
      merge cannot fail on them, so the results exist exactly when the weights do. */
  function ResultsWeighted(infos: seq<RankInfo>, sds: seq<real>): (r: Result<seq<FinalRow>>)
    requires |infos| == |RankTitles| && forall q :: 0 <= q < |infos| ==> ValidRanks(infos[q])
    requires |sds| == |QualityMetrics|
    ensures r.Ok? <==> WeightedMultipliers(infos, sds).Ok?
    ensures r.Err? ==> r.failure.NotFinite?
    ensures r.Ok? ==> RankedResults(infos, r.value)
    ensures r.Ok? ==> forall i :: 0 <= i < |r.value| ==>
      r.value[i].score == WeightedRankSum(WeightedMultipliers(infos, sds).value, infos, r.value[i].code)
  {
    var mults :- WeightedMultipliers(infos, sds);
    CalculateResultsReference(infos, mults);
    CalculateResults(infos, mults)
  }

  /** The weighted results from the table of group means: the four rank tables
      of results.py:21-30, their variability weights and the merge. Every country
      of the mean table is ranked exactly once. */
  function WeightedResultsOf(m: MeanTable, sds: seq<real>): (r: Result<seq<FinalRow>>)
    requires ValidMeans(m) && |sds| == |QualityMetrics|
    ensures r.Ok? <==> QualityOfCare(m).Ok? && WeightedMultipliers(QualityOfCare(m).value, sds).Ok?
    ensures r.Ok? ==> RankedResults(QualityOfCare(m).value, r.value)
    ensures r.Ok? ==> forall c :: c in FinalCodes(r.value) <==> c in GroupCodes(m)
    ensures r.Ok? ==> var infos := QualityOfCare(m).value; forall i :: 0 <= i < |r.value| ==>
      r.value[i].score == WeightedRankSum(WeightedMultipliers(infos, sds).value, infos, r.value[i].code)
  {
    var infos :- QualityOfCare(m);
    AllTablesAreGroups(m, infos);
    var r := ResultsWeighted(infos, sds);
    GroupResults(m, infos, sds, r);
    r
  }

  lemma GroupResults(m: MeanTable, infos: seq<RankInfo>, sds: seq<real>, r: Result<seq<FinalRow>>)
    requires |infos| == |RankTitles| && forall q :: 0 <= q < |infos| ==> ValidRanks(infos[q])
    requires |sds| == |QualityMetrics|
    requires forall c :: InAllTables(infos, c) <==> c in GroupCodes(m)
    requires r == ResultsWeighted(infos, sds)
    ensures r.Ok? ==> forall c :: c in FinalCodes(r.value) <==> c in GroupCodes(m)
  {
  }

  /** When every rank table ranks every group, a code is in all four tables
      exactly when it is a group's code. */
  lemma AllTablesAreGroups(m: MeanTable, infos: seq<RankInfo>)
    requires |infos| == |QualityMetrics|
    requires forall q :: 0 <= q < |QualityMetrics| ==> RanksAllGroups(infos[q], m, QualityMetrics[q].ascending)
    ensures forall c :: InAllTables(infos, c) <==> c in GroupCodes(m)
    ensures forall q :: 0 <= q < |infos| ==> ValidRanks(infos[q])
  {
    forall c | c in GroupCodes(m) ensures InAllTables(infos, c) {
      forall q | 0 <= q < |infos| ensures c in RankCodes(infos[q]) {
        assert RanksAllGroups(infos[q], m, QualityMetrics[q].ascending);
      }
    }
    forall c | InAllTables(infos, c) ensures c in GroupCodes(m) {
      assert c in RankCodes(infos[0]);
      assert RanksAllGroups(infos[0], m, QualityMetrics[0].ascending);
    }
  }

  /** `results_unweighted` as the script computes it: with the weighted
      multipliers, so it is always the weighted table. */
  function ResultsUnweightedAsWritten(infos: seq<RankInfo>, sds: seq<real>): (r: Result<seq<FinalRow>>)
    requires |infos| == |RankTitles| && forall q :: 0 <= q < |infos| ==> ValidRanks(infos[q])
    requires |sds| == |QualityMetrics|
    ensures r == ResultsWeighted(infos, sds)
  {
    var mults :- WeightedMultipliers(infos, sds);
    CalculateResults(infos, mults)
  }

  /** Rank tables whose value columns all have mean 1, with standard deviations
      1, 1, 1 and 2, give `ExampleStats`. */
  lemma ExampleStatsOf(infos: seq<RankInfo>)
    requires |infos| == |QualityMetrics|
    requires forall q :: 0 <= q < |infos| ==> infos[q].mean == Some(1.0)
    ensures StatsOf(infos, [1.0, 1.0, 1.0, 2.0]) == Ok(ExampleStats)
  {
    var r := StatsOf(infos, [1.0, 1.0, 1.0, 2.0]);
    assert r.Ok?;
    assert r.value == ExampleStats by {
      assert forall q :: 0 <= q < |QualityMetrics| ==> r.value[q] == ExampleStats[q];
    }
  }

  /** Four metrics with equal means where avoidable deaths varies twice as much. */
  const ExampleStats: seq<MetricStats> := [
    MetricStats("hospital_stay_length", 1.0, 1.0),
    MetricStats("med_tech_availability_p_mil_ppl", 1.0, 1.0),
    MetricStats("life_expectancy", 1.0, 1.0),
    MetricStats("avoidable_deaths", 1.0, 2.0)]

  /** On `ExampleStats` the multipliers `results_unweighted` is computed with give
      avoidable deaths 0.4, not the quarter of `unweighted_multipliers`. */
  lemma UnweightedUsesWeightedMultipliers()
    ensures Distinct(StatTitles(ExampleStats))
    ensures WeightBySdAsPercMean(ExampleStats).Ok?
    ensures WeightBySdAsPercMean(ExampleStats).value[3].weight == 0.4
    ensures WeightBySdAsPercMean(ExampleStats).value != UnweightedMultipliers()
  {
    ExampleTitlesDistinct();
    ExampleTotal();
    assert WeightBySdAsPercMean(ExampleStats).value[3].weight == 200.0 / 500.0;
    assert UnweightedMultipliers()[3].weight == 0.25;
  }

  lemma ExampleTitlesDistinct()
    ensures Distinct(StatTitles(ExampleStats))
  {
    var ts := StatTitles(ExampleStats);
    assert ts[0][0] == 'h' && ts[1][0] == 'm' && ts[2][0] == 'l' && ts[3][0] == 'a';
  }

  /** The raw weights of `ExampleStats` are 100, 100, 100 and 200. */
  lemma ExampleTotal()
    ensures NonzeroMeans(ExampleStats) && Sum(RawWeights(ExampleStats)) == 500.0
  {
    var raw := RawWeights(ExampleStats);
    assert raw[0] == 100.0 && raw[1] == 100.0 && raw[2] == 100.0 && raw[3] == 200.0;
    assert Sum(raw[4..]) == 0.0;
    assert Sum(raw[3..]) == 200.0;
    assert Sum(raw[2..]) == 300.0;
    assert Sum(raw[1..]) == 400.0;
  }

  lemma RankTitlesDistinct()
    ensures Distinct(RankTitles)
  {
    assert RankTitles[0][5] == 'h' && RankTitles[1][5] == 'm' && RankTitles[2][5] == 'l' && RankTitles[3][5] == 'a';
  }

  /** The plain average of a country's four ranks. */
  function MeanRank(infos: seq<RankInfo>, c: Cell): real
    requires |infos| == |RankTitles|
  {
    ((RankOf(infos[0], c) + RankOf(infos[1], c) + RankOf(infos[2], c) + RankOf(infos[3], c)) as real) / 4.0
  }

  lemma FindRankTitle(q: nat)
    requires q < |RankTitles|
    ensures Find(RankTitles, RankTitles[q]) == q
  {
    RankTitlesDistinct();
  }

  /** The equal multiplier at position `k` contributes a quarter of rank `k`. */
  lemma QuarterStep(m: seq<Weight>, infos: seq<RankInfo>, c: Cell, k: nat)
    requires m == UnweightedMultipliers() && |infos| == |RankTitles| && k < 4
    ensures forall w :: w in m[k..] ==> w.title in RankTitles
    ensures WeightedRankSum(m[k..], infos, c) == Contribution(0.25, RankOf(infos[k], c)) + WeightedRankSum(m[k + 1..], infos, c)
  {
    assert forall w :: w in m[k..] ==> w.title in RankTitles;
    assert m[k..][0] == Weight(RankTitles[k], 0.25);
    assert m[k..][1..] == m[k + 1..];
    FindRankTitle(k);
  }

  /** Under the equal multipliers the weighted rank sum is the average rank. */
  lemma UnweightedIsMeanRank(infos: seq<RankInfo>, c: Cell)
    requires |infos| == |RankTitles|
    ensures forall w :: w in UnweightedMultipliers() ==> w.title in RankTitles
    ensures WeightedRankSum(UnweightedMultipliers(), infos, c) == MeanRank(infos, c)
  {
    var m := UnweightedMultipliers();
    QuarterSteps(m, infos, c);
    QuarterSums(WeightedRankSum(m, infos, c), WeightedRankSum(m[1..], infos, c),
      WeightedRankSum(m[2..], infos, c), WeightedRankSum(m[3..], infos, c),
      RankOf(infos[0], c), RankOf(infos[1], c), RankOf(infos[2], c), RankOf(infos[3], c));
  }

  /** The weighted rank sum under the equal multipliers, one entry at a time. */
  lemma QuarterSteps(m: seq<Weight>, infos: seq<RankInfo>, c: Cell)
    requires m == UnweightedMultipliers() && |infos| == |RankTitles|
    ensures forall w :: w in m ==> w.title in RankTitles
    ensures WeightedRankSum(m[3..], infos, c) == Contribution(0.25, RankOf(infos[3], c)) + 0.0
    ensures WeightedRankSum(m[2..], infos, c) == Contribution(0.25, RankOf(infos[2], c)) + WeightedRankSum(m[3..], infos, c)
    ensures WeightedRankSum(m[1..], infos, c) == Contribution(0.25, RankOf(infos[1], c)) + WeightedRankSum(m[2..], infos, c)
    ensures WeightedRankSum(m, infos, c) == Contribution(0.25, RankOf(infos[0], c)) + WeightedRankSum(m[1..], infos, c)
  {
    LateQuarterSteps(m, infos, c);
    QuarterStep(m, infos, c, 0);
    QuarterStep(m, infos, c, 1);
    assert m[0..] == m;
  }

  lemma LateQuarterSteps(m: seq<Weight>, infos: seq<RankInfo>, c: Cell)
    requires m == UnweightedMultipliers() && |infos| == |RankTitles|
    ensures forall w :: w in m[2..] ==> w.title in RankTitles
    ensures WeightedRankSum(m[3..], infos, c) == Contribution(0.25, RankOf(infos[3], c)) + 0.0
    ensures WeightedRankSum(m[2..], infos, c) == Contribution(0.25, RankOf(infos[2], c)) + WeightedRankSum(m[3..], infos, c)
  {
    QuarterStep(m, infos, c, 2);
    QuarterStep(m, infos, c, 3);
    assert m[4..] == [];
  }

  /** Four quarter-weighted partial sums add up to the average. */
  lemma QuarterSums(s0: real, s1: real, s2: real, s3: real, a: nat, b: nat, c: nat, d: nat)
    requires s3 == Contribution(0.25, d) + 0.0
    requires s2 == Contribution(0.25, c) + s3
    requires s1 == Contribution(0.25, b) + s2
    requires s0 == Contribution(0.25, a) + s1
    ensures s0 == ((a + b + c + d) as real) / 4.0
  {
  }

  /** `results_unweighted` as evidently intended: the results under the equal
      multipliers, scored by each country's average rank. */
  function ResultsUnweighted(infos: seq<RankInfo>): (r: Result<seq<FinalRow>>)
    requires |infos| == |RankTitles| && forall q :: 0 <= q < |infos| ==> ValidRanks(infos[q])
    ensures r.Ok?
    ensures RankedResults(infos, r.value)
    ensures forall i :: 0 <= i < |r.value| ==> r.value[i].score == MeanRank(infos, r.value[i].code)
  {
    var mults := UnweightedMultipliers();
    assert forall w :: w in mults ==> w.title in RankTitles;
    CalculateResultsReference(infos, mults);
    var r := CalculateResults(infos, mults);
    forall i | 0 <= i < |r.value| ensures r.value[i].score == MeanRank(infos, r.value[i].code) {
      UnweightedIsMeanRank(infos, r.value[i].code);
    }
    r
  }
}

=== FILE: sorting.dfy ===
/** Sorting a sequence by a key under a total preorder. Every `sort_values` of
    the pipelines is modelled by `SortBy`; nothing about the tie order is
    promised (pandas' default sort is not stable), only that the result is a
    permutation of the input and is ordered by the key. */
module Sorting {

  ghost predicate TotalPreorder<K(!new)>(le: (K, K) -> bool) {
    && (forall a, b :: le(a, b) || le(b, a))
    && (forall a, b, c :: le(a, b) && le(b, c) ==> le(a, c))
  }

  predicate SortedBy<T, K>(key: T -> K, le: (K, K) -> bool, s: seq<T>) {
    forall i, j :: 0 <= i < j < |s| ==> le(key(s[i]), key(s[j]))
  }

  /** An element of a sequence whose multiset is that of `s` plus `x` is `x` or an element of `s`. */
  lemma InMultisetUnion<T>(r: seq<T>, s: seq<T>, x: T)
    requires multiset(r) == multiset(s) + multiset{x}
    ensures forall y :: y in r ==> y == x || y in s
  {
    forall y | y in r
      ensures y == x || y in s
    {
      assert y in multiset(r);
    }
  }

  /** Putting `x` after the head of a sorted `s` keeps it sorted when the head is at most `x`. */
  lemma ConsSorted<T, K(!new)>(key: T -> K, le: (K, K) -> bool, x: T, s: seq<T>, rest: seq<T>)
    requires TotalPreorder(le) && SortedBy(key, le, s) && |s| > 0
    requires le(key(s[0]), key(x))
    requires SortedBy(key, le, rest) && multiset(rest) == multiset(s[1..]) + multiset{x}
    ensures SortedBy(key, le, [s[0]] + rest)
  {
    InMultisetUnion(rest, s[1..], x);
    forall j | 0 <= j < |rest|
      ensures le(key(s[0]), key(rest[j]))
    {
      assert rest[j] in rest;
      if rest[j] != x {
        assert rest[j] in s[1..];
        var m :| 0 <= m < |s[1..]| && s[1..][m] == rest[j];
        assert s[m + 1] == rest[j];
      }
    }
  }

  function InsertBy<T, K(!new)>(key: T -> K, le: (K, K) -> bool, x: T, s: seq<T>): (r: seq<T>)
    requires TotalPreorder(le) && SortedBy(key, le, s)
    ensures SortedBy(key, le, r)
    ensures multiset(r) == multiset(s) + multiset{x}
    decreases |s|
  {
    if |s| == 0 then [x]
    else if le(key(x), key(s[0])) then
      assert forall j :: 0 < j < |s| ==> le(key(s[0]), key(s[j]));
      [x] + s
    else
      var rest := InsertBy(key, le, x, s[1..]);
      assert s == [s[0]] + s[1..];
      ConsSorted(key, le, x, s, rest);
      [s[0]] + rest
  }

  /** Insertion sort by key: a permutation of `s` ordered by `le` on the keys. */
  function SortBy<T, K(!new)>(key: T -> K, le: (K, K) -> bool, s: seq<T>): (r: seq<T>)
    requires TotalPreorder(le)
    ensures SortedBy(key, le, r)
    ensures multiset(r) == multiset(s)
    ensures |r| == |s|
    decreases |s|
  {
    if |s| == 0 then []
    else
      assert s == [s[0]] + s[1..];
      InsertBy(key, le, s[0], SortBy(key, le, s[1..]))
  }

  // ---------------------------------------------------------------------------
  // Permutations
  // ---------------------------------------------------------------------------

  /** No two elements of `s` share a key. */
  predicate DistinctBy<T, K(==)>(key: T -> K, s: seq<T>) {
    forall i, j :: 0 <= i < j < |s| ==> key(s[i]) != key(s[j])
  }

  lemma {:induction false} TwoPositionsCountTwice<T>(s: seq<T>, i: nat, j: nat)
    requires i < j < |s| && s[i] == s[j]
    ensures multiset(s)[s[i]] >= 2
  {
    if i == 0 {
      assert s == [s[0]] + s[1..];
      assert s[j] == s[1..][j - 1];
      assert s[i] in multiset(s[1..]);
    } else {
      assert s == [s[0]] + s[1..];
      TwoPositionsCountTwice(s[1..], i - 1, j - 1);
    }
  }

  lemma {:induction false} DistinctByCountsOnce<T, K>(key: T -> K, s: seq<T>, x: T)
    requires DistinctBy(key, s)
    ensures multiset(s)[x] <= 1
  {
    if |s| > 0 {
      assert s == [s[0]] + s[1..];
      DistinctByCountsOnce(key, s[1..], x);
    }
  }

  /** A permutation of a sequence whose keys are distinct has distinct keys too. */
  lemma PermutationKeepsDistinctBy<T, K>(key: T -> K, a: seq<T>, b: seq<T>)
    requires multiset(a) == multiset(b) && DistinctBy(key, b)
    ensures DistinctBy(key, a)
  {
    forall i, j | 0 <= i < j < |a|
      ensures key(a[i]) != key(a[j])
    {
      assert a[i] in multiset(b) && a[j] in multiset(b);
      if a[i] == a[j] {
        TwoPositionsCountTwice(a, i, j);
        DistinctByCountsOnce(key, b, a[i]);
        assert false;
      } else {
        var p :| 0 <= p < |b| && b[p] == a[i];
        var q :| 0 <= q < |b| && b[q] == a[j];
        assert p != q;
      }
    }
  }
}

=== FILE: tidy.dfy ===
/** The tidying pipeline of tidy.py: drop the listed columns, rename the
    identifier columns, keep the years 2000..2019, normalise the labels, drop
    mostly-missing and placeholder columns, check the identifiers, keep the
    identifier and numeric columns, and sort by (code, year). */
module Tidy {
  import opened Frames
  import opened Sorting
  import opened Ordering

  const MinYear: real := 2000.0
  const MaxYear: real := 2019.0
  /** Columns at least this fraction missing are dropped. */
  const NaThreshold: real := 0.9

  const DefaultCountryColumn: string := "Reference area"
  const DefaultCodeColumn: string := "REF_AREA"
  const DefaultYearColumn: string := "TIME_PERIOD"
  const DefaultDropColumns: seq<string> := [
    "STRUCTURE", "STRUCTURE_ID", "STRUCTURE_NAME", "ACTION", "FREQ", "MEASURE",
    "UNIT_MEASURE", "FINANCING_SCHEME", "FINANCING_SCHEME_REV", "FUNCTION",
    "MODE_PROVISION", "PROVIDER", "FACTOR_PROVISION", "ASSET_TYPE",
    "PRICE_BASE", "Time period", "Observation value", "Base period",
    "CURRENCY", "UNIT_MULT", "DECIMALS", "Decimals"]

  /** The identifier columns every tidy table keeps. */
  const Identifiers: set<string> := {"country", "year", "code"}

  const NotApplicable: string := "Not applicable"
  const NotApplication: string := "Not application"

  // ---------------------------------------------------------------------------
  // Column labels: lower case, spaces replaced by underscores
  // ---------------------------------------------------------------------------

  predicate IsUpper(c: char) {
    'A' <= c <= 'Z'
  }

  /** No upper-case ASCII letter and no space. */
  predicate IsNormalName(s: string) {
    forall i :: 0 <= i < |s| ==> !IsUpper(s[i]) && s[i] != ' '
  }

  function NormalizeChar(c: char): char {
    if c == ' ' then '_'
    else if IsUpper(c) then (c as int - 'A' as int + 'a' as int) as char
    else c
  }

  /** `s.lower().replace(" ", "_")`, with ASCII lower-casing. */
  function NormalizeName(s: string): (r: string)
    ensures |r| == |s|
    ensures IsNormalName(r)
    ensures forall i :: 0 <= i < |s| && IsUpper(s[i]) ==> r[i] as int == s[i] as int + 32
    ensures forall i :: 0 <= i < |s| && s[i] == ' ' ==> r[i] == '_'
    ensures forall i :: 0 <= i < |s| && !IsUpper(s[i]) && s[i] != ' ' ==> r[i] == s[i]
  {
    seq(|s|, i requires 0 <= i < |s| => NormalizeChar(s[i]))
  }

  /** A label that is already normal is left alone, so normalising twice is normalising once. */
  lemma NormalizeNameIdempotent(s: string)
    ensures IsNormalName(s) ==> NormalizeName(s) == s
    ensures NormalizeName(NormalizeName(s)) == NormalizeName(s)
  {
    var r := NormalizeName(s);
    assert NormalizeName(r) == r;
    if IsNormalName(s) {
      assert NormalizeName(s) == s;
    }
  }

  /** Every label of the table normalised (tidy.py:69-74). */
  function NormalizeNames(t: Table): (r: Table)
    requires Valid(t)
    ensures Valid(r)
    ensures |r.names| == |t.names| && r.numeric == t.numeric && r.rows == t.rows
    ensures forall k :: 0 <= k < |r.names| ==> IsNormalName(r.names[k])
    ensures forall k :: 0 <= k < |r.names| ==> r.names[k] == NormalizeName(t.names[k])
  {
    t.(names := seq(|t.names|, k requires 0 <= k < |t.names| => NormalizeName(t.names[k])))
  }

  // ---------------------------------------------------------------------------
  // Renaming
  // ---------------------------------------------------------------------------

  function Renamed(n: string, m: map<string, string>): string {
    if n in m then m[n] else n
  }

  /** `df.rename(columns=m)`: labels in `m` are replaced, the others and all cells stay. */
  function Rename(t: Table, m: map<string, string>): (r: Table)
    requires Valid(t)
    ensures Valid(r)
    ensures |r.names| == |t.names| && r.numeric == t.numeric && r.rows == t.rows
    ensures forall k :: 0 <= k < |t.names| && t.names[k] !in m ==> r.names[k] == t.names[k]
    ensures forall k :: 0 <= k < |t.names| && t.names[k] in m ==> r.names[k] == m[t.names[k]]
  {
    t.(names := seq(|t.names|, k requires 0 <= k < |t.names| => Renamed(t.names[k], m)))
  }

  /** The dict `{year: "year", country: "country", code: "code"}`; as in a Python
      dict display, a later key that repeats an earlier one wins. */
  function IdentifierRenames(ogCountry: string, ogCode: string, ogYear: string): (m: map<string, string>)
    ensures m.Keys == {ogCountry, ogCode, ogYear}
    ensures m[ogCode] == "code"
    ensures ogCountry != ogCode ==> m[ogCountry] == "country"
    ensures ogYear != ogCountry && ogYear != ogCode ==> m[ogYear] == "year"
  {
    map[ogYear := "year"][ogCountry := "country"][ogCode := "code"]
  }

  // ---------------------------------------------------------------------------
  // Dropping listed columns
  // ---------------------------------------------------------------------------

  /** The first listed label that is not a column. */
  function FirstAbsent(labels: seq<string>, names: seq<string>): (r: Option<string>)
    ensures r.None? <==> forall l :: l in labels ==> l in names
    ensures r.Some? ==> r.value in labels && r.value !in names
  {
    if |labels| == 0 then None
    else if labels[0] !in names then Some(labels[0])
    else FirstAbsent(labels[1..], names)
  }

  function DropMask(names: seq<string>, labels: seq<string>): (mask: seq<bool>)
    ensures |mask| == |names|
    ensures forall j :: 0 <= j < |names| ==> (mask[j] <==> names[j] !in labels)
  {
    seq(|names|, j requires 0 <= j < |names| => names[j] !in labels)
  }

  /** `df.drop(columns=labels)`: KeyError when a listed label is absent, otherwise
      every column carrying a listed label goes and the rest stay in order. */
  function DropColumns(t: Table, labels: seq<string>): (r: Result<Table>)
    requires Valid(t)
    ensures r.Ok? <==> forall l :: l in labels ==> l in t.names
    ensures r.Err? ==> r.failure.KeyError? && r.failure.column in labels && r.failure.column !in t.names
    ensures r.Ok? ==> ColumnsFrom(r.value, t, Kept(DropMask(t.names, labels)))
    ensures r.Ok? ==> forall n :: n in r.value.names <==> n in t.names && n !in labels
  {
    match FirstAbsent(labels, t.names)
    case Some(l) => Err(KeyError(l))
    case None => Ok(SelectColumns(t, DropMask(t.names, labels)))
  }

  // ---------------------------------------------------------------------------
  // Year window
  // ---------------------------------------------------------------------------

  predicate InYearRange(c: Cell) {
    c.Num? && MinYear <= c.x <= MaxYear
  }

  /** Every cell of every column labelled "year" lies in the window. */
  ghost predicate YearsInRange(t: Table)
    requires Valid(t)
  {
    forall i, k :: 0 <= i < |t.rows| && 0 <= k < |t.names| && t.names[k] == "year" ==> InYearRange(t.rows[i][k])
  }

  function YearMask(rows: seq<Row>, yi: nat): (mask: seq<bool>)
    requires forall i :: 0 <= i < |rows| ==> yi < |rows[i]|
    ensures |mask| == |rows|
    ensures forall i :: 0 <= i < |rows| ==> (mask[i] <==> InYearRange(rows[i][yi]))
  {
    seq(|rows|, i requires 0 <= i < |rows| => InYearRange(rows[i][yi]))
  }

  predicate HasString(rows: seq<Row>, j: nat)
    requires forall i :: 0 <= i < |rows| ==> j < |rows[i]|
  {
    exists i :: 0 <= i < |rows| && rows[i][j].Str?
  }

  /** `df[(df["year"] <= 2019) & (df["year"] >= 2000)]` (tidy.py:63-66). A missing
      year compares false and its row goes; a string year makes the comparison
      raise. */
  function FilterYears(t: Table): (r: Result<Table>)
    requires Valid(t)
    ensures r.Ok? <==> UniqueLabel(t.names, "year") && !HasString(t.rows, Find(t.names, "year"))
    ensures r.Err? ==> r.failure in {KeyError("year"), DuplicateLabel("year"), TypeMismatch("year")}
    ensures r.Ok? ==> Valid(r.value) && r.value.names == t.names && r.value.numeric == t.numeric
    ensures r.Ok? ==> YearsInRange(r.value)
    ensures r.Ok? ==> r.value.rows == Pick(t.rows, Kept(YearMask(t.rows, Find(t.names, "year"))))
  {
    var yi :- Lookup(t.names, "year");
    if HasString(t.rows, yi) then Err(TypeMismatch("year"))
    else
      var ks := Kept(YearMask(t.rows, yi));
      var r := t.(rows := Pick(t.rows, ks));
      assert YearsInRange(r) by {
        forall i, k | 0 <= i < |r.rows| && 0 <= k < |r.names| && r.names[k] == "year"
          ensures InYearRange(r.rows[i][k])
        {
          assert k == yi;
          assert r.rows[i] == t.rows[ks[i]];
        }
      }
      Ok(r)
  }

  // ---------------------------------------------------------------------------
  // Mostly-missing columns
  // ---------------------------------------------------------------------------

  function MissingCount(col: seq<Cell>): (n: nat)
    ensures n <= |col|
  {
    if |col| == 0 then 0
    else (if col[0] == Missing then 1 else 0) + MissingCount(col[1..])
  }

  /** `col.isna().mean() >= proportion`. The mean of an empty column is NaN, which
      compares false, so a column of a table without rows is never mostly missing. */
  predicate MostlyMissing(col: seq<Cell>, proportion: real) {
    |col| > 0 && (MissingCount(col) as real) / (|col| as real) >= proportion
  }

  /** Column `j` occurs under a label another column also carries. */
  predicate Repeated(names: seq<string>, j: nat)
    requires j < |names|
  {
    exists k :: 0 <= k < |names| && k != j && names[k] == names[j]
  }

  /** The label of the first column, in column order, whose label repeats. */
  function FirstRepeated(names: seq<string>, from: nat): (r: Option<string>)
    requires from <= |names|
    ensures r.None? <==> forall j :: from <= j < |names| ==> !Repeated(names, j)
    ensures r.Some? ==> exists a, b :: 0 <= a < b < |names| && names[a] == r.value && names[b] == r.value
    decreases |names| - from
  {
    if from == |names| then None
    else if Repeated(names, from) then
      var k :| 0 <= k < |names| && k != from && names[k] == names[from];
      if k < from then assert names[k] == names[from]; Some(names[from])
      else Some(names[from])
    else FirstRepeated(names, from + 1)
  }

  lemma DistinctIffNoneRepeated(names: seq<string>)
    ensures Distinct(names) <==> forall j :: 0 <= j < |names| ==> !Repeated(names, j)
  {
    if forall j :: 0 <= j < |names| ==> !Repeated(names, j) {
      forall a, b | 0 <= a < b < |names| ensures names[a] != names[b] {
        assert !Repeated(names, a);
      }
    }
  }

  function MissingMask(t: Table, proportion: real): (mask: seq<bool>)
    requires Valid(t)
    ensures |mask| == |t.names|
    ensures forall j :: 0 <= j < |t.names| ==> (mask[j] <==> !MostlyMissing(Column(t.rows, j), proportion))
  {
    seq(|t.names|, j requires 0 <= j < |t.names| => !MostlyMissing(Column(t.rows, j), proportion))
  }

  /** A column picked by `ColumnsFrom` has the cells of the column it came from. */
  lemma SelectedColumn(r: Table, t: Table, ks: seq<nat>)
    requires ColumnsFrom(r, t, ks)
    ensures forall k :: 0 <= k < |ks| ==> Column(r.rows, k) == Column(t.rows, ks[k])
  {
  }

  /** `drop_cols_with_proportion_na` (tidy.py:22-41): a repeated label makes the
      per-column mean a Series and raises; otherwise exactly the columns at least
      `proportion` missing go, the rest stay in order with their cells. */
  function DropMostlyMissing(t: Table, proportion: real): (r: Result<Table>)
    requires Valid(t)
    ensures r.Ok? <==> Distinct(t.names)
    ensures r.Err? ==> r.failure.DuplicateLabel?
    ensures r.Err? ==> exists a, b :: 0 <= a < b < |t.names| && t.names[a] == r.failure.column && t.names[b] == r.failure.column
    ensures r.Ok? ==> ColumnsFrom(r.value, t, Kept(MissingMask(t, proportion))) && Distinct(r.value.names)
    ensures r.Ok? ==> forall j :: 0 <= j < |t.names| ==>
      (t.names[j] in r.value.names <==> !MostlyMissing(Column(t.rows, j), proportion))
    ensures r.Ok? ==> forall k :: 0 <= k < |r.value.names| ==> !MostlyMissing(Column(r.value.rows, k), proportion)
  {
    DistinctIffNoneRepeated(t.names);
    match FirstRepeated(t.names, 0)
    case Some(n) => Err(DuplicateLabel(n))
    case None =>
      var mask := MissingMask(t, proportion);
      SelectedNames(t, mask);
      SelectedColumn(SelectColumns(t, mask), t, Kept(mask));
      Ok(SelectColumns(t, mask))
  }

  // ---------------------------------------------------------------------------
  // Placeholder columns
  // ---------------------------------------------------------------------------

  predicate AllEqual(col: seq<Cell>, v: Cell) {
    forall i :: 0 <= i < |col| ==> col[i] == v
  }

  /** Labels of the columns whose every cell is the placeholder `sentinel`. */
  function SentinelNames(t: Table, sentinel: string): set<string>
    requires Valid(t)
  {
    set j | 0 <= j < |t.names| && AllEqual(Column(t.rows, j), Str(sentinel)) :: t.names[j]
  }

  function SentinelMask(t: Table, sentinel: string): (mask: seq<bool>)
    requires Valid(t)
    ensures |mask| == |t.names|
    ensures forall j :: 0 <= j < |t.names| ==> (mask[j] <==> t.names[j] !in SentinelNames(t, sentinel))
  {
    seq(|t.names|, j requires 0 <= j < |t.names| => t.names[j] !in SentinelNames(t, sentinel))
  }

  /** `df.drop(columns=df.columns[(df == sentinel).all()])` (tidy.py:79-85). On a
      table without rows every column is vacuously all-placeholder and goes. */
  function DropSentinelColumns(t: Table, sentinel: string): (r: Table)
    requires Valid(t)
    ensures ColumnsFrom(r, t, Kept(SentinelMask(t, sentinel)))
    ensures forall k :: 0 <= k < |r.names| ==> !AllEqual(Column(r.rows, k), Str(sentinel))
    ensures forall j :: 0 <= j < |t.names| && t.names[j] !in SentinelNames(t, sentinel) ==> t.names[j] in r.names
    ensures Distinct(t.names) ==> Distinct(r.names)
  {
    SentinelDropFacts(t, sentinel);
    SelectColumns(t, SentinelMask(t, sentinel))
  }

  /** A column whose label is not among the placeholder columns' labels is not all placeholder. */
  lemma NotSentinel(t: Table, sentinel: string, j: nat)
    requires Valid(t) && j < |t.names|
    ensures t.names[j] !in SentinelNames(t, sentinel) ==> !AllEqual(Column(t.rows, j), Str(sentinel))
  {
    assert AllEqual(Column(t.rows, j), Str(sentinel)) ==> t.names[j] in SentinelNames(t, sentinel);
  }

  lemma SentinelDropFacts(t: Table, sentinel: string)
    requires Valid(t)
    ensures var r := SelectColumns(t, SentinelMask(t, sentinel));
      && (forall k :: 0 <= k < |r.names| ==> !AllEqual(Column(r.rows, k), Str(sentinel)))
      && (forall j :: 0 <= j < |t.names| && t.names[j] !in SentinelNames(t, sentinel) ==> t.names[j] in r.names)
  {
    var mask := SentinelMask(t, sentinel);
    var r := SelectColumns(t, mask);
    var ks := Kept(mask);
    SelectedColumn(r, t, ks);
    SelectedNames(t, mask);
    forall k | 0 <= k < |r.names| ensures !AllEqual(Column(r.rows, k), Str(sentinel)) {
      NotSentinel(t, sentinel, ks[k]);
    }
  }

  // ---------------------------------------------------------------------------
  // tidy_informational
  // ---------------------------------------------------------------------------

  /** What the informational snapshot promises. */
  ghost predicate Informational(t: Table) {
    && Valid(t)
    && Distinct(t.names)
    && "country" in t.names
    && "year" in t.names
    && (forall k :: 0 <= k < |t.names| ==> IsNormalName(t.names[k]))
    && YearsInRange(t)
    && (forall k :: 0 <= k < |t.names| ==> !MostlyMissing(Column(t.rows, k), NaThreshold))
    && (forall k :: 0 <= k < |t.names| ==> !AllEqual(Column(t.rows, k), Str(NotApplicable)))
    && (forall k :: 0 <= k < |t.names| ==> !AllEqual(Column(t.rows, k), Str(NotApplication)))
  }

  /** Dropping columns keeps labels normal, years in range and columns not mostly missing. */
  lemma SelectionKeeps(r: Table, t: Table, ks: seq<nat>)
    requires ColumnsFrom(r, t, ks)
    ensures (forall j :: 0 <= j < |t.names| ==> IsNormalName(t.names[j])) ==>
      forall k :: 0 <= k < |r.names| ==> IsNormalName(r.names[k])
    ensures YearsInRange(t) ==> YearsInRange(r)
    ensures (forall j :: 0 <= j < |t.names| ==> !MostlyMissing(Column(t.rows, j), NaThreshold)) ==>
      forall k :: 0 <= k < |r.names| ==> !MostlyMissing(Column(r.rows, k), NaThreshold)
    ensures (forall j :: 0 <= j < |t.names| ==> !AllEqual(Column(t.rows, j), Str(NotApplicable))) ==>
      forall k :: 0 <= k < |r.names| ==> !AllEqual(Column(r.rows, k), Str(NotApplicable))
  {
    SelectedColumn(r, t, ks);
    if YearsInRange(t) {
      forall i, k | 0 <= i < |r.rows| && 0 <= k < |r.names| && r.names[k] == "year"
        ensures InYearRange(r.rows[i][k])
      {
        assert t.names[ks[k]] == "year";
      }
    }
  }

  /** Normalising labels that end up distinct keeps the year window: the only
      column labelled "year" afterwards is the one labelled "year" before. */
  lemma NormalizeKeepsYears(t: Table)
    requires Valid(t) && YearsInRange(t) && "year" in t.names
    requires Distinct(NormalizeNames(t).names)
    ensures YearsInRange(NormalizeNames(t))
  {
    var r := NormalizeNames(t);
    var yi := Find(t.names, "year");
    NormalizeNameIdempotent("year");
    assert r.names[yi] == "year";
    forall i, k | 0 <= i < |r.rows| && 0 <= k < |r.names| && r.names[k] == "year"
      ensures InYearRange(r.rows[i][k])
    {
      assert k == yi;
    }
  }

  /** Informational implies at least one row: with no rows, every column would be
      all placeholder and would have been dropped, country included. */
  lemma InformationalHasRows(t: Table)
    requires Informational(t)
    ensures |t.rows| > 0
  {
    var ci := Find(t.names, "country");
    assert !AllEqual(Column(t.rows, ci), Str(NotApplicable));
  }

  /** The columns `tidy_informational` drops first: the given list, or the
      default one when none is given. */
  function DropList(dropColumns: Option<seq<string>>): seq<string> {
    if dropColumns.None? then DefaultDropColumns else dropColumns.value
  }

  /** A column the informational snapshot keeps, judged on its cells in the year
      window: not mostly missing and not all of either placeholder. */
  predicate Survives(col: seq<Cell>) {
    && !MostlyMissing(col, NaThreshold)
    && !AllEqual(col, Str(NotApplicable))
    && !AllEqual(col, Str(NotApplication))
  }

  /** Column `y` of `t` is not in `labels` and `m` renames it to "year": the
      column the year filter reads. */
  predicate YearSource(t: Table, m: map<string, string>, labels: seq<string>, y: nat) {
    y < |t.names| && t.names[y] !in labels && Renamed(t.names[y], m) == "year"
  }

  /** `r` is `t` after the first three steps: the columns of `t` whose labels are
      not in `labels`, in order, relabelled by `m`, and the rows of `t` whose cell
      in the column that becomes "year" lies in the window. */
  ghost predicate WindowOf(r: Table, t: Table, m: map<string, string>, labels: seq<string>)
    requires Valid(t)
  {
    exists y :: YearSource(t, m, labels, y) && WindowCut(r, t, m, labels, y)
  }

  /** The window cut with year column `y`. */
  ghost predicate WindowCut(r: Table, t: Table, m: map<string, string>, labels: seq<string>, y: nat)
    requires Valid(t) && YearSource(t, m, labels, y)
  {
    var ks := Kept(DropMask(t.names, labels));
    && CutFrom(r, t, ks, Kept(YearMask(t.rows, y)))
    && forall k :: 0 <= k < |ks| ==> r.names[k] == Renamed(t.names[ks[k]], m)
  }

  /** `r` is the informational snapshot of `t`: rows `rs` of `t` are those whose
      cell in the column that becomes "year" lies in the window; the columns `ks`
      of `t` it keeps are not in `labels` and carry their label renamed by `m`
      and normalised; every column not in `labels` whose cells in those rows
      survive is among them. */
  ghost predicate InformationalOf(r: Table, t: Table, m: map<string, string>, labels: seq<string>)
    requires Valid(t)
  {
    exists ks, y :: YearSource(t, m, labels, y) && SnapshotCut(r, t, m, labels, ks, Kept(YearMask(t.rows, y)))
  }

  /** The columns `ks` and rows `rs` of `t` make up `r` as `InformationalOf` says. */
  ghost predicate SnapshotCut(r: Table, t: Table, m: map<string, string>, labels: seq<string>, ks: seq<nat>, rs: seq<nat>)
  {
    && CutFrom(r, t, ks, rs)
    && (forall k :: 0 <= k < |ks| ==> t.names[ks[k]] !in labels && r.names[k] == NormalizeName(Renamed(t.names[ks[k]], m)))
    && (forall j :: 0 <= j < |t.names| && t.names[j] !in labels && Survives(Pick(Column(t.rows, j), rs)) ==> j in ks)
  }

  function TidyInformational(t: Table, ogCountry: string, ogCode: string, ogYear: string,
                             dropColumns: Option<seq<string>>): (r: Result<Table>)
    requires Valid(t)
    ensures r.Ok? ==> Informational(r.value)
    ensures r.Ok? ==> |r.value.rows| > 0
    ensures r.Ok? ==> InformationalOf(r.value, t, IdentifierRenames(ogCountry, ogCode, ogYear), DropList(dropColumns))
    ensures r.Err? && r.failure.AssertionFailed? ==> r.failure.column in {"country", "year"}
  {
    var t3 :- RenamedInWindow(t, ogCountry, ogCode, ogYear, dropColumns);
    var t5 :- DropMostlyMissing(NormalizeNames(t3), NaThreshold);
    var t7 := DropSentinelColumns(DropSentinelColumns(t5, NotApplicable), NotApplication);
    if "country" !in t7.names then Err(AssertionFailed("country"))
    else if "year" !in t7.names then Err(AssertionFailed("year"))
    else
      InformationalSteps(t3, t5);
      SnapshotFrom(t, IdentifierRenames(ogCountry, ogCode, ogYear), DropList(dropColumns), t3, t5);
      Ok(t7)
  }

  /** The first three steps of `tidy_informational` (tidy.py:49-66): drop the
      listed columns, rename the identifiers, keep the years in the window. */
  function RenamedInWindow(t: Table, ogCountry: string, ogCode: string, ogYear: string,
                           dropColumns: Option<seq<string>>): (r: Result<Table>)
    requires Valid(t)
    ensures r.Ok? ==> Valid(r.value) && YearsInRange(r.value) && "year" in r.value.names
    ensures r.Ok? ==> WindowOf(r.value, t, IdentifierRenames(ogCountry, ogCode, ogYear), DropList(dropColumns))
  {
    var m := IdentifierRenames(ogCountry, ogCode, ogYear);
    var t1 :- DropColumns(t, DropList(dropColumns));
    var r := FilterYears(Rename(t1, m));
    if r.Ok? then WindowSteps(t, m, DropList(dropColumns), t1, r.value); r else r
  }

  /** Dropping, renaming and filtering the years cut the window out of `t`. */
  lemma WindowSteps(t: Table, m: map<string, string>, labels: seq<string>, t1: Table, t3: Table)
    requires Valid(t) && DropColumns(t, labels) == Ok(t1)
    requires FilterYears(Rename(t1, m)) == Ok(t3)
    ensures WindowOf(t3, t, m, labels)
  {
    var ks := Kept(DropMask(t.names, labels));
    var t2 := Rename(t1, m);
    var yi := Find(t2.names, "year");
    var y := ks[yi];
    assert YearSource(t, m, labels, y) by {
      assert Renamed(t1.names[yi], m) == "year";
    }
    assert YearMask(t2.rows, yi) == YearMask(t.rows, y);
    ColumnsAreCut(t1, t, ks);
    RelabelledCut(t2, t1, t, ks, Upto(|t.rows|));
    RowsOfCut(t3, t2, t, ks, Kept(YearMask(t.rows, y)));
    assert WindowCut(t3, t, m, labels, y);
  }

  /** The snapshot steps after the year filter keep the cut: normalising relabels
      it, and each column drop keeps every column that survives. */
  lemma SnapshotFrom(t: Table, m: map<string, string>, labels: seq<string>, t3: Table, t5: Table)
    requires Valid(t) && WindowOf(t3, t, m, labels)
    requires DropMostlyMissing(NormalizeNames(t3), NaThreshold) == Ok(t5)
    ensures InformationalOf(DropSentinelColumns(DropSentinelColumns(t5, NotApplicable), NotApplication), t, m, labels)
  {
    var y, rs := NormalizedCut(t, m, labels, t3);
    var ks5 := MissingStage(t, m, labels, NormalizeNames(t3), t5, Kept(DropMask(t.names, labels)), rs);
    var t6 := DropSentinelColumns(t5, NotApplicable);
    var ks6 := SentinelStage(t, m, labels, t5, NotApplicable, ks5, rs);
    var ks7 := SentinelStage(t, m, labels, t6, NotApplication, ks6, rs);
  }

  /** Normalising the labels of the window keeps its cut of `t`, now a snapshot cut. */
  lemma NormalizedCut(t: Table, m: map<string, string>, labels: seq<string>, t3: Table) returns (y: nat, rs: seq<nat>)
    requires Valid(t) && WindowOf(t3, t, m, labels)
    ensures YearSource(t, m, labels, y)
    ensures rs == Kept(YearMask(t.rows, y))
    ensures SnapshotCut(NormalizeNames(t3), t, m, labels, Kept(DropMask(t.names, labels)), rs)
  {
    var ks := Kept(DropMask(t.names, labels));
    y :| YearSource(t, m, labels, y) && WindowCut(t3, t, m, labels, y);
    rs := Kept(YearMask(t.rows, y));
    RelabelledCut(NormalizeNames(t3), t3, t, ks, rs);
  }

  /** The mostly-missing drop keeps the snapshot cut. */
  lemma MissingStage(t: Table, m: map<string, string>, labels: seq<string>, t4: Table, t5: Table,
                     ks: seq<nat>, rs: seq<nat>) returns (ks5: seq<nat>)
    requires SnapshotCut(t4, t, m, labels, ks, rs)
    requires DropMostlyMissing(t4, NaThreshold) == Ok(t5)
    ensures SnapshotCut(t5, t, m, labels, ks5, rs)
  {
    var mask := MissingMask(t4, NaThreshold);
    SnapshotStage(t4, t5, t, m, labels, ks, rs, mask);
    ks5 := Pick(ks, Kept(mask));
  }

  /** A placeholder drop on distinct labels keeps the snapshot cut. */
  lemma SentinelStage(t: Table, m: map<string, string>, labels: seq<string>, s: Table, sentinel: string,
                      ks: seq<nat>, rs: seq<nat>) returns (ks': seq<nat>)
    requires SnapshotCut(s, t, m, labels, ks, rs) && Distinct(s.names)
    requires sentinel == NotApplicable || sentinel == NotApplication
    ensures var r := DropSentinelColumns(s, sentinel); SnapshotCut(r, t, m, labels, ks', rs) && Distinct(r.names)
  {
    var mask := SentinelMask(s, sentinel);
    SentinelByColumn(s, sentinel);
    SnapshotStage(s, DropSentinelColumns(s, sentinel), t, m, labels, ks, rs, mask);
    ks' := Pick(ks, Kept(mask));
  }

  /** One column drop of the snapshot: when the mask keeps every column that
      survives, the cut stays a snapshot cut of `t`. */
  lemma SnapshotStage(s: Table, r: Table, t: Table, m: map<string, string>, labels: seq<string>,
                      ks: seq<nat>, rs: seq<nat>, mask: seq<bool>)
    requires SnapshotCut(s, t, m, labels, ks, rs)
    requires |mask| == |s.names| && ColumnsFrom(r, s, Kept(mask))
    requires forall p :: 0 <= p < |s.names| && Survives(Column(s.rows, p)) ==> mask[p]
    ensures SnapshotCut(r, t, m, labels, Pick(ks, Kept(mask)), rs)
  {
    var js := Kept(mask);
    ColumnsOfCut(r, s, t, ks, rs, js);
    forall j | 0 <= j < |t.names| && t.names[j] !in labels && Survives(Pick(Column(t.rows, j), rs))
      ensures j in Pick(ks, js)
    {
      var p :| 0 <= p < |ks| && ks[p] == j;
      CutColumn(s, t, ks, rs, p);
      assert mask[p];
      KeptThrough(ks, js, p);
    }
  }

  /** With distinct labels, a label is among the placeholder columns' labels
      exactly when its own column is all placeholder. */
  lemma SentinelByColumn(t: Table, sentinel: string)
    requires Valid(t) && Distinct(t.names)
    ensures forall p :: 0 <= p < |t.names| ==>
      (t.names[p] in SentinelNames(t, sentinel) <==> AllEqual(Column(t.rows, p), Str(sentinel)))
  {
    forall p | 0 <= p < |t.names| && t.names[p] in SentinelNames(t, sentinel)
      ensures AllEqual(Column(t.rows, p), Str(sentinel))
    {
      var j :| 0 <= j < |t.names| && AllEqual(Column(t.rows, j), Str(sentinel)) && t.names[j] == t.names[p];
      assert j == p;
    }
  }

  /** The chain from the year filter's output to the last placeholder drop ends
      in an informational table once country and year are still there. */
  lemma InformationalSteps(t3: Table, t5: Table)
    requires Valid(t3) && YearsInRange(t3) && "year" in t3.names
    requires DropMostlyMissing(NormalizeNames(t3), NaThreshold) == Ok(t5)
    ensures var t7 := DropSentinelColumns(DropSentinelColumns(t5, NotApplicable), NotApplication);
      "country" in t7.names && "year" in t7.names ==> Informational(t7) && |t7.rows| > 0
  {
    var t4 := NormalizeNames(t3);
    var t6 := DropSentinelColumns(t5, NotApplicable);
    var t7 := DropSentinelColumns(t6, NotApplication);
    NormalizeKeepsYears(t3);
    SelectionKeeps(t5, t4, Kept(MissingMask(t4, NaThreshold)));
    SelectionKeeps(t6, t5, Kept(SentinelMask(t5, NotApplicable)));
    SelectionKeeps(t7, t6, Kept(SentinelMask(t6, NotApplication)));
    if "country" in t7.names && "year" in t7.names {
      InformationalHasRows(t7);
    }
  }

  // ---------------------------------------------------------------------------
  // tidy_numerical
  // ---------------------------------------------------------------------------

  /** Labels of the int64/float64 columns (`select_dtypes`). */
  function NumericNames(t: Table): set<string>
    requires Valid(t)
  {
    set j | 0 <= j < |t.names| && t.numeric[j] :: t.names[j]
  }

  function NumericalMask(t: Table): (mask: seq<bool>)
    requires Valid(t)
    ensures |mask| == |t.names|
    ensures forall j :: 0 <= j < |t.names| ==>
      (mask[j] <==> t.names[j] in Identifiers || t.names[j] in NumericNames(t))
  {
    seq(|t.names|, j requires 0 <= j < |t.names| => t.names[j] in Identifiers || t.names[j] in NumericNames(t))
  }

  /** `tidy_numerical` (tidy.py:94-102): keep, in input order and with their cells,
      exactly the columns labelled country/year/code or carrying the label of a
      numeric column. */
  function TidyNumerical(t: Table): (r: Table)
    requires Valid(t)
    ensures ColumnsFrom(r, t, Kept(NumericalMask(t)))
    ensures forall k :: 0 <= k < |r.names| ==> r.names[k] in Identifiers || r.names[k] in NumericNames(t)
    ensures forall j :: 0 <= j < |t.names| && (t.names[j] in Identifiers || t.numeric[j]) ==> t.names[j] in r.names
    ensures Distinct(t.names) ==> Distinct(r.names) && forall k :: 0 <= k < |r.names| ==> r.names[k] in Identifiers || r.numeric[k]
  {
    var mask := NumericalMask(t);
    SelectedNames(t, mask);
    if Distinct(t.names) then NumericalKeepsNumeric(t); SelectColumns(t, mask)
    else SelectColumns(t, mask)
  }

  lemma NumericalKeepsNumeric(t: Table)
    requires Valid(t) && Distinct(t.names)
    ensures var r := SelectColumns(t, NumericalMask(t));
      forall k :: 0 <= k < |r.names| ==> r.names[k] in Identifiers || r.numeric[k]
  {
    var mask := NumericalMask(t);
    var r := SelectColumns(t, mask);
    var ks := Kept(mask);
    forall k | 0 <= k < |r.names| && r.names[k] !in Identifiers
      ensures r.numeric[k]
    {
      var j :| 0 <= j < |t.names| && t.numeric[j] && t.names[j] == r.names[k];
      assert t.names[j] == t.names[ks[k]];
    }
  }

  // ---------------------------------------------------------------------------
  // Sorting by (code, year)
  // ---------------------------------------------------------------------------

  function RowKey(ci: nat, yi: nat): Row -> (Cell, Cell) {
    (row: Row) => (CellAt(row, ci), CellAt(row, yi))
  }

  /** Rows ascending by code, and by year among equal codes. */
  predicate SortedByCodeAndYear(rows: seq<Row>, ci: nat, yi: nat) {
    forall i, j :: 0 <= i < j < |rows| ==>
      KeyLe((CellAt(rows[i], ci), CellAt(rows[i], yi)), (CellAt(rows[j], ci), CellAt(rows[j], yi)))
  }

  /** `sort_values(['code', 'year'], ascending=[True, True])` (tidy.py:104-105):
      both labels must name one column each; the rows are permuted into
      (code, year) order. */
  function SortByCodeAndYear(t: Table): (r: Result<Table>)
    requires Valid(t)
    ensures r.Ok? <==> UniqueLabel(t.names, "code") && UniqueLabel(t.names, "year")
    ensures r.Err? ==> r.failure in {KeyError("code"), DuplicateLabel("code"), KeyError("year"), DuplicateLabel("year")}
    ensures r.Ok? ==> Valid(r.value) && r.value.names == t.names && r.value.numeric == t.numeric
    ensures r.Ok? ==> multiset(r.value.rows) == multiset(t.rows)
    ensures r.Ok? ==> SortedByCodeAndYear(r.value.rows, Find(t.names, "code"), Find(t.names, "year"))
  {
    var ci :- Lookup(t.names, "code");
    var yi :- Lookup(t.names, "year");
    KeyLeIsTotalPreorder();
    var rows := SortBy(RowKey(ci, yi), KeyLe, t.rows);
    PermutedRowsValid(t, rows);
    SortedByKey(rows, ci, yi);
    Ok(t.(rows := rows))
  }

  /** Reordering the rows of a valid table gives a valid table. */
  lemma PermutedRowsValid(t: Table, rows: seq<Row>)
    requires Valid(t) && multiset(rows) == multiset(t.rows)
    ensures Valid(t.(rows := rows))
  {
    forall i | 0 <= i < |rows| ensures rows[i] in t.rows {
      assert rows[i] in multiset(rows);
    }
  }

  lemma SortedByKey(rows: seq<Row>, ci: nat, yi: nat)
    requires SortedBy(RowKey(ci, yi), KeyLe, rows)
    ensures SortedByCodeAndYear(rows, ci, yi)
  {
    forall i, j | 0 <= i < j < |rows|
      ensures KeyLe((CellAt(rows[i], ci), CellAt(rows[i], yi)), (CellAt(rows[j], ci), CellAt(rows[j], yi)))
    {
      assert KeyLe(RowKey(ci, yi)(rows[i]), RowKey(ci, yi)(rows[j]));
    }
  }

  // ---------------------------------------------------------------------------
  // tidy
  // ---------------------------------------------------------------------------

  /** The two snapshots `tidy` writes, under the file stem it writes them to,
      and the frame it returns (the cleaned snapshot, renumbered 0..n-1). */
  datatype TidyOutput = TidyOutput(title: string, informational: Table, cleaned: Table)

  /** `tidy` (tidy.py:107-151) with the `to_csv` side effects returned as values. */
  function Tidy(t: Table, title: string, dataColumns: map<string, string>,
                ogCountry: string, ogYear: string, dropColumns: Option<seq<string>>,
                ogCode: string): (r: Result<TidyOutput>)
    requires Valid(t)
    ensures r.Ok? ==> r.value.title == NormalizeName(title)
    ensures r.Ok? ==> IsNormalName(r.value.title) && |r.value.title| == |title|
    ensures r.Ok? ==> Informational(r.value.informational)
    ensures r.Ok? ==> InformationalOf(r.value.informational, Rename(t, NormalizedValues(dataColumns)),
                                      IdentifierRenames(ogCountry, ogCode, ogYear), DropList(dropColumns))
    ensures r.Ok? ==> var c := r.value.cleaned; var n := TidyNumerical(r.value.informational);
      && Valid(c)
      && c.names == n.names
      && multiset(c.rows) == multiset(n.rows)
      && SortedByCodeAndYear(c.rows, Find(c.names, "code"), Find(c.names, "year"))
    ensures r.Ok? ==> var c := r.value.cleaned;
      && Distinct(c.names)
      && "country" in c.names && "year" in c.names && "code" in c.names
      && (forall k :: 0 <= k < |c.names| ==> c.names[k] in Identifiers || c.numeric[k])
      && (forall k :: 0 <= k < |c.names| ==> IsNormalName(c.names[k]))
      && YearsInRange(c)
  {
    var stem := NormalizeName(title);
    var t1 := Rename(t, NormalizedValues(dataColumns));
    var info :- TidyInformational(t1, ogCountry, ogCode, ogYear, dropColumns);
    var num := TidyNumerical(info);
    var cleaned :- SortByCodeAndYear(num);
    TidyFacts(info, num, cleaned);
    Ok(TidyOutput(stem, info, cleaned))
  }

  /** `{key: value.replace(" ", "_").lower() ...}` (tidy.py:137-138). */
  function NormalizedValues(m: map<string, string>): (r: map<string, string>)
    ensures r.Keys == m.Keys
    ensures forall k :: k in m ==> r[k] == NormalizeName(m[k])
  {
    map k | k in m :: NormalizeName(m[k])
  }

  lemma TidyFacts(info: Table, num: Table, cleaned: Table)
    requires Informational(info)
    requires num == TidyNumerical(info)
    requires Valid(cleaned) && cleaned.names == num.names && cleaned.numeric == num.numeric
    requires multiset(cleaned.rows) == multiset(num.rows)
    requires UniqueLabel(num.names, "code")
    ensures Distinct(cleaned.names)
    ensures "country" in cleaned.names && "year" in cleaned.names && "code" in cleaned.names
    ensures forall k :: 0 <= k < |cleaned.names| ==> IsNormalName(cleaned.names[k])
    ensures YearsInRange(cleaned)
  {
    var ks := Kept(NumericalMask(info));
    SelectionKeeps(num, info, ks);
    forall i, k | 0 <= i < |cleaned.rows| && 0 <= k < |cleaned.names| && cleaned.names[k] == "year"
      ensures InYearRange(cleaned.rows[i][k])
    {
      assert cleaned.rows[i] in multiset(num.rows);
      var p :| 0 <= p < |num.rows| && num.rows[p] == cleaned.rows[i];
    }
    var ci := Find(info.names, "country");
    var yi := Find(info.names, "year");
    assert info.names[ci] in num.names;
    assert info.names[yi] in num.names;
  }
}
